=== FILE: README.md ===
# Shorty URL service — a Dafny model

This project models the core of a Laravel URL shortener. A client sends a long URL with an
`X-Device-ID` header. The service repairs the URL, then judges it, then stores it under a
random short code. `GET /{code}` redirects to the stored URL through a cache and counts the
click. Only the device that created a record may update or delete it.

The model covers:

- **The URL pipeline of the validator service.**
  - `sanitizeUrl` (`UrlSanitizer`): trim, add a default `https://`, lower-case, percent-encode (`PercentEncoding`).
  - `validateUrl` (`UrlValidator`): the strict `scheme://host[:port][/path]` pattern (`UrlPattern`) and six ordered component checks (`UrlChecks`).
  - `normalizeUrl` and `processUrl` (`UrlNormalizer`): a byte-level model of `parse_url`, default-port removal, slash collapsing and the rebuild.
- **Short codes** (`ShortCode`): the 31-symbol generator, with a length drawn once and a retry loop until the code is free.
- **The API controller** (`UrlStore`): a state machine of records, a redirect cache and the next row id, for `index`, `store`, `show`, `update` and `destroy`. An invariant is proved to hold across all five.
- **The form requests' ownership checks** (`RequestAuthorization`): 400, 404 and 403, in that order of precedence, and the memoised `getUrl`.
- **The fallback cache** (`FallbackCache`): Redis first, then the database, then the callback itself.
- **The health controller's aggregation** (`Health`), **the exception handler's classification** (`ExceptionHandler`), and **the two validation rules** (`Rules`).

Strings are byte strings (`Bytes`, characters below 256). PHP's `trim`, `strtolower`, PCRE
`\s` and `empty` are modelled byte by byte in `Bytes`. The model follows the code in these places:

- `empty("0")` is true, so "0" is reported as a missing URL.
- A host with a single label, such as `localhost`, is accepted.
- `%` is not a safe byte, so a second sanitizing pass escapes it again (`%20` becomes `%2520`).
- `normalizeUrl` sanitizes its input once more, so it is idempotent only on URLs without `%`: `/%` becomes `/%25`, then `/%2525`.
- The alphabet has 31 symbols, not 32.
- An update does not invalidate the cached redirect.
- The scheme check and the path check of `validateUrl` can never fail. This is proved.

Where the repository's documentation or its tests promise otherwise, the model keeps the code's
behaviour. Examples are an idempotent sanitizer, rejection of single-label hosts, and cache
invalidation on update.

## Model

| member | source | states |
|---|---|---|
| Bytes.TrimShape | app/Services/UrlValidatorService.php:149 | trim removes a run of trim bytes at each end and keeps the middle of the string |
| Bytes.TrimEnds | app/Services/UrlValidatorService.php:149 | a non-empty trimmed string neither starts nor ends with a trim byte |
| Bytes.TrimNoop | app/Services/UrlValidatorService.php:149 | a string that neither starts nor ends with a trim byte is its own trim |
| Bytes.LowerIdempotent | app/Services/UrlValidatorService.php:166-167 | lower-casing twice is lower-casing once |
| Bytes.SplitUnique | app/Services/UrlValidatorService.php:182-184 | splitting pieces joined by a separator they do not contain gives the pieces back |
| Bytes.SplitCons | app/Services/UrlValidatorService.php:182 | a piece without the separator, then the separator, splits off as the first piece |
| Bytes.LastIndexOfIsLast | app/Services/UrlValidatorService.php:238 | the separator search that parse_url uses for the port finds the last occurrence |
| PercentEncoding.EncodeByte | app/Services/UrlValidatorService.php:197-216 | '/', the reserved bytes and the safe bytes are copied; any other byte becomes '%' and two upper-case hex digits whose value is the byte |
| PercentEncoding.Encode | app/Services/UrlValidatorService.php:192-220 | the output is at least as long as the input, and every output byte is a kept byte or the '%' of an escape |
| PercentEncoding.EncodeFixedIff | app/Services/UrlValidatorService.php:192-229 | encoding leaves a string unchanged exactly when every byte of it is kept |
| PercentEncoding.EncodeGrows | app/Services/UrlValidatorService.php:212-213 | one byte that needs escaping makes the output strictly longer |
| PercentEncoding.EncodeWithoutPercentIsIdentity | app/Services/UrlValidatorService.php:192-220 | an output with no '%' is the input itself |
| PercentEncoding.PercentIsEncoded | app/Services/UrlValidatorService.php:17 | '%' is outside the safe set and is escaped as "%25" |
| PercentEncoding.SpaceEscapedTwice | app/Services/UrlValidatorService.php:212-213 | a space becomes "%20", and encoding "%20" again gives "%2520" |
| PercentEncoding.EncodeAvoidsUnsafe | app/Services/UrlValidatorService.php:16-17 | no encoder output contains a byte of UNSAFE_CHARACTERS, PCRE whitespace or a trim byte |
| PercentEncoding.DecodeEncode | app/Services/UrlValidatorService.php:192-220 | percent-decoding inverts the encoder, so encoding loses nothing |
| UrlSanitizer.SanitizePathIsEncode | app/Services/UrlValidatorService.php:179-187 | splitting the path on '/', encoding each segment and joining equals encoding the whole path |
| UrlSanitizer.JoinEncodeEach | app/Services/UrlValidatorService.php:182-186 | joining the encoded segments with '/' equals encoding the joined segments |
| UrlSanitizer.Prefixed | app/Services/UrlValidatorService.php:149-154 | the trimmed input always gets a scheme prefix: it is kept if it had one, and "https://" is prepended if not |
| UrlSanitizer.SanitizeEmptyIff | app/Services/UrlValidatorService.php:144-146 | the sanitized URL is empty exactly when the input is PHP-empty ("" or "0") |
| UrlSanitizer.SanitizeHasSchemePrefix | app/Services/UrlValidatorService.php:152-173 | a non-empty input always sanitizes to a string with a scheme prefix |
| UrlSanitizer.SanitizeDefaultsToHttps | app/Services/UrlValidatorService.php:152-154 | an input without a scheme prefix sanitizes to a string that starts with "https://" |
| UrlSanitizer.SanitizedPartsWellFormed | app/Services/UrlValidatorService.php:166-171 | lower-casing the scheme and host and encoding the path keep the captures well-formed |
| UrlSanitizer.SanitizeOfMatched | app/Services/UrlValidatorService.php:157-173 | a string that already matches the strict pattern sanitizes to its lower-cased, path-encoded assembly |
| UrlSanitizer.SanitizeFixpoint | app/Services/UrlValidatorService.php:142-174 | sanitizing is idempotent on outputs that contain no '%' |
| UrlSanitizer.SanitizedNeedsNoSanitization | app/Services/UrlValidatorService.php:285-288 | a sanitized URL without '%' does not need sanitization |
| UrlSanitizer.SanitizeTwiceDoubleEncodes | app/Services/UrlValidatorService.php:171 | a path byte that needs escaping makes a second sanitization strictly longer than the first |
| UrlSanitizer.SanitizedPathSafe | app/Services/UrlValidatorService.php:171-173 | the path of a sanitized URL has no unsafe byte |
| UrlSanitizer.SanitizeLastByte | app/Services/UrlValidatorService.php:149-173 | a non-empty input sanitizes to a string that does not end in a trim byte, so the pattern's "\n" allowance never applies |
| UrlPattern.StrictMatch | app/Services/UrlValidatorService.php:35 | a match yields well-formed captures that assemble to the string, or to the string without one final "\n" |
| UrlPattern.StrictMatchIff | app/Services/UrlValidatorService.php:35 | the pattern matches with captures c exactly when c is well-formed and the string is c assembled, optionally followed by "\n" |
| UrlPattern.MatchWholeComplete | app/Services/UrlValidatorService.php:35 | every well-formed set of captures is found again by the matcher on its assembly |
| UrlPattern.AssembleInjective | app/Services/UrlValidatorService.php:35 | well-formed captures are determined by the string they assemble to |
| UrlPattern.HasSchemePrefixIff | app/Services/UrlValidatorService.php:152 | the prefix test holds exactly when the string starts with a letter, then scheme bytes, then "://" |
| UrlChecks.HostPieces | app/Services/UrlValidatorService.php:106-112 | a host is a dotted quad, or a domain name, exactly when its '.'-separated pieces are four octets, or labels followed by a top label of at least two letters |
| UrlChecks.DomainNameOf | app/Services/UrlValidatorService.php:111-112 | labels and a top label joined with '.' form a domain name, and splitting the name gives them back |
| UrlChecks.SingleLabelAccepted | app/Services/UrlValidatorService.php:111-112 | a host that is one top label of two or more letters, with no dot, passes the host check |
| UrlChecks.TwoLabelAccepted | app/Services/UrlValidatorService.php:111-112 | a label, a dot and a top label of at least two letters form a valid host |
| UrlChecks.DottedQuadAccepted | app/Services/UrlValidatorService.php:106-108 | four octets joined by dots form a valid host |
| UrlChecks.QuadHostAccepted | app/Services/UrlValidatorService.php:106-108 | a list of exactly four octets joined with '.' is a valid host |
| UrlChecks.NumericHost | app/Services/UrlValidatorService.php:106-112 | a host of non-empty digit pieces is valid exactly when it has four pieces and each is an octet, because the top label needs letters |
| UrlChecks.LeadingDotRejected | app/Services/UrlValidatorService.php:106-112 | a host that starts with '.' is neither an IPv4 address nor a domain name |
| UrlChecks.DoubleDotRejected | app/Services/UrlValidatorService.php:106-112 | a host with an empty piece between two dots is rejected |
| UrlCheckExamples.LocalhostAccepted | app/Services/UrlValidatorService.php:99-113 | "localhost" is a valid host |
| UrlCheckExamples.DigitLabelAccepted | app/Services/UrlValidatorService.php:111 | "123.com" is a valid host, because a label may consist of digits |
| UrlCheckExamples.TwoLetterTopRequired | app/Services/UrlValidatorService.php:111 | "a.b" is rejected, because its top label has one letter |
| UrlCheckExamples.QuadAccepted | app/Services/UrlValidatorService.php:106-108 | "192.168.1.1" is a valid host |
| UrlCheckExamples.OctetOverflowRejected | app/Services/UrlValidatorService.php:106-112 | "256.256.256.256" is neither an IPv4 address nor a domain name |
| UrlCheckExamples.TrailingDotRejected | app/Services/UrlValidatorService.php:111 | "example." is rejected |
| UrlCheckExamples.LeadingDotExample | app/Services/UrlValidatorService.php:111 | ".example.com" is rejected |
| UrlCheckExamples.EmptyLabelExample | app/Services/UrlValidatorService.php:111 | "example..com" is rejected |
| UrlCheckExamples.PortExamples | app/Services/UrlValidatorService.php:118-122 | ports 8080 and 65535 pass; ports 0 and 65536 fail |
| UrlValidator.Checks | app/Services/UrlValidatorService.php:46-74 | the checks report nothing exactly when the scheme is valid and is http or https in any case, the host is valid, any port is in range, any path is safe and the URL has at most 2048 bytes |
| UrlValidator.ChecksInOrder | app/Services/UrlValidatorService.php:46-74 | errors come in the order scheme, common scheme, host, port, path, length, each at most once |
| UrlValidator.ChecksMember | app/Services/UrlValidatorService.php:46-74 | an error is in the checks' list exactly when it is the error of one of the six checks and that check fails |
| UrlValidator.ChecksReport | app/Services/UrlValidatorService.php:46-74 | no check short-circuits another: the scheme, uncommon-scheme, host, port, path and length errors are each reported exactly when their own check fails, and nothing else is reported |
| UrlValidator.ValidateUrlReportsEach | app/Services/UrlValidatorService.php:31-74 | once the sanitized URL matches the pattern, `validateUrl` lists an error exactly when the check it belongs to fails |
| UrlValidator.ValidateUrl | app/Services/UrlValidatorService.php:76-85 | valid exactly when there are no errors; parts are present exactly when valid, and then they assemble to the sanitized URL |
| UrlValidator.ValidateEmpty | app/Services/UrlValidatorService.php:26-29 | a PHP-empty input gives exactly the error "URL is required" and no parts |
| UrlValidator.FormatFailureAlone | app/Services/UrlValidatorService.php:36-39 | when the pattern fails, the format error is the only error |
| UrlValidator.NeverInvalidScheme | app/Services/UrlValidatorService.php:47-49 | the scheme error is never reported, because the pattern's scheme group already has the scheme syntax |
| UrlValidator.NeverInvalidPath | app/Services/UrlValidatorService.php:67-69 | the path error is never reported, because sanitizing has escaped every unsafe path byte |
| UrlValidator.ValidateUrlValidIff | app/Services/UrlValidatorService.php:22-86 | a URL is valid exactly when it is non-empty, its sanitized form matches, the scheme is http or https, the host and any port pass, and the sanitized form has at most 2048 bytes |
| UrlValidator.UncommonSchemeReported | app/Services/UrlValidatorService.php:52-54 | a matched scheme other than http or https is reported exactly once as uncommon |
| UrlValidatorExamples.BareIsValid | app/Services/UrlValidatorService.php:149-173 | "example.com" is valid, with parts https, example.com, no port and no path |
| UrlValidatorExamples.ZeroIsEmpty | app/Services/UrlValidatorService.php:26-29 | "0" sanitizes to "" and is reported as a missing URL |
| UrlNormalizer.Uncontrol | app/Services/UrlValidatorService.php:238 | parse_url replaces each control byte of a component with '_' and keeps every other byte |
| UrlNormalizer.KeptPort | app/Services/UrlValidatorService.php:251-256 | the port is dropped exactly when it is absent or is 80 for http, 443 for https or 21 for ftp; otherwise it is kept |
| UrlNormalizer.CollapseSlashesSpec | app/Services/UrlValidatorService.php:259 | after collapsing, no "//" remains and the non-slash bytes are unchanged |
| UrlNormalizer.CollapseSlashesNoop | app/Services/UrlValidatorService.php:259 | a path without "//" is left unchanged |
| UrlNormalizer.NormalizePath | app/Services/UrlValidatorService.php:258-264 | the normalized path has no "//" and ends in '/' only when it is "/" |
| UrlNormalizer.NormalizePathIdempotent | app/Services/UrlValidatorService.php:258-264 | normalizing a path twice gives the same result as normalizing it once |
| UrlNormalizer.NormalizeUrl | app/Services/UrlValidatorService.php:236-241 | when parse_url fails, the sanitized string is returned unchanged |
| UrlNormalizer.ParseUrlOf | app/Services/UrlValidatorService.php:238-249 | parse_url splits "scheme://host[:port]" followed by a path, query or fragment back into those components |
| UrlNormalizer.ScanPortOf | app/Services/UrlValidatorService.php:238-246 | in a plain host followed by an optional readable port, parse_url's port scan finds the host's end and the port's value |
| UrlNormalizer.ParseUrlAuthority | app/Services/UrlValidatorService.php:238 | after "scheme://", when the rest does not start with '/', parse_url goes on to read an authority |
| UrlNormalizer.ParseAssembled | app/Services/UrlValidatorService.php:238-247 | a URL assembled from a plain host, a readable port and a plain path parses back into those parts |
| UrlNormalizer.NormalizeAssembled | app/Services/UrlValidatorService.php:234-280 | for such a sanitized URL, normalizing gives the lower-case scheme and host, the port unless it is the default, and the collapsed path |
| UrlNormalizer.NormalizeFixpoint | app/Services/UrlValidatorService.php:234-280 | for a URL whose sanitization is scheme://host[:port][path] without '%', with a plain host, a readable port and a plain path, the normalized URL is the normal form of those parts (lower-case scheme and host, port unless default, collapsed path); sanitizing it changes nothing, and normalizing it again returns it unchanged |
| UrlNormalizer.NormalFormOfSanitizedFixed | app/Services/UrlValidatorService.php:234-280 | the normal form of parts that sanitizing leaves unchanged is itself left unchanged by sanitizing and by normalizing |
| UrlNormalizerExamples.PercentPathNotFixed | app/Services/UrlValidatorService.php:236 | because normalizeUrl sanitizes its input again, "https://a.co/%" normalizes to "https://a.co/%25", which normalizes to "https://a.co/%2525": on a path with '%', normalizing twice differs from normalizing once |
| UrlNormalizer.NormalizeQueryFragment | app/Services/UrlValidatorService.php:238-279 | for a sanitized URL with a query and a fragment after the path, normalizing keeps the query and the fragment unchanged behind '?' and '#' unless they are PHP-empty, next to the lower-cased scheme and host, the kept port and the collapsed path |
| UrlNormalizer.SplitTailOf | app/Services/UrlValidatorService.php:238 | parse_url splits the part after the host into the path, the query after the first '?' and the fragment after the first '#' |
| UrlNormalizer.NormalizeHasSchemePrefix | app/Services/UrlValidatorService.php:234-267 | a non-empty input normalizes to a string with a scheme prefix, whichever branch parse_url takes |
| UrlNormalizer.ParseUrlScheme | app/Services/UrlValidatorService.php:238-244 | on a string with a scheme prefix, parse_url reports the prefix's scheme token as the scheme |
| UrlNormalizer.NormalizeEmpty | app/Services/UrlValidatorService.php:244-271 | "" and "0" normalize to "://" |
| UrlNormalizer.PortPartIff | app/Services/UrlValidatorService.php:252-270 | the port text is empty exactly when there is no port, the port is 0, or it is the scheme's default; otherwise it is ':' and the decimal port |
| UrlNormalizer.DefaultPorts | app/Services/UrlValidatorService.php:252-256 | http:80, https:443 and ftp:21 lose their port, and https:80 keeps ":80" |
| UrlNormalizer.PortValueOfDigits | app/Services/UrlValidatorService.php:246 | parse_url reads a digit string of at most 65535 as its decimal value |
| UrlNormalizer.ProcessUrlReport | app/Services/UrlValidatorService.php:293-308 | the sanitized field is empty exactly for a PHP-empty input, and otherwise it and the normalized field have a scheme prefix; a PHP-empty input normalizes to "://"; without a '%' the second sanitization inside normalizeUrl changes nothing, so the normalized field is the input's own normalization and the sanitized field needs no more sanitizing |
| UrlNormalizer.ProcessAssembled | app/Services/UrlValidatorService.php:293-308 | when the sanitized form is scheme://host[:port][path] without '%', the normalized field has the lower-case scheme and host, the port unless it is the default, and the collapsed path |
| ShortCode.AlphabetSize | app/Models/Url.php:33 | the alphabet has 31 symbols |
| ShortCode.AlphabetIsRouteClass | routes/web.php:54 | a character is in the alphabet exactly when it is in the route class [A-HJ-KM-NP-Z2-9] |
| ShortCode.NoLookAlikes | app/Models/Url.php:33 | 0, O, 1, I and L are not in the alphabet |
| ShortCode.ShortCodeMatchesRoute | routes/web.php:54 | every generated code matches the redirect route and avoids the look-alikes |
| ShortCode.DrawCode | app/Models/Url.php:37-40 | a candidate has the drawn length, and every symbol comes from the alphabet |
| ShortCode.GenerateShortCode | app/Models/Url.php:31-44 | every attempt has the same length in 6..8; every attempt but the last was taken; a returned code is the last attempt and is free |
| RequestAuthorization.AuthorizeIff | app/Http/Requests/UpdateUrlRequest.php:14-79 | a request reaches the controller exactly when `authorize` holds, which is exactly when the record's owner is the header's device; every other request gets the refusal `failedAuthorization` picks |
| RequestAuthorization.DecideCases | app/Http/Requests/UpdateUrlRequest.php:66-79 | a missing header gives 400 "Device ID required"; otherwise a missing record gives 404 "URL not found"; a foreign device gives 403 "Unauthorized to update this URL" on an update and 403 "Unauthorized to delete this URL" on a deletion (the latter at app/Http/Requests/DeleteUrlRequest.php:53); the owner is allowed |
| RequestAuthorization.DeniedStatus | app/Http/Requests/DeleteUrlRequest.php:41-54 | each refusal status names the first failing check, so 400, 404 and 403 exclude each other |
| RequestAuthorization.FailedAuthorization | app/Http/Requests/DeleteUrlRequest.php:41-54 | a failed authorization always aborts with an error |
| RequestAuthorization.GetUrl | app/Http/Requests/DeleteUrlRequest.php:67-74 | a set memo is returned unchanged, and the memo afterwards is the returned value |
| RequestAuthorization.GetUrlMemoised | app/Http/Requests/DeleteUrlRequest.php:67-74 | once a call has found the record, every later call returns the same record, whatever the table holds |
| RequestAuthorization.GetUrlStays | app/Http/Requests/DeleteUrlRequest.php:69-73 | with the memo set, every call returns the memo |
| UrlStore.CacheKeyInjective | app/Http/Controllers/Api/UrlController.php:294 | two codes have the same cache key exactly when they are the same code |
| UrlStore.InitialInv | app/Http/Controllers/Api/UrlController.php:228-232 | the empty table with an empty cache satisfies the store invariant |
| UrlStore.FindCodeUnique | app/Http/Controllers/Api/UrlController.php:295 | under the invariant, looking up a record's code finds that record |
| UrlStore.IndexIff | app/Http/Controllers/Api/UrlController.php:122-130 | a record is listed exactly when it belongs to the device and, if the search is filled, its URL contains the search text as given; only the filled test ignores surrounding whitespace |
| UrlStore.FilterIff | app/Http/Controllers/Api/UrlController.php:124-130 | the filter keeps exactly the selected records |
| UrlStore.StoreRecord | app/Http/Controllers/Api/UrlController.php:219-232 | the stored URL is the one `processUrl` reports as normalized, and the sanitized flag is its needs-sanitization flag; the URL has a scheme prefix whenever the input is not PHP-empty; without a '%' after sanitizing, the stored URL is the input's own normalization |
| UrlStore.StorePreservesInv | app/Http/Controllers/Api/UrlController.php:228-232 | storing under a fresh code keeps the invariant |
| UrlStore.StoreUrl | app/Http/Controllers/Api/UrlController.php:205-255 | a stored URL gets a valid short code that no record had, the repaired URL, and one more record at the end; the invariant holds |
| UrlStore.ShowNotFound | app/Http/Controllers/Api/UrlController.php:294-301 | a redirect is refused exactly when no record has the code, and then nothing changes |
| UrlStore.ShowFound | app/Http/Controllers/Api/UrlController.php:294-321 | exactly the code's record gains one click; the record is cached under its key; the redirect goes to the cached URL if there was one, else to the stored URL |
| UrlStore.ShowPreservesInv | app/Http/Controllers/Api/UrlController.php:289-322 | a redirect keeps the invariant |
| UrlStore.ShowAfterStore | app/Http/Controllers/Api/UrlController.php:228-321 | right after a store, the new code redirects to the repaired URL |
| UrlStore.UpdateEffect | app/Http/Controllers/Api/UrlController.php:413-427 | an update succeeds exactly for the owner; it then changes only that record's URL, leaving the cache as it was; a refusal changes nothing |
| UrlStore.UpdatePreservesInv | app/Http/Controllers/Api/UrlController.php:413-427 | an update keeps the invariant |
| UrlStore.StaleRedirectAfterUpdate | app/Http/Controllers/Api/UrlController.php:294-296 | a code cached before an update still redirects to the cached URL afterwards |
| UrlStore.DestroyEffect | app/Http/Controllers/Api/UrlController.php:478-487 | a deletion succeeds exactly for the owner; it removes exactly that record and its cache entry; a refusal changes nothing |
| UrlStore.DestroyPreservesInv | app/Http/Controllers/Api/UrlController.php:478-487 | a deletion keeps the invariant |
| UrlStore.RemovePreservesInv | app/Http/Controllers/Api/UrlController.php:483-484 | removing a record and its cache entry keeps the invariant |
| UrlStore.RemoveKeepsFind | app/Http/Controllers/Api/UrlController.php:484 | after removing record i, every other record is found by its id, one place earlier if it came after i |
| UrlStore.CachedCodeStored | app/Http/Controllers/Api/UrlController.php:294-296 | under the invariant, every cached record's code is the code of a stored record |
| UrlStore.FreshCodeNotCached | app/Http/Controllers/Api/UrlController.php:219-232 | a code that no record has is not cached, so a fresh code never redirects from a stale entry |
| UrlStore.ShowAfterDestroy | app/Http/Controllers/Api/UrlController.php:483-484 | after a deletion, the deleted record's code no longer redirects |
| FallbackCache.Remember | app/Services/FallbackCacheService.php:17-44 | the Redis tier answers exactly when Redis returns, the database tier exactly when Redis throws and the database returns, the direct callback exactly when both throw and it returns, and `remember` throws exactly when all three throw |
| FallbackCache.RememberIsFirstReturned | app/Services/FallbackCacheService.php:17-44 | the value is that of the first of Redis, the database and the direct callback that returns, and `remember` throws only when none does |
| FallbackCache.Put | app/Services/FallbackCacheService.php:67-89 | the result is the first tier's answer, and false when both tiers throw |
| FallbackCache.PutIsFirstReturned | app/Services/FallbackCacheService.php:67-89 | put is the first answer among Redis and the database, or false when neither answers |
| FallbackCache.Forget | app/Services/FallbackCacheService.php:46-65 | both tiers are always tried, in order, and success means that neither threw |
| Health.DetermineOverallHealth | app/Http/Controllers/HealthController.php:179-208 | the status is unhealthy exactly when some service is unhealthy, and then the issues are those services in order; it is degraded exactly when none is unhealthy and some is degraded, and then the warnings are those services |
| Health.Check | app/Http/Controllers/HealthController.php:14-36 | the response is 200 exactly when the status is healthy, and 503 otherwise; the status is healthy exactly when no service is unhealthy or degraded |
| Health.NamesWithPermutation | app/Http/Controllers/HealthController.php:184-190 | reordering the services only reorders the reported names |
| Health.NamesWithConcat | app/Http/Controllers/HealthController.php:184-190 | the names reported for two runs of services are the names of the first run followed by those of the second |
| ExceptionHandler.Render503Iff | app/Exceptions/Handler.php:35-54 | the response is 503 exactly when the message names a database connection error |
| ExceptionHandler.RenderDegradedIff | app/Exceptions/Handler.php:56-71 | a 200 "degraded" JSON answer comes exactly for a JSON request whose message is a Redis error and not a database error |
| ExceptionHandler.RefusedRedisPortIsDatabase | app/Exceptions/Handler.php:76-89 | "Connection refused" on port 6379 counts as a Redis error, but the database check runs first and answers 503 |
| ExceptionHandler.PortAloneIsNotRedis | app/Exceptions/Handler.php:84-89 | "6379" alone, without "Redis" or "Connection refused", is not a Redis error |
| ExceptionHandler.RedisNameIsRedis | app/Exceptions/Handler.php:84-89 | any message naming Redis is a Redis error, and a non-JSON request then falls through to the parent handler |
| Rules.Rfc1738Validate | app/Rules/ValidRfc1738Url.php:24-37 | at most one failure; a non-string fails with the not-a-string message; a string fails exactly when the validator rejects it |
| Rules.Rfc1738FailMessage | app/Rules/ValidRfc1738Url.php:33-36 | the failure message is the fixed prefix followed by the validator's errors joined with ". " |
| Rules.Rfc1738EmptyFails | app/Rules/ValidRfc1738Url.php:31-36 | "" and "0" fail with "URL is required" |
| Rules.Rfc1738SchemelessPasses | app/Rules/ValidRfc1738Url.php:31-36 | "example.com", which has no scheme, passes the rule |
| Rules.AllowedSchemes | app/Rules/ValidUrlScheme.php:15-18 | without an argument the allowed schemes are http and https |
| Rules.SchemeValidate | app/Rules/ValidUrlScheme.php:23-43 | at most one failure; a non-string or a missing scheme fails with its message; otherwise the rule passes exactly when the lower-cased scheme is allowed |
| Rules.DefaultSchemeExamples | app/Rules/ValidUrlScheme.php:37-42 | with the defaults, "hTTpS" passes and "ftp" fails with a message listing "http, https" |
| Rules.SchemeRuleOnUrl | app/Rules/ValidUrlScheme.php:30-42 | on "scheme://host..." the rule passes exactly when the lower-cased scheme is allowed |

## Left out

- Logging, timing, middleware, the Swagger annotations and the health probes of each service: they do not change a response. The health statuses enter `Health.Check` as parameters.
- The declarative rules of `StoreUrlRequest`, `UpdateUrlRequest` and `IndexUrlRequest`: the model of `update` takes their outcome as a parameter, and a failure answers 422. `store` is modelled after those rules have passed.
- Pagination, `per_page` and the `latest()` ordering of `index`. The `LIKE` search is modelled as a substring test, so its `%` and `_` wildcards and the database's case rules are not modelled.
- Concurrency between requests: for example, two stores that draw the same free code, or a record deleted between authorization and the controller. Each request is one atomic step.
- FallbackCache.Remember: a call is modelled as returning or throwing an `Exception`; a PHP `Error` or other `Throwable` that is not an `Exception` escapes every `catch` of the service at once, and no member models that. The same holds for `FallbackCache.Put` and `FallbackCache.Forget`.
- Cache time-to-live, `expires_at` and the timestamps. The cache in `UrlStore` is one map standing for whichever tier answers; `FallbackCache` models the tier choice on its own.
- `Cache::remember` storing a null result: a null read back counts as a miss, so the model does not cache misses, and the observable behaviour is the same.
- Randomness: `rand` and `random_int` are nondeterministic choices in `ShortCode`.
- ShortCode.GenerateShortCode: the retry loop runs at most `fuel` draws instead of without bound, and returns `None` when every draw was taken.
- The starting click count of 0 comes from the base table migration. That migration is not part of this model.
- Route ids are natural numbers: a non-numeric `{url}` parameter is not modelled.
- UrlNormalizer.NormalizeUrl: idempotence is proved only for URLs whose sanitization has no '%' (`UrlNormalizer.NormalizeFixpoint`). On a path with '%' the second sanitization at app/Services/UrlValidatorService.php:236 escapes the '%' again, so normalizing is not idempotent there (`UrlNormalizerExamples.PercentPathNotFixed`). URLs with a query or a fragment, and hosts in brackets, are outside the fixpoint lemma.
- UrlNormalizer.ParseUrl: `parse_url` is modelled for the empty string and for strings with a "scheme://" prefix, which are the only inputs `normalizeUrl` can receive. Other strings are split as a bare path. A host that starts with '[' and ends with ']' is taken whole, without looking for a port colon inside it, as `parse_url` does; the address inside the brackets is not validated, and userinfo and internationalised names are not modelled beyond dropping everything up to the last '@'.
- Rules.SchemeValidate: the scheme that `parse_url` extracts from an arbitrary string is a parameter. `Rules.SchemeRuleOnUrl` ties it to the parser model on "scheme://host..." strings. PHP's loose `in_array` comparison is modelled as exact membership. PHP 8 compares two numeric strings as numbers, so with a list holding a numeric string a digit-led scheme such as "1e1" would match "10" and "01" would match "1"; the model rejects those schemes.
- UrlChecks.ValidatePort: defined on digit strings only, the only strings the pattern's port group can capture.
- The `timestamp` fields of the exception handler's JSON answers, and the view and parent renderer, are not modelled: they are constants (`ErrorView503`, `ParentRender`).

=== FILE: bytes.dfy ===
/**
 * PHP strings are byte strings. A byte is modelled as a `char` below 256 so that
 * string literals can be used directly; the primitives below are the few PHP
 * built-ins the URL pipeline relies on (`empty`, `trim`, `strtolower`,
 * `explode`/`implode`, `strpos`, `(int)` on digit strings, `sprintf('%02X')`).
 */
module Bytes {
  import opened Wrappers

  type Byte = c: char | c as int < 256
  type Bytes = seq<Byte>

  predicate IsAsciiLetter(c: char) { 'a' <= c <= 'z' || 'A' <= c <= 'Z' }
  predicate IsAsciiDigit(c: char) { '0' <= c <= '9' }
  predicate IsAsciiAlnum(c: char) { IsAsciiLetter(c) || IsAsciiDigit(c) }
  predicate IsAsciiUpper(c: char) { 'A' <= c <= 'Z' }

  /** PCRE `\s` with PHP's built-in character tables: space, \t, \n, \v, \f, \r. */
  predicate IsPcreSpace(c: char) { c == ' ' || 9 <= c as int <= 13 }

  /** The bytes PHP's `trim` strips by default: space, \t, \n, \r, \0 and \x0B. */
  predicate IsTrimByte(c: char) {
    c == ' ' || c == '\t' || c == '\n' || c == '\r' || c == '\0' || c as int == 0x0B
  }

  /** PHP `empty()` on a string: only "" and "0" are empty. */
  predicate PhpEmpty(s: string) { s == "" || s == "0" }

  /** PHP truthiness of a string. */
  predicate Truthy(s: string) { !PhpEmpty(s) }

  predicate AllDigits(s: Bytes) { forall i | 0 <= i < |s| :: IsAsciiDigit(s[i]) }

  predicate StartsWith(s: Bytes, prefix: Bytes) { |prefix| <= |s| && s[..|prefix|] == prefix }

  /** `str_contains($haystack, $needle)` / `strpos(...) !== false`. */
  predicate Contains(haystack: string, needle: string) {
    exists i | 0 <= i <= |haystack| - |needle| :: OccursAt(haystack, needle, i)
  }

  predicate OccursAt(haystack: string, needle: string, i: nat) {
    i + |needle| <= |haystack| && haystack[i..i + |needle|] == needle
  }

  // ---------------------------------------------------------------- scanning

  /** The end of the longest run of bytes satisfying `p` that starts at `i`. */
  function SpanWhile(s: Bytes, i: nat, p: Byte -> bool): (j: nat)
    requires i <= |s|
    ensures i <= j <= |s|
    ensures forall k | i <= k < j :: p(s[k])
    ensures j < |s| ==> !p(s[j])
    decreases |s| - i
  {
    if i == |s| || !p(s[i]) then i else SpanWhile(s, i + 1, p)
  }

  lemma {:induction false} SpanWhileExact(s: Bytes, i: nat, j: nat, p: Byte -> bool)
    requires i <= j <= |s|
    requires forall k | i <= k < j :: p(s[k])
    requires j < |s| ==> !p(s[j])
    ensures SpanWhile(s, i, p) == j
    decreases j - i
  {
    if i < j {
      SpanWhileExact(s, i + 1, j, p);
    }
  }

  /** First position of `c` in `s` (`strpos` on one byte). */
  function IndexOf(s: Bytes, c: Byte): (r: Option<nat>)
    ensures r.None? <==> c !in s
    ensures r.Some? ==> r.value < |s| && s[r.value] == c && c !in s[..r.value]
  {
    var j := SpanWhile(s, 0, b => b != c);
    assert c !in s[..j];
    if j == |s| then (assert s[..j] == s; None) else Some(j)
  }

  /** Last position of `c` in `s` (`strrpos` / `memrchr`). */
  function LastIndexOf(s: Bytes, c: Byte): (r: Option<nat>)
    ensures r.None? <==> c !in s
    ensures r.Some? ==> r.value < |s| && s[r.value] == c
  {
    if s == [] then None
    else if s[|s| - 1] == c then Some(|s| - 1)
    else
      var r := LastIndexOf(s[..|s| - 1], c);
      assert s == s[..|s| - 1] + [s[|s| - 1]];
      r
  }

  /** No `c` follows the position `LastIndexOf` reports. */
  lemma {:induction false} LastIndexOfIsLast(s: Bytes, c: Byte)
    ensures LastIndexOf(s, c).Some? ==> c !in s[LastIndexOf(s, c).value + 1..]
    decreases |s|
  {
    if s != [] && s[|s| - 1] != c {
      var t := s[..|s| - 1];
      LastIndexOfIsLast(t, c);
      if LastIndexOf(t, c).Some? {
        var k := LastIndexOf(t, c).value;
        assert s[k + 1..] == t[k + 1..] + [s[|s| - 1]];
      }
    }
  }

  // ---------------------------------------------------------------- trim

  /** `ltrim` with the default byte list: drops the longest prefix of trim bytes. */
  function TrimLeft(s: Bytes): (r: Bytes)
    ensures |r| <= |s| && r == s[|s| - |r|..]
    ensures forall k | 0 <= k < |s| - |r| :: IsTrimByte(s[k])
    ensures r != [] ==> !IsTrimByte(r[0])
  {
    if s != [] && IsTrimByte(s[0]) then TrimLeft(s[1..]) else s
  }

  /** `rtrim` with the default byte list: drops the longest suffix of trim bytes. */
  function TrimRight(s: Bytes): (r: Bytes)
    ensures |r| <= |s| && r == s[..|r|]
    ensures forall k | |r| <= k < |s| :: IsTrimByte(s[k])
    ensures r != [] ==> !IsTrimByte(r[|r| - 1])
  {
    if s != [] && IsTrimByte(s[|s| - 1]) then TrimRight(s[..|s| - 1]) else s
  }

  /** `trim` with the default byte list " \t\n\r\0\x0B". */
  function Trim(s: Bytes): (r: Bytes)
  {
    TrimRight(TrimLeft(s))
  }

  /** `trim` leaves a contiguous part of its input that neither starts nor ends with a trim byte,
      and everything it removed was a trim byte. */
  lemma TrimShape(s: Bytes)
    ensures exists a, b :: 0 <= a <= b <= |s| && Trim(s) == s[a..b]
                           && (forall k | 0 <= k < a :: IsTrimByte(s[k]))
                           && (forall k | b <= k < |s| :: IsTrimByte(s[k]))
  {
    var l := TrimLeft(s);
    var r := TrimRight(l);
    TrimPieces(s, l, r);
    var a := |s| - |l|;
    var b := a + |r|;
    assert Trim(s) == s[a..b];
  }

  lemma TrimPieces(s: Bytes, l: Bytes, r: Bytes)
    requires |l| <= |s| && l == s[|s| - |l|..]
    requires |r| <= |l| && r == l[..|r|]
    requires forall k | |r| <= k < |l| :: IsTrimByte(l[k])
    ensures s[|s| - |l|..|s| - |l| + |r|] == r
    ensures forall k | |s| - |l| + |r| <= k < |s| :: IsTrimByte(s[k])
  {
    var a := |s| - |l|;
    forall k | a + |r| <= k < |s| ensures IsTrimByte(s[k]) {
      assert s[k] == l[k - a];
    }
  }

  /** What `trim` leaves neither starts nor ends with a trim byte. */
  lemma TrimEnds(s: Bytes)
    ensures Trim(s) != [] ==> !IsTrimByte(Trim(s)[0]) && !IsTrimByte(Trim(s)[|Trim(s)| - 1])
  {
    var l := TrimLeft(s);
    var r := TrimRight(l);
    if r != [] {
      assert r[0] == l[0];
    }
  }

  /** A string that neither starts nor ends with a trim byte is its own `trim`. */
  lemma TrimNoop(s: Bytes)
    requires s != [] ==> !IsTrimByte(s[0]) && !IsTrimByte(s[|s| - 1])
    ensures Trim(s) == s
  {
  }

  // ---------------------------------------------------------------- case

  /** `strtolower` on one byte: ASCII only. */
  function LowerByte(c: Byte): (r: Byte)
    ensures IsAsciiUpper(c) ==> r as int == c as int + 32
    ensures !IsAsciiUpper(c) ==> r == c
  {
    if IsAsciiUpper(c) then (c as int + 32) as char else c
  }

  /** `strtolower`: maps A-Z to a-z and leaves every other byte alone. */
  function Lower(s: Bytes): (r: Bytes)
    ensures |r| == |s|
    ensures forall i | 0 <= i < |s| :: r[i] == LowerByte(s[i])
  {
    if s == [] then [] else [LowerByte(s[0])] + Lower(s[1..])
  }

  lemma LowerIdempotent(s: Bytes)
    ensures Lower(Lower(s)) == Lower(s)
  {
  }

  lemma LowerNoop(s: Bytes)
    requires forall i | 0 <= i < |s| :: !IsAsciiUpper(s[i])
    ensures Lower(s) == s
  {
  }

  lemma LowerAppend(a: Bytes, b: Bytes)
    ensures Lower(a + b) == Lower(a) + Lower(b)
  {
  }

  // ---------------------------------------------------------------- explode / implode

  /** `implode($sep, $parts)`. */
  function Join(parts: seq<Bytes>, sep: Bytes): Bytes
  {
    if |parts| == 0 then []
    else if |parts| == 1 then parts[0]
    else parts[0] + sep + Join(parts[1..], sep)
  }

  /** A join ends with the last byte of its last part, when that part is not empty. */
  lemma {:induction false} JoinLastByte(parts: seq<Bytes>, sep: Bytes)
    requires |parts| >= 1 && parts[|parts| - 1] != []
    ensures var j := Join(parts, sep); |j| >= 1 && j[|j| - 1] == parts[|parts| - 1][|parts[|parts| - 1]| - 1]
    decreases |parts|
  {
    if |parts| > 1 {
      assert parts[1..][|parts| - 2] == parts[|parts| - 1];
      JoinLastByte(parts[1..], sep);
    }
  }

  /** `explode($sep, $s)` for a one-byte separator: the pieces between separators. */
  function Split(s: Bytes, sep: Byte): (parts: seq<Bytes>)
    ensures |parts| >= 1
    ensures forall i | 0 <= i < |parts| :: sep !in parts[i]
    ensures Join(parts, [sep]) == s
    decreases |s|
  {
    match IndexOf(s, sep)
    case None => [s]
    case Some(i) =>
      var rest := Split(s[i + 1..], sep);
      assert ([s[..i]] + rest)[1..] == rest;
      assert s == s[..i] + [sep] + s[i + 1..];
      [s[..i]] + rest
  }

  /** The pieces of a string are determined by it: any separator-free decomposition is `explode`'s. */
  lemma {:induction false} SplitUnique(parts: seq<Bytes>, sep: Byte)
    requires |parts| >= 1
    requires forall i | 0 <= i < |parts| :: sep !in parts[i]
    ensures Split(Join(parts, [sep]), sep) == parts
    decreases |parts|
  {
    if |parts| == 1 {
      assert IndexOf(parts[0], sep).None?;
    } else {
      var tail := Join(parts[1..], [sep]);
      assert Join(parts, [sep]) == parts[0] + [sep] + tail;
      SplitCons(parts[0], sep, tail);
      SplitUnique(parts[1..], sep);
      assert parts == [parts[0]] + parts[1..];
    }
  }

  /** `explode` cuts at the first separator. */
  lemma SplitCons(p: Bytes, sep: Byte, tail: Bytes)
    requires sep !in p
    ensures Split(p + [sep] + tail, sep) == [p] + Split(tail, sep)
  {
    var s := p + [sep] + tail;
    var i := |p|;
    assert s[..i] == p;
    IndexOfFirst(s, sep, i);
    assert s[i + 1..] == tail;
  }

  lemma IndexOfFirst(s: Bytes, c: Byte, i: nat)
    requires i < |s| && s[i] == c && c !in s[..i]
    ensures IndexOf(s, c) == Some(i)
  {
    assert c in s;
    var j := IndexOf(s, c).value;
    forall k | 0 <= k < i ensures s[k] != c {
      assert s[..i][k] == s[k];
    }
    forall k | 0 <= k < j ensures s[k] != c {
      assert s[..j][k] == s[k];
    }
  }

  // ---------------------------------------------------------------- numbers

  function DigitValue(c: Byte): nat
    requires IsAsciiDigit(c)
  {
    c as int - '0' as int
  }

  /** The decimal value of a digit string (`(int)` on `\d+`; PHP saturates at PHP_INT_MAX,
      which changes no comparison against 65535). */
  function DecimalValue(ds: Bytes): nat
    requires AllDigits(ds)
  {
    if ds == [] then 0 else DecimalValue(ds[..|ds| - 1]) * 10 + DigitValue(ds[|ds| - 1])
  }

  /** The decimal rendering of a natural number, as PHP prints an int. */
  function DecimalText(n: nat): (r: Bytes)
    ensures |r| >= 1 && AllDigits(r)
    ensures DecimalValue(r) == n
    ensures |r| > 1 ==> r[0] != '0'
  {
    var d := ('0' as int + n % 10) as char;
    if n < 10 then [d]
    else
      var r := DecimalText(n / 10) + [d];
      assert r[..|r| - 1] == DecimalText(n / 10);
      r
  }

  function Pow10(k: nat): (r: nat)
    ensures r >= 1
  {
    if k == 0 then 1 else 10 * Pow10(k - 1)
  }

  /** A number below 10^k is printed with at most k digits. */
  lemma {:induction false} DecimalTextLength(n: nat, k: nat)
    requires 1 <= k && n < Pow10(k)
    ensures |DecimalText(n)| <= k
  {
    if n >= 10 {
      assert k >= 2;
      DecimalTextLength(n / 10, k - 1);
      assert DecimalText(n) == DecimalText(n / 10) + [('0' as int + n % 10) as char];
    }
  }

  /** One uppercase hexadecimal digit (`sprintf('%X')`). */
  function HexDigit(n: nat): (c: Byte)
    requires n < 16
    ensures IsAsciiAlnum(c) && !IsTrimByte(c) && IsUpperHexDigit(c)
    ensures HexValue(c) == n
  {
    if n < 10 then ('0' as int + n) as char else ('A' as int + n - 10) as char
  }

  predicate IsUpperHexDigit(c: char) { IsAsciiDigit(c) || 'A' <= c <= 'F' }

  function HexValue(c: Byte): (n: nat)
    requires IsUpperHexDigit(c)
    ensures n < 16
  {
    if IsAsciiDigit(c) then c as int - '0' as int else c as int - 'A' as int + 10
  }
}

=== FILE: exception_handler.dfy ===
/**
 * `App\Exceptions\Handler::render`: database connection errors become 503, Redis connection
 * errors on JSON requests become a 200 "degraded" answer, and everything else goes to the
 * framework's default rendering. Both tests look only at the exception message.
 */
module ExceptionHandler {
  import opened Bytes

  datatype Rendered =
    | JsonResponse(status: nat, error: string, message: string)
    | ErrorView503
    | ParentRender

  /** `isDatabaseConnectionError` */
  predicate IsDatabaseConnectionError(msg: string) {
    || Contains(msg, "Connection refused")
    || Contains(msg, "SQLSTATE")
    || Contains(msg, "Connection timed out")
    || Contains(msg, "Access denied")
  }

  /** `isRedisConnectionError`: `&&` binds tighter than `||`, so this is "Redis", or both
      "Connection refused" and "6379". */
  predicate IsRedisConnectionError(msg: string) {
    Contains(msg, "Redis") || (Contains(msg, "Connection refused") && Contains(msg, "6379"))
  }

  /** `render`, for an exception with message `msg` on a request that does or does not
      expect JSON. */
  function Render(msg: string, expectsJson: bool): (r: Rendered)
    ensures r.JsonResponse? ==> r.status == 503 || r.status == 200
  {
    if IsDatabaseConnectionError(msg) then
      if expectsJson then JsonResponse(503, "Service temporarily unavailable", "Database connection issue")
      else ErrorView503
    else if IsRedisConnectionError(msg) && expectsJson then
      JsonResponse(200, "Cache temporarily unavailable", "Service degraded but functional")
    else ParentRender
  }

  /** A 503 (JSON or view) is produced exactly for database connection errors. */
  lemma Render503Iff(msg: string, expectsJson: bool)
    ensures (Render(msg, expectsJson) == ErrorView503 || (Render(msg, expectsJson).JsonResponse? && Render(msg, expectsJson).status == 503))
            <==> IsDatabaseConnectionError(msg)
  {
  }

  /** The degraded 200 answer is given exactly for a JSON request whose message is a Redis
      error and not a database error. */
  lemma RenderDegradedIff(msg: string, expectsJson: bool)
    ensures (Render(msg, expectsJson).JsonResponse? && Render(msg, expectsJson).status == 200)
            <==> expectsJson && IsRedisConnectionError(msg) && !IsDatabaseConnectionError(msg)
  {
  }

  /** The database test runs first: "Connection refused" with "6379" is a Redis error by
      its own test, yet is rendered as a database outage. */
  lemma RefusedRedisPortIsDatabase(msg: string, expectsJson: bool)
    requires Contains(msg, "Connection refused") && Contains(msg, "6379")
    ensures IsRedisConnectionError(msg)
    ensures Render(msg, expectsJson) == (if expectsJson then JsonResponse(503, "Service temporarily unavailable", "Database connection issue")
                                         else ErrorView503)
  {
  }

  /** "6379" alone does not make a Redis error: the port matters only with "Connection refused". */
  lemma PortAloneIsNotRedis(msg: string)
    requires !Contains(msg, "Redis") && !Contains(msg, "Connection refused")
    ensures !IsRedisConnectionError(msg)
  {
  }

  /** The "Redis" test is case-sensitive and on its own suffices. */
  lemma RedisNameIsRedis(msg: string)
    requires Contains(msg, "Redis")
    ensures IsRedisConnectionError(msg)
    ensures !IsDatabaseConnectionError(msg) ==> Render(msg, false) == ParentRender
  {
  }
}

=== FILE: fallback_cache.dfy ===
/**
 * `FallbackCacheService`: Redis first, the database cache store second, and for
 * `remember` the callback itself when both stores throw. A backend call is modelled by
 * its outcome: it returns a value or it throws.
 */
module FallbackCache {

  datatype Outcome<T> = Returned(value: T) | Threw
  {
    /** The value, or `otherwise` when the call threw. */
    function GetOr(otherwise: T): (r: T)
      ensures Returned? ==> r == value
      ensures Threw? ==> r == otherwise
    {
      match this
      case Returned(v) => v
      case Threw => otherwise
    }
  }

  /** Which source produced the answer. */
  datatype Tier = RedisTier | DatabaseTier | CallbackTier

  /** Reference definition: the first call in the chain that returns, or `Threw` when
      every call threw. */
  function FirstReturned<T>(calls: seq<Outcome<T>>): (r: Outcome<T>)
    ensures r.Threw? <==> forall i | 0 <= i < |calls| :: calls[i].Threw?
    ensures r.Returned? ==> r in calls
  {
    if calls == [] then Threw
    else if calls[0].Returned? then calls[0]
    else FirstReturned(calls[1..])
  }

  /** `remember`: `redis` and `database` are the outcomes of each store's own `remember`
      (which runs the callback on a miss, and throws when it throws), `direct` the outcome of
      calling the callback once more without a cache. The tier names the source that
      answered; the database store is consulted only when Redis threw, and the exception of
      the direct call is not caught. */
  function Remember<T>(redis: Outcome<T>, database: Outcome<T>, direct: Outcome<T>): (r: Outcome<(T, Tier)>)
    ensures r.Returned? && r.value.1 == RedisTier <==> redis.Returned?
    ensures r.Returned? && r.value.1 == DatabaseTier <==> redis.Threw? && database.Returned?
    ensures r.Returned? && r.value.1 == CallbackTier <==> redis.Threw? && database.Threw? && direct.Returned?
    ensures r.Threw? <==> redis.Threw? && database.Threw? && direct.Threw?
  {
    match redis
    case Returned(v) => Returned((v, RedisTier))
    case Threw =>
      match database
      case Returned(v) => Returned((v, DatabaseTier))
      case Threw =>
        match direct
        case Returned(v) => Returned((v, CallbackTier))
        case Threw => Threw
  }

  /** `remember` answers with the first of the two stores and the direct call that does not
      throw, and throws only when all three do. */
  lemma RememberIsFirstReturned<T>(redis: Outcome<T>, database: Outcome<T>, direct: Outcome<T>)
    ensures Remember(redis, database, direct).Threw? <==> FirstReturned([redis, database, direct]).Threw?
    ensures Remember(redis, database, direct).Returned? ==>
      Remember(redis, database, direct).value.0 == FirstReturned([redis, database, direct]).value
  {
    assert [redis, database, direct][1..] == [database, direct];
    assert [database, direct][1..] == [direct];
    assert [direct][1..] == [];
    if redis.Threw? {
      assert FirstReturned([redis, database, direct]) == FirstReturned([database, direct]);
      if database.Threw? {
        assert FirstReturned([database, direct]) == FirstReturned([direct]);
      }
    }
  }

  /** `put`: the first store's boolean result, or false when both throw. Nothing escapes. */
  function Put(redis: Outcome<bool>, database: Outcome<bool>): (r: bool)
    ensures redis.Returned? ==> r == redis.value
    ensures redis.Threw? && database.Returned? ==> r == database.value
    ensures redis.Threw? && database.Threw? ==> !r
  {
    match redis
    case Returned(ok) => ok
    case Threw => (match database case Returned(ok) => ok case Threw => false)
  }

  lemma PutIsFirstReturned(redis: Outcome<bool>, database: Outcome<bool>)
    ensures Put(redis, database) == FirstReturned([redis, database]).GetOr(false)
  {
    assert [redis, database][1..] == [database];
    assert [database][1..] == [];
  }

  /** `forget`: both stores are always asked (the list of stores tried); the result is true
      exactly when neither threw. The stores' own boolean results are ignored. */
  function Forget(redis: Outcome<bool>, database: Outcome<bool>): (r: (bool, seq<Tier>))
    ensures r.1 == [RedisTier, DatabaseTier]
    ensures r.0 <==> redis.Returned? && database.Returned?
  {
    (redis.Returned? && database.Returned?, [RedisTier, DatabaseTier])
  }
}

=== FILE: health.dfy ===
/**
 * `HealthController::determineOverallHealth` and the status code of `check`. The probes
 * themselves are inputs: each service reports a status string.
 */
module Health {

  /** One entry of the services array: its key and its 'status' field. */
  datatype Service = Service(name: string, status: string)

  datatype Overall = Unhealthy(issues: seq<string>) | Degraded(warnings: seq<string>) | Healthy

  /** Reference definition: the names of the services reporting `status`, in input order. */
  function NamesWith(services: seq<Service>, status: string): (names: seq<string>)
    ensures |names| <= |services|
    ensures |names| == 0 <==> forall i | 0 <= i < |services| :: services[i].status != status
  {
    if services == [] then []
    else (if services[0].status == status then [services[0].name] else []) + NamesWith(services[1..], status)
  }

  /** One more service scanned adds its name when it has the status. */
  lemma NamesWithStep(services: seq<Service>, i: nat, status: string)
    requires i < |services|
    ensures NamesWith(services[..i + 1], status)
         == NamesWith(services[..i], status) + (if services[i].status == status then [services[i].name] else [])
  {
    assert services[..i + 1] == services[..i] + [services[i]];
    NamesWithAppend(services[..i], services[i], status);
  }

  lemma NamesWithAppend(services: seq<Service>, s: Service, status: string)
    ensures NamesWith(services + [s], status) == NamesWith(services, status) + (if s.status == status then [s.name] else [])
  {
    if services != [] {
      assert (services + [s])[1..] == services[1..] + [s];
      NamesWithAppend(services[1..], s, status);
    }
  }

  /** The loop of `determineOverallHealth`: one pass collecting unhealthy and degraded names
      (a service is counted as degraded only when it is not unhealthy, which the strings make
      exclusive anyway), then unhealthy before degraded before healthy. */
  method DetermineOverallHealth(services: seq<Service>) returns (r: Overall)
    ensures r.Unhealthy? ==> r.issues == NamesWith(services, "unhealthy")
    ensures r.Degraded? ==> r.warnings == NamesWith(services, "degraded")
    ensures r.Unhealthy? <==> NamesWith(services, "unhealthy") != []
    ensures r.Degraded? <==> NamesWith(services, "unhealthy") == [] && NamesWith(services, "degraded") != []
  {
    var unhealthy: seq<string> := [];
    var degraded: seq<string> := [];
    var i := 0;
    while i < |services|
      invariant i <= |services|
      invariant unhealthy == NamesWith(services[..i], "unhealthy")
      invariant degraded == NamesWith(services[..i], "degraded")
    {
      NamesWithStep(services, i, "unhealthy");
      NamesWithStep(services, i, "degraded");
      if services[i].status == "unhealthy" {
        unhealthy := unhealthy + [services[i].name];
      } else if services[i].status == "degraded" {
        degraded := degraded + [services[i].name];
      }
      i := i + 1;
    }
    assert services[..i] == services;
    if unhealthy != [] {
      return Unhealthy(unhealthy);
    }
    if degraded != [] {
      return Degraded(degraded);
    }
    return Healthy;
  }

  function StatusText(o: Overall): string {
    match o
    case Unhealthy(_) => "unhealthy"
    case Degraded(_) => "degraded"
    case Healthy => "healthy"
  }

  /** `check`: 200 only when healthy, 503 for degraded and unhealthy alike. */
  method Check(services: seq<Service>) returns (status: string, code: nat)
    ensures code == 200 <==> status == "healthy"
    ensures code == 200 || code == 503
    ensures status == "unhealthy" <==> exists i | 0 <= i < |services| :: services[i].status == "unhealthy"
    ensures status == "healthy" <==> forall i | 0 <= i < |services| :: services[i].status != "unhealthy" && services[i].status != "degraded"
  {
    var overall := DetermineOverallHealth(services);
    status := StatusText(overall);
    code := if status == "healthy" then 200 else 503;
  }

  /** Whether a service is unhealthy does not depend on where it appears: the names are the
      same after reordering, up to order. */
  lemma {:induction false} NamesWithPermutation(a: seq<Service>, b: seq<Service>, status: string)
    requires multiset(a) == multiset(b)
    ensures multiset(NamesWith(a, status)) == multiset(NamesWith(b, status))
    decreases |a|
  {
    if a == [] {
      assert b == [] by { assert |b| == |multiset(b)|; }
    } else {
      var x := a[0];
      assert x in multiset(b);
      var k :| 0 <= k < |b| && b[k] == x;
      var b' := b[..k] + b[k + 1..];
      RemoveAtMultiset(b, k);
      assert a == [x] + a[1..];
      assert multiset(a[1..]) == multiset(a) - multiset{x};
      NamesWithPermutation(a[1..], b', status);
      NamesWithRemove(b, k, status);
      NamesWithConcat([x], a[1..], status);
    }
  }

  lemma RemoveAtMultiset(b: seq<Service>, k: nat)
    requires k < |b|
    ensures multiset(b[..k] + b[k + 1..]) == multiset(b) - multiset{b[k]}
  {
    assert b == b[..k] + [b[k]] + b[k + 1..];
  }

  /** Removing the k-th service removes its name, if it has the status, from the names. */
  lemma NamesWithRemove(b: seq<Service>, k: nat, status: string)
    requires k < |b|
    ensures multiset(NamesWith(b, status))
         == multiset(NamesWith([b[k]], status)) + multiset(NamesWith(b[..k] + b[k + 1..], status))
  {
    assert b == b[..k] + [b[k]] + b[k + 1..];
    NamesWithSplit(b[..k], b[k], b[k + 1..], status);
    NamesWithConcat(b[..k], b[k + 1..], status);
  }

  lemma {:induction false} NamesWithConcat(a: seq<Service>, b: seq<Service>, status: string)
    ensures NamesWith(a + b, status) == NamesWith(a, status) + NamesWith(b, status)
    decreases |a|
  {
    if a != [] {
      assert (a + b)[1..] == a[1..] + b;
      NamesWithConcat(a[1..], b, status);
    } else {
      assert a + b == b;
    }
  }

  lemma NamesWithSplit(a: seq<Service>, x: Service, b: seq<Service>, status: string)
    ensures NamesWith(a + [x] + b, status) == NamesWith(a, status) + NamesWith([x], status) + NamesWith(b, status)
  {
    NamesWithConcat(a + [x], b, status);
    NamesWithConcat(a, [x], status);
  }
}

=== FILE: percent_encoding.dfy ===
/**
 * The byte-wise percent-encoder of the URL validator service
 * (`encodeUnsafeCharacters` and `needsEncoding`), an approximation of the
 * safe / unsafe / reserved classes of section 2.2 of RFC 1738.
 */
module PercentEncoding {
  import opened Bytes

  /** SAFE_CHARACTERS: letters, digits and $ - _ . + ! * ' ( ) , */
  predicate IsSafe(c: Byte) {
    || IsAsciiAlnum(c)
    || c == '$' || c == '-' || c == '_' || c == '.' || c == '+'
    || c == '!' || c == '*' || c == '\'' || c == '(' || c == ')' || c == ','
  }

  /** The reserved bytes the encoder passes through unchanged: ! * ' ( ) ; : @ & = + $ , / ? # [ ] */
  predicate IsReserved(c: Byte) {
    || c == '!' || c == '*' || c == '\'' || c == '(' || c == ')' || c == ';'
    || c == ':' || c == '@' || c == '&' || c == '=' || c == '+' || c == '$'
    || c == ',' || c == '/' || c == '?' || c == '#' || c == '[' || c == ']'
  }

  /** UNSAFE_CHARACTERS, the bytes the path check rejects: < > " space { } | \ ^ ` */
  predicate IsUnsafe(c: Byte) {
    || c == '<' || c == '>' || c == '"' || c == ' ' || c == '{'
    || c == '}' || c == '|' || c == '\\' || c == '^' || c == '`'
  }

  /** `needsEncoding`: a byte outside the safe set. */
  predicate NeedsEncoding(c: Byte) {
    !IsSafe(c)
  }

  /** The bytes `encodeUnsafeCharacters` copies: '/', the reserved set and the safe set. */
  predicate IsKept(c: Byte) {
    c == '/' || IsReserved(c) || !NeedsEncoding(c)
  }

  /** Encoding of one byte: itself when kept, otherwise '%' and two uppercase hex digits. */
  function EncodeByte(c: Byte): (r: Bytes)
    ensures IsKept(c) ==> r == [c]
    ensures !IsKept(c) ==> && |r| == 3 && r[0] == '%' && IsUpperHexDigit(r[1]) && IsUpperHexDigit(r[2])
                           && HexValue(r[1]) * 16 + HexValue(r[2]) == c as int
  {
    if c == '/' then [c]
    else if IsReserved(c) then [c]
    else if NeedsEncoding(c) then ['%', HexDigit(c as int / 16), HexDigit(c as int % 16)]
    else [c]
  }

  /** `encodeUnsafeCharacters`: every output byte is a kept byte or the '%' of an escape. */
  function Encode(s: Bytes): (r: Bytes)
    ensures |r| >= |s|
    ensures forall i | 0 <= i < |r| :: IsKept(r[i]) || r[i] == '%'
  {
    if s == [] then [] else EncodeByte(s[0]) + Encode(s[1..])
  }

  lemma EncodeCons(c: Byte, s: Bytes)
    ensures Encode([c] + s) == EncodeByte(c) + Encode(s)
  {
    assert ([c] + s)[1..] == s;
  }

  lemma {:induction false} EncodeAppend(a: Bytes, b: Bytes)
    ensures Encode(a + b) == Encode(a) + Encode(b)
  {
    if a == [] {
      assert a + b == b;
    } else {
      assert (a + b)[1..] == a[1..] + b;
      EncodeAppend(a[1..], b);
    }
  }

  /** Encoding leaves a string unchanged exactly when every byte of it is kept. */
  lemma {:induction false} EncodeFixedIff(s: Bytes)
    ensures Encode(s) == s <==> forall i | 0 <= i < |s| :: IsKept(s[i])
  {
    if s != [] {
      EncodeFixedIff(s[1..]);
      if IsKept(s[0]) {
        assert Encode(s) == [s[0]] + Encode(s[1..]);
        assert (forall i | 0 <= i < |s| :: IsKept(s[i])) <==> (forall i | 0 <= i < |s[1..]| :: IsKept(s[1..][i]));
      } else {
        // The escape is longer than the byte it replaces.
        assert |Encode(s)| == 3 + |Encode(s[1..])| > |s|;
      }
    }
  }

  /** A prefix made of kept bytes passes through the encoder unchanged. */
  lemma EncodeKeptPrefix(head: Bytes, rest: Bytes)
    requires forall i | 0 <= i < |head| :: IsKept(head[i])
    ensures Encode(head + rest) == head + Encode(rest)
  {
    EncodeFixedIff(head);
    EncodeAppend(head, rest);
  }

  /** A byte that has to be escaped makes the output strictly longer than the input. */
  lemma {:induction false} EncodeGrows(s: Bytes, i: nat)
    requires i < |s| && !IsKept(s[i])
    ensures |Encode(s)| > |s|
  {
    assert Encode(s) == EncodeByte(s[0]) + Encode(s[1..]);
    if i > 0 {
      EncodeGrows(s[1..], i - 1);
    }
  }

  /** The output of the encoder contains '%' only where something was escaped. */
  lemma {:induction false} EncodeWithoutPercentIsIdentity(s: Bytes)
    requires '%' !in Encode(s)
    ensures Encode(s) == s
  {
    if s != [] {
      assert Encode(s) == EncodeByte(s[0]) + Encode(s[1..]);
      assert IsKept(s[0]);
      EncodeWithoutPercentIsIdentity(s[1..]);
    }
  }

  /** '%' is not kept, so a string holding one is changed by the encoder (it becomes "%25"). */
  lemma PercentIsEncoded()
    ensures EncodeByte('%') == "%25"
  {
  }

  /** A space is escaped as "%20", and escaping that again gives "%2520". */
  lemma SpaceEscapedTwice()
    ensures Encode(" ") == "%20"
    ensures Encode("%20") == "%2520"
  {
    SpaceEscaped();
    EscapeEscaped();
  }

  lemma SpaceEscaped()
    ensures Encode(" ") == "%20"
  {
    assert Encode(" ") == EncodeByte(' ') + Encode([]);
  }

  lemma EscapeEscaped()
    ensures Encode("%20") == "%2520"
  {
    var t: Bytes := "20";
    PercentSignEscaped();
    DigitsKept();
    EncodeCons('%', t);
    assert "%20" == ['%'] + t;
    assert "%2520" == "%25" + t;
  }

  lemma PercentSignEscaped()
    ensures EncodeByte('%') == "%25"
  {
    assert '%' as int / 16 == 2 && '%' as int % 16 == 5;
    assert HexDigit(2) == '2' && HexDigit(5) == '5';
  }

  lemma DigitsKept()
    ensures Encode("20") == "20"
  {
    EncodeKeptPrefix("20", []);
    assert "20" + [] == "20";
  }

  /** The output never contains a byte of UNSAFE_CHARACTERS, nor any PCRE whitespace or trim byte. */
  lemma EncodeAvoidsUnsafe(s: Bytes)
    ensures forall i | 0 <= i < |Encode(s)| ::
      !IsUnsafe(Encode(s)[i]) && !IsPcreSpace(Encode(s)[i]) && !IsTrimByte(Encode(s)[i])
  {
    var r := Encode(s);
    forall i | 0 <= i < |r| ensures !IsUnsafe(r[i]) && !IsPcreSpace(r[i]) && !IsTrimByte(r[i]) {
      OutputByteSafe(r[i]);
    }
  }

  lemma OutputByteSafe(c: Byte)
    requires IsKept(c) || c == '%'
    ensures !IsUnsafe(c) && !IsPcreSpace(c) && !IsTrimByte(c)
  {
  }

  /** Percent-decoding, the inverse of the encoder (not part of the service; it shows that
      encoding loses nothing). */
  function Decode(s: Bytes): Bytes
  {
    if |s| >= 3 && s[0] == '%' && IsUpperHexDigit(s[1]) && IsUpperHexDigit(s[2]) then
      [(HexValue(s[1]) * 16 + HexValue(s[2])) as char] + Decode(s[3..])
    else if s == [] then []
    else [s[0]] + Decode(s[1..])
  }

  lemma {:induction false} DecodeEncode(s: Bytes)
    ensures Decode(Encode(s)) == s
  {
    if s != [] {
      var e := EncodeByte(s[0]);
      var rest := Encode(s[1..]);
      assert Encode(s) == e + rest;
      DecodeEncode(s[1..]);
      if IsKept(s[0]) {
        assert s[0] != '%';
        assert (e + rest)[1..] == rest;
      } else {
        assert (e + rest)[3..] == rest;
      }
      assert s == [s[0]] + s[1..];
    }
  }
}

=== FILE: request_authorization.dfy ===
/**
 * The ownership checks of `UpdateUrlRequest` and `DeleteUrlRequest`. Both authorize a
 * request when it carries an X-Device-ID header, the addressed record exists and its
 * device id is the header's value; a refused request is answered 400, 404 or 403, in that
 * order of precedence. `DeleteUrlRequest::getUrl` memoises the record it finds.
 */
module RequestAuthorization {
  import opened Wrappers
  import opened Bytes

  /** The two form requests share the checks and differ in the 403 message. */
  datatype Action = UpdateAction | DeleteAction

  /** The outcome of authorization: pass on to the controller, or abort with a JSON error. */
  datatype Decision = Allowed | Denied(status: nat, error: string)

  /** `authorize()`: `header` is the X-Device-ID header if present, `owner` the device id of
      the record `Url::find` returns, if any. */
  function Authorize(header: Option<Bytes>, owner: Option<Bytes>): (ok: bool)
  {
    if header.None? then false
    else if owner.None? then false
    else owner.value == header.value
  }

  /** `failedAuthorization()`: the first failing condition decides the response. */
  function FailedAuthorization(action: Action, header: Option<Bytes>, owner: Option<Bytes>): (d: Decision)
    ensures d.Denied?
  {
    if header.None? then Denied(400, "Device ID required")
    else if owner.None? then Denied(404, "URL not found")
    else Denied(403, match action
                     case UpdateAction => "Unauthorized to update this URL"
                     case DeleteAction => "Unauthorized to delete this URL")
  }

  /** What the framework does with a form request: `failedAuthorization` when `authorize` is false. */
  function Decide(action: Action, header: Option<Bytes>, owner: Option<Bytes>): (d: Decision)
  {
    if Authorize(header, owner) then Allowed else FailedAuthorization(action, header, owner)
  }

  /** `authorize` and `failedAuthorization` agree: the request reaches the controller exactly
      when `authorize` holds, that is when the record's owner is the header's device, and
      otherwise the answer is the refusal `failedAuthorization` picks. */
  lemma AuthorizeIff(action: Action, header: Option<Bytes>, owner: Option<Bytes>)
    ensures Decide(action, header, owner).Allowed? <==> Authorize(header, owner)
    ensures Authorize(header, owner) <==> header.Some? && owner == header
    ensures !Authorize(header, owner) ==> Decide(action, header, owner) == FailedAuthorization(action, header, owner)
  {
  }

  /** The refusals, in order of precedence: a missing header wins over a missing record,
      and a missing record over a foreign one, whose refusal names the refused action. */
  lemma DecideCases(action: Action, header: Option<Bytes>, owner: Option<Bytes>)
    ensures header.None? ==> Decide(action, header, owner) == Denied(400, "Device ID required")
    ensures header.Some? && owner.None? ==> Decide(action, header, owner) == Denied(404, "URL not found")
    ensures action == UpdateAction && header.Some? && owner.Some? && owner.value != header.value ==>
      Decide(action, header, owner) == Denied(403, "Unauthorized to update this URL")
    ensures action == DeleteAction && header.Some? && owner.Some? && owner.value != header.value ==>
      Decide(action, header, owner) == Denied(403, "Unauthorized to delete this URL")
    ensures header.Some? && owner.Some? && owner.value == header.value ==> Decide(action, header, owner) == Allowed
  {
  }

  /** The status of a refusal names the first failing check, so the three are exclusive. */
  lemma DeniedStatus(action: Action, header: Option<Bytes>, owner: Option<Bytes>)
    requires Decide(action, header, owner).Denied?
    ensures var s := Decide(action, header, owner).status;
      (s == 400 <==> header.None?)
      && (s == 404 <==> header.Some? && owner.None?)
      && (s == 403 <==> header.Some? && owner.Some? && owner.value != header.value)
  {
  }

  /** `getUrl()`: the memo is used when set; otherwise the lookup is made and stored. PHP's
      `isset` is false for null, so a miss is looked up again on the next call. */
  function GetUrl<T>(memo: Option<T>, lookup: Option<T>): (r: (Option<T>, Option<T>))
    ensures r.1 == r.0
    ensures memo.Some? ==> r.0 == memo
  {
    if memo.Some? then (memo, memo) else (lookup, lookup)
  }

  /** The results of successive `getUrl()` calls, the i-th made when `Url::find` would return
      `lookups[i]`. */
  function GetUrlCalls<T>(memo: Option<T>, lookups: seq<Option<T>>): (rs: seq<Option<T>>)
    ensures |rs| == |lookups|
    decreases |lookups|
  {
    if lookups == [] then []
    else
      var (r, memo') := GetUrl(memo, lookups[0]);
      [r] + GetUrlCalls(memo', lookups[1..])
  }

  /** Once a call has found the record, every later call returns that same record, whatever
      the table holds by then. */
  lemma {:induction false} GetUrlMemoised<T>(memo: Option<T>, lookups: seq<Option<T>>, i: nat, j: nat)
    requires i <= j < |lookups|
    requires GetUrlCalls(memo, lookups)[i].Some?
    ensures GetUrlCalls(memo, lookups)[j] == GetUrlCalls(memo, lookups)[i]
    decreases |lookups|
  {
    var (r, memo') := GetUrl(memo, lookups[0]);
    var rest := GetUrlCalls(memo', lookups[1..]);
    assert GetUrlCalls(memo, lookups) == [r] + rest;
    if i == 0 {
      if j > 0 {
        GetUrlStays(memo', lookups[1..], j - 1);
      }
    } else {
      GetUrlMemoised(memo', lookups[1..], i - 1, j - 1);
    }
  }

  /** With the memo set, every call returns it. */
  lemma {:induction false} GetUrlStays<T>(memo: Option<T>, lookups: seq<Option<T>>, j: nat)
    requires memo.Some? && j < |lookups|
    ensures GetUrlCalls(memo, lookups)[j] == memo
    decreases |lookups|
  {
    assert GetUrlCalls(memo, lookups) == [memo] + GetUrlCalls(memo, lookups[1..]);
    if j > 0 {
      GetUrlStays(memo, lookups[1..], j - 1);
    }
  }
}

=== FILE: rules.dfy ===
/**
 * The two validation rules: `ValidRfc1738Url`, which runs the validator service, and
 * `ValidUrlScheme`, which checks the scheme `parse_url` finds against an allow-list. A rule
 * reports failure by calling `$fail`; the model returns the messages passed to it, in order.
 */
module Rules {
  import opened Wrappers
  import opened Bytes
  import opened UrlPattern
  import opened UrlValidator
  import opened UrlNormalizer
  import opened UrlValidatorExamples

  /** The validated value: a PHP string, or anything else. */
  datatype Value = Str(s: Bytes) | NotString

  /** `implode($sep, $parts)` on messages. */
  function Implode(parts: seq<string>, sep: string): (r: string)
    ensures |parts| == 1 ==> r == parts[0]
  {
    if |parts| == 0 then ""
    else if |parts| == 1 then parts[0]
    else parts[0] + sep + Implode(parts[1..], sep)
  }

  const NotAStringMessage: string := "The :attribute must be a valid URL string."
  const Rfc1738Prefix: string := "The :attribute is not a valid RFC 1738 compliant URL. "

  // ---------------------------------------------------------------- ValidRfc1738Url

  /** `ValidRfc1738Url::validate`: a non-string fails once without running the validator; a
      string fails once, with the validator's messages joined by ". ", exactly when it is
      not valid. */
  function Rfc1738Validate(value: Value): (fails: seq<string>)
    ensures |fails| <= 1
    ensures value.NotString? ==> fails == [NotAStringMessage]
    ensures value.Str? ==> (fails == [] <==> ValidateUrl(value.s).valid)
  {
    match value
    case NotString => [NotAStringMessage]
    case Str(s) =>
      var result := ValidateUrl(s);
      if !result.valid then [Rfc1738Prefix + Implode(Messages(result.errors), ". ")] else []
  }

  /** An empty string fails with the single "required" message appended to the prefix. */
  lemma Rfc1738EmptyFails()
    ensures Rfc1738Validate(Str("")) == [Rfc1738Prefix + "URL is required"]
    ensures Rfc1738Validate(Str("0")) == [Rfc1738Prefix + "URL is required"]
  {
    ValidateEmpty("");
    ValidateEmpty("0");
  }

  /** The failure message is the prefix followed by the validator's messages. */
  lemma Rfc1738FailMessage(s: Bytes)
    requires !ValidateUrl(s).valid
    ensures Rfc1738Validate(Str(s)) == [Rfc1738Prefix + Implode(Messages(ValidateUrl(s).errors), ". ")]
    ensures |ValidateUrl(s).errors| == 1 ==> Rfc1738Validate(Str(s)) == [Rfc1738Prefix + Message(ValidateUrl(s).errors[0])]
  {
  }

  /** A URL without a scheme passes, because the validator sanitizes (adding "https://") first. */
  lemma Rfc1738SchemelessPasses()
    ensures Rfc1738Validate(Str(Bare)) == []
  {
    BareIsValid();
  }

  // ---------------------------------------------------------------- ValidUrlScheme

  /** The constructor's default allow-list. */
  const DefaultSchemes: seq<Bytes> := ["http", "https"]

  /** `new ValidUrlScheme(...)`: the given list, or the default when none is passed. */
  function AllowedSchemes(given: Option<seq<Bytes>>): (allowed: seq<Bytes>)
    ensures given.None? ==> allowed == ["http", "https"]
    ensures given.Some? ==> allowed == given.value
  {
    given.GetOr(DefaultSchemes)
  }

  const MissingSchemeMessage: string := "The :attribute must include a valid scheme (http/https)."

  function DisallowedSchemeMessage(allowed: seq<Bytes>): string {
    "The :attribute must use one of the following schemes: " + Implode(allowed, ", ") + "."
  }

  /** `ValidUrlScheme::validate`; `scheme` is the 'scheme' entry of `parse_url($value)`, if
      any. The scheme is lower-cased before the membership test. */
  function SchemeValidate(allowed: seq<Bytes>, value: Value, scheme: Option<Bytes>): (fails: seq<string>)
    ensures |fails| <= 1
    ensures value.NotString? ==> fails == [NotAStringMessage]
    ensures value.Str? && scheme.None? ==> fails == [MissingSchemeMessage]
    ensures value.Str? && scheme.Some? ==> (fails == [] <==> Lower(scheme.value) in allowed)
  {
    match value
    case NotString => [NotAStringMessage]
    case Str(_) =>
      match scheme
      case None => [MissingSchemeMessage]
      case Some(sc) =>
        if Lower(sc) !in allowed then [DisallowedSchemeMessage(allowed)] else []
  }

  /** With the default list, "hTTpS" passes and "ftp" fails with the message listing http and https. */
  lemma DefaultSchemeExamples(value: Bytes)
    ensures SchemeValidate(DefaultSchemes, Str(value), Some("hTTpS")) == []
    ensures SchemeValidate(DefaultSchemes, Str(value), Some("ftp")) ==
      ["The :attribute must use one of the following schemes: http, https."]
  {
    MixedCaseHttps();
    DefaultSchemesMessage();
    FtpNotDefault();
  }

  lemma MixedCaseHttps()
    ensures Lower("hTTpS") == "https"
  {
  }

  lemma FtpNotDefault()
    ensures Lower("ftp") == "ftp" && "ftp" !in DefaultSchemes
  {
  }

  lemma DefaultSchemesMessage()
    ensures DisallowedSchemeMessage(DefaultSchemes) == "The :attribute must use one of the following schemes: http, https."
  {
    assert DefaultSchemes[1..] == ["https"];
    assert Implode(DefaultSchemes, ", ") == "http" + ", " + "https";
  }

  /** On a string "scheme://host[:port]..." the rule accepts exactly when the lower-cased
      scheme is allowed, with the scheme as `parse_url` reads it. */
  lemma SchemeRuleOnUrl(allowed: seq<Bytes>, scheme: Bytes, host: Bytes, port: Option<Bytes>, tail: Bytes)
    requires IsSchemeToken(scheme) && IsPlainHost(host) && IsParsablePort(port)
    requires tail == [] || !IsAuthorityByte(tail[0])
    ensures var s := scheme + "://" + host + PortSuffix(port) + tail;
      ParseUrl(s).Some? && ParseUrl(s).value.scheme == Some(scheme)
      && (SchemeValidate(allowed, Str(s), ParseUrl(s).value.scheme) == [] <==> Lower(scheme) in allowed)
  {
    ParseUrlOf(scheme, host, port, tail);
  }
}

=== FILE: short_code.dfy ===
/**
 * `Url::generateShortCode`: a length in 6..8 is drawn once, then candidate codes of that
 * length are drawn symbol by symbol from a 31-symbol alphabet until one is not already
 * stored. The random draws are nondeterministic choices; the stored codes are a set.
 */
module ShortCode {
  import opened Wrappers

  /** The alphabet: A-Z and 2-9 without the look-alikes I, L, O, 0 and 1. */
  const Alphabet: string := "ABCDEFGHJKMNPQRSTUVWXYZ23456789"

  const MinLength: nat := 6
  const MaxLength: nat := 8

  /** The character class `[A-HJ-KM-NP-Z2-9]` of the redirect route's `{code}` parameter. */
  predicate IsRouteChar(c: char) {
    ('A' <= c <= 'H') || ('J' <= c <= 'K') || ('M' <= c <= 'N') || ('P' <= c <= 'Z') || ('2' <= c <= '9')
  }

  /** The route pattern `[A-HJ-KM-NP-Z2-9]+`. */
  predicate MatchesRoute(s: string) {
    |s| >= 1 && forall i | 0 <= i < |s| :: IsRouteChar(s[i])
  }

  /** A string the generator can return. */
  predicate IsShortCode(s: string) {
    MinLength <= |s| <= MaxLength && forall i | 0 <= i < |s| :: s[i] in Alphabet
  }

  lemma AlphabetSize()
    ensures |Alphabet| == 31
  {
  }

  /** The alphabet is exactly the route's character class. */
  lemma AlphabetIsRouteClass(c: char)
    ensures c in Alphabet <==> IsRouteChar(c)
  {
  }

  lemma NoLookAlikes()
    ensures '0' !in Alphabet && 'O' !in Alphabet && '1' !in Alphabet && 'I' !in Alphabet && 'L' !in Alphabet
  {
    AlphabetIsRouteClass('0');
    AlphabetIsRouteClass('O');
    AlphabetIsRouteClass('1');
    AlphabetIsRouteClass('I');
    AlphabetIsRouteClass('L');
  }

  /** Every generated code is reachable through the redirect route and avoids the look-alikes. */
  lemma ShortCodeMatchesRoute(s: string)
    requires IsShortCode(s)
    ensures MatchesRoute(s)
    ensures '0' !in s && 'O' !in s && '1' !in s && 'I' !in s && 'L' !in s
  {
    forall i | 0 <= i < |s| ensures IsRouteChar(s[i]) && s[i] !in "0O1IL" {
      AlphabetIsRouteClass(s[i]);
    }
  }

  /** One candidate: `length` symbols, each `$characters[random_int(0, 30)]`. */
  method DrawCode(length: nat) returns (code: string)
    ensures |code| == length
    ensures forall i | 0 <= i < |code| :: code[i] in Alphabet
  {
    code := "";
    var i := 0;
    while i < length
      invariant i <= length && |code| == i
      invariant forall j | 0 <= j < |code| :: code[j] in Alphabet
    {
      var k :| 0 <= k < |Alphabet|;
      code := code + [Alphabet[k]];
      i := i + 1;
    }
  }

  /** The retry loop, bounded by `fuel` attempts. `attempts` lists the candidates in the
      order drawn: each one but the last was already stored, and the returned code is the
      last one and is not. Without a free code within `fuel` draws the result is `None`. */
  method GenerateShortCode(existing: set<string>, fuel: nat) returns (code: Option<string>, attempts: seq<string>)
    ensures |attempts| <= fuel
    ensures forall i | 0 <= i < |attempts| :: IsShortCode(attempts[i])
    ensures forall i | 0 <= i < |attempts| :: |attempts[i]| == |attempts[0]|
    ensures forall i | 0 <= i < |attempts| - 1 :: attempts[i] in existing
    ensures code.Some? ==> |attempts| >= 1 && code.value == attempts[|attempts| - 1]
    ensures code.Some? ==> code.value !in existing && IsShortCode(code.value)
    ensures code.None? ==> |attempts| == fuel && forall i | 0 <= i < |attempts| :: attempts[i] in existing
  {
    var length :| MinLength <= length <= MaxLength;
    attempts := [];
    code := None;
    while |attempts| < fuel
      invariant |attempts| <= fuel
      invariant forall i | 0 <= i < |attempts| :: IsShortCode(attempts[i]) && |attempts[i]| == length
      invariant forall i | 0 <= i < |attempts| :: attempts[i] in existing
      decreases fuel - |attempts|
    {
      var candidate := DrawCode(length);
      attempts := attempts + [candidate];
      if candidate !in existing {
        code := Some(candidate);
        return;
      }
    }
  }
}

=== FILE: url_check_examples.dfy ===
/** The host and port cases the validator is expected to accept and reject. */
module UrlCheckExamples {
  import opened Bytes
  import opened UrlChecks

  lemma LocalhostAccepted()
    ensures ValidateHost("localhost")
  {
    SingleLabelAccepted("localhost");
  }

  lemma DigitLabelAccepted()
    ensures ValidateHost("123.com")
  {
    TwoLabelAccepted("123", "com");
    assert "123" + "." + "com" == "123.com";
  }

  lemma TwoLetterTopRequired()
    ensures !ValidateHost("a.b")
  {
    SplitUnique(["a", "b"], '.');
    assert Join(["a", "b"], ".") == "a.b";
  }

  lemma OctetsAccepted()
    ensures IsOctet("192") && IsOctet("168") && IsOctet("1")
  {
    assert DecimalValue("19") == 19;
    assert DecimalValue("16") == 16;
  }

  lemma OctetTooLarge()
    ensures !IsOctet("256")
  {
    assert "256"[..2] == "25";
    assert "25"[..1] == "2";
    assert DecimalValue("256") == 256;
  }

  lemma QuadAccepted()
    ensures ValidateHost("192.168.1.1")
  {
    OctetsAccepted();
    DottedQuadAccepted("192", "168", "1", "1");
    QuadText();
  }

  lemma QuadText()
    ensures "192" + "." + "168" + "." + "1" + "." + "1" == "192.168.1.1"
  {
  }

  /** Four pieces of "256" are digits only, and "256" is no octet. */
  lemma OctetOverflowRejected()
    ensures !ValidateHost("256.256.256.256")
  {
    OctetTooLarge();
    NumericHost(["256", "256", "256", "256"]);
    OverflowQuadText();
  }

  lemma OverflowQuadText()
    ensures Join(["256", "256", "256", "256"], ".") == "256.256.256.256"
  {
    var q := ["256", "256", "256", "256"];
    assert q[1..] == ["256", "256", "256"] && q[1..][1..] == ["256", "256"] && q[1..][1..][1..] == ["256"];
  }

  lemma TrailingDotRejected()
    ensures !ValidateHost("example.")
  {
    SplitUnique(["example", ""], '.');
    assert Join(["example", ""], ".") == "example.";
  }

  lemma LeadingDotExample()
    ensures !ValidateHost(".example.com")
  {
    LeadingDotRejected(".example.com");
  }

  lemma EmptyLabelExample()
    ensures !ValidateHost("example..com")
  {
    DoubleDotRejected("example", "com");
    DoubleDotText();
  }

  lemma DoubleDotText()
    ensures "example" + ".." + "com" == "example..com"
  {
  }

  lemma PortExamples()
    ensures ValidatePort("8080") && ValidatePort("65535")
    ensures !ValidatePort("0") && !ValidatePort("65536")
  {
    assert "8080"[..3] == "808" && "808"[..2] == "80" && "80"[..1] == "8";
    assert "65535"[..4] == "6553" && "6553"[..3] == "655" && "655"[..2] == "65" && "65"[..1] == "6";
    assert "65536"[..4] == "6553";
  }
}

=== FILE: url_checks.dfy ===
/**
 * The four component checks of `validateUrl`: `validateScheme`, `validateHost`
 * (an IPv4 dotted quad as `filter_var(..., FILTER_VALIDATE_IP, FILTER_FLAG_IPV4)`
 * accepts it, or the domain pattern), `validatePort` and `validatePath`.
 */
module UrlChecks {
  import opened Wrappers
  import opened Bytes
  import opened PercentEncoding
  import opened UrlPattern

  /** `s` with one final "\n" removed, for patterns whose `$` also matches before it. */
  predicate EndsWithNewline(s: Bytes) { |s| > 0 && s[|s| - 1] == '\n' }

  /** `validateScheme`: SCHEME_PATTERN `^[a-zA-Z][a-zA-Z0-9+.-]*$`. */
  predicate ValidateScheme(scheme: Bytes) {
    || IsSchemeToken(scheme)
    || (EndsWithNewline(scheme) && IsSchemeToken(scheme[..|scheme| - 1]))
  }

  // ---------------------------------------------------------------- IPv4

  /** One octet as PHP's IPv4 filter reads it: one to three digits, at most 255, and no
      leading zero unless the octet is "0" itself. */
  predicate IsOctet(s: Bytes) {
    && 1 <= |s| <= 3
    && AllDigits(s)
    && DecimalValue(s) <= 255
    && (s[0] == '0' ==> |s| == 1)
  }

  /** Exactly four octets separated by '.'. */
  predicate IsIPv4(host: Bytes) {
    var parts := Split(host, '.');
    |parts| == 4 && forall i | 0 <= i < 4 :: IsOctet(parts[i])
  }

  // ---------------------------------------------------------------- domain names

  predicate IsLabelByte(c: Byte) { IsAsciiAlnum(c) || c == '-' }

  /** `[a-zA-Z0-9]([a-zA-Z0-9-]{0,61}[a-zA-Z0-9])?`: 1 to 63 bytes, letters, digits and '-',
      beginning and ending with a letter or digit. */
  predicate IsLabel(s: Bytes) {
    && 1 <= |s| <= 63
    && IsAsciiAlnum(s[0]) && IsAsciiAlnum(s[|s| - 1])
    && forall i | 0 <= i < |s| :: IsLabelByte(s[i])
  }

  /** `[a-zA-Z]{2,}` */
  predicate IsTopLabel(s: Bytes) {
    |s| >= 2 && forall i | 0 <= i < |s| :: IsAsciiLetter(s[i])
  }

  /** `([label]\.)*[a-zA-Z]{2,}` anchored at both ends. No part contains '.', so the pattern
      matches exactly when the '.'-separated pieces are labels followed by a top label. */
  predicate IsDomainName(host: Bytes) {
    var parts := Split(host, '.');
    IsTopLabel(parts[|parts| - 1]) && forall i | 0 <= i < |parts| - 1 :: IsLabel(parts[i])
  }

  /** The domain pattern of `validateHost`, with its `$` allowance for a final "\n". */
  predicate DomainPattern(host: Bytes) {
    IsDomainName(host) || (EndsWithNewline(host) && IsDomainName(host[..|host| - 1]))
  }

  /** `validateHost`. */
  predicate ValidateHost(host: Bytes) {
    !PhpEmpty(host) && (IsIPv4(host) || DomainPattern(host))
  }

  lemma NoDot(s: Bytes)
    requires forall i | 0 <= i < |s| :: IsAsciiAlnum(s[i]) || s[i] == '-'
    ensures '.' !in s
  {
  }

  /** Labels and a top label joined by '.' form a domain name; `explode` recovers them. */
  lemma DomainNameOf(labels: seq<Bytes>, top: Bytes)
    requires forall i | 0 <= i < |labels| :: IsLabel(labels[i])
    requires IsTopLabel(top)
    ensures Split(Join(labels + [top], "."), '.') == labels + [top]
    ensures IsDomainName(Join(labels + [top], "."))
  {
    var parts := labels + [top];
    PartsHaveNoDot(labels, top);
    SplitUnique(parts, '.');
    assert forall i | 0 <= i < |parts| - 1 :: parts[i] == labels[i];
  }

  lemma PartsHaveNoDot(labels: seq<Bytes>, top: Bytes)
    requires forall i | 0 <= i < |labels| :: IsLabel(labels[i])
    requires IsTopLabel(top)
    ensures forall i | 0 <= i < |labels + [top]| :: '.' !in (labels + [top])[i]
  {
    var parts := labels + [top];
    forall i | 0 <= i < |parts| ensures '.' !in parts[i] {
      if i < |labels| {
        assert parts[i] == labels[i];
        NoDot(labels[i]);
      } else {
        assert parts[i] == top;
        NoDot(top);
      }
    }
  }

  /** The host checks read off the '.'-separated pieces of a host. */
  lemma HostPieces(parts: seq<Bytes>)
    requires |parts| >= 1 && forall i | 0 <= i < |parts| :: '.' !in parts[i]
    ensures IsIPv4(Join(parts, ".")) <==> |parts| == 4 && forall i | 0 <= i < 4 :: IsOctet(parts[i])
    ensures IsDomainName(Join(parts, ".")) <==>
      IsTopLabel(parts[|parts| - 1]) && forall i | 0 <= i < |parts| - 1 :: IsLabel(parts[i])
  {
    SplitUnique(parts, '.');
  }

  /** A label, '.', and a top label form an accepted host. */
  lemma TwoLabelAccepted(first: Bytes, top: Bytes)
    requires IsLabel(first) && IsTopLabel(top)
    ensures ValidateHost(first + "." + top)
  {
    DomainNameOf([first], top);
    assert [first] + [top] == [first, top];
    assert Join([first, top], ".") == first + "." + top by {
      assert [first, top][1..] == [top];
    }
  }

  /** A host that is one top label of two or more letters, with no dot, is accepted. */
  lemma SingleLabelAccepted(top: Bytes)
    requires IsTopLabel(top)
    ensures ValidateHost(top)
  {
    DomainNameOf([], top);
    assert [] + [top] == [top];
  }

  /** Four octets joined by '.' are an IPv4 host, which is accepted. */
  lemma DottedQuadAccepted(a: Bytes, b: Bytes, c: Bytes, d: Bytes)
    requires IsOctet(a) && IsOctet(b) && IsOctet(c) && IsOctet(d)
    ensures ValidateHost(a + "." + b + "." + c + "." + d)
  {
    QuadHostAccepted([a, b, c, d]);
    JoinFour(a, b, c, d);
  }

  lemma QuadHostAccepted(parts: seq<Bytes>)
    requires |parts| == 4 && forall i | 0 <= i < 4 :: IsOctet(parts[i])
    ensures ValidateHost(Join(parts, "."))
  {
    forall i | 0 <= i < 4 ensures '.' !in parts[i] {
      NoDot(parts[i]);
    }
    HostPieces(parts);
    OctetsNotEmpty(Join(parts, "."));
  }

  lemma JoinFour(a: Bytes, b: Bytes, c: Bytes, d: Bytes)
    ensures Join([a, b, c, d], ".") == a + "." + b + "." + c + "." + d
  {
    assert [c, d][1..] == [d];
    assert Join([c, d], ".") == c + "." + d;
    assert [b, c, d][1..] == [c, d];
    assert Join([b, c, d], ".") == b + "." + (c + "." + d);
    assert [a, b, c, d][1..] == [b, c, d];
    assert Join([a, b, c, d], ".") == a + "." + (b + "." + (c + "." + d));
  }

  /** A host of digit pieces is accepted exactly when it is four octets: a top label with a
      digit is never a domain name. */
  lemma NumericHost(parts: seq<Bytes>)
    requires |parts| >= 1 && forall i | 0 <= i < |parts| :: |parts[i]| >= 1 && AllDigits(parts[i])
    ensures ValidateHost(Join(parts, ".")) <==> |parts| == 4 && forall i | 0 <= i < 4 :: IsOctet(parts[i])
  {
    forall i | 0 <= i < |parts| ensures '.' !in parts[i] {
      NoDot(parts[i]);
    }
    var h := Join(parts, ".");
    HostPieces(parts);
    JoinLastByte(parts, ".");
    assert !IsDomainName(h) by {
      assert !IsTopLabel(parts[|parts| - 1]);
    }
    assert !DomainPattern(h) by {
      assert !EndsWithNewline(h);
    }
    if IsIPv4(h) {
      OctetsNotEmpty(h);
    }
  }

  /** "" and "0" are not dotted quads. */
  lemma OctetsNotEmpty(h: Bytes)
    requires IsIPv4(h)
    ensures !PhpEmpty(h)
  {
    var parts := Split(h, '.');
    assert Join(parts, ".") == h;
    assert |Join(parts[1..], ".")| >= 1;
  }

  lemma StartsWithDot(h: Bytes)
    requires |h| >= 1 && h[0] == '.'
    ensures !IsIPv4(h) && !IsDomainName(h)
  {
    assert IndexOf(h, '.') == Some(0);
    var parts := Split(h, '.');
    assert parts == [h[..0]] + Split(h[1..], '.');
    assert parts[0] == [];
  }

  /** A host starting with '.' has an empty first label and is rejected. */
  lemma LeadingDotRejected(h: Bytes)
    requires |h| >= 1 && h[0] == '.'
    ensures !ValidateHost(h)
  {
    StartsWithDot(h);
    if |h| >= 2 {
      StartsWithDot(h[..|h| - 1]);
    }
  }

  lemma EmptyPiece(a: Bytes, b: Bytes)
    requires '.' !in a && '.' !in b
    ensures !IsIPv4(a + ".." + b) && !IsDomainName(a + ".." + b)
  {
    var e: Bytes := [];
    var parts := [a, e, b];
    assert Join(parts, ".") == a + ".." + b by {
      assert parts[1..] == [e, b] && [e, b][1..] == [b];
      assert Join([e, b], ".") == e + "." + b == "." + b;
      assert Join(parts, ".") == a + "." + ("." + b);
    }
    SplitUnique(parts, '.');
  }

  /** Two consecutive dots leave an empty label between them, so the host is rejected. */
  lemma DoubleDotRejected(a: Bytes, b: Bytes)
    requires '.' !in a && '.' !in b
    ensures !ValidateHost(a + ".." + b)
  {
    EmptyPiece(a, b);
    if |b| >= 1 {
      assert (a + ".." + b)[..|a + ".." + b| - 1] == a + ".." + b[..|b| - 1];
      EmptyPiece(a, b[..|b| - 1]);
    }
  }

  // ---------------------------------------------------------------- port and path

  /** `validatePort` on the digits of the port group: `(int)` of them lies in 1..65535. */
  predicate ValidatePort(port: Bytes)
    requires AllDigits(port)
  {
    0 < DecimalValue(port) <= 65535
  }

  /** `validatePath`: no byte of UNSAFE_CHARACTERS occurs. */
  predicate ValidatePath(path: Bytes) {
    forall i | 0 <= i < |path| :: !IsUnsafe(path[i])
  }
}

=== FILE: url_normalizer.dfy ===
/**
 * `normalizeUrl` and `processUrl` of the URL validator service. `parse_url` is modelled as
 * the explicit split PHP 8 performs on the strings it is given here (the empty string, and
 * strings starting with "scheme://"): scheme, authority up to the first '/', '?' or '#',
 * user-info dropped after the last '@', a port after the last ':', then path, query and
 * fragment.
 */
module UrlNormalizer {
  import opened Wrappers
  import opened Bytes
  import opened PercentEncoding
  import opened UrlPattern
  import opened UrlSanitizer
  import opened UrlValidator

  /** The array `parse_url` returns; an absent key is `None`. */
  datatype ParsedUrl = ParsedUrl(
    scheme: Option<Bytes>,
    host: Option<Bytes>,
    port: Option<nat>,
    path: Option<Bytes>,
    query: Option<Bytes>,
    fragment: Option<Bytes>)

  // ---------------------------------------------------------------- parse_url

  /** Bytes `parse_url` replaces with '_' in every component it returns. */
  predicate IsControl(c: Byte) { c as int < 32 || c as int == 127 }

  function Uncontrol(s: Bytes): (r: Bytes)
    ensures |r| == |s|
    ensures forall i | 0 <= i < |s| :: r[i] == (if IsControl(s[i]) then '_' else s[i])
  {
    if s == [] then [] else [if IsControl(s[0]) then '_' else s[0]] + Uncontrol(s[1..])
  }

  lemma UncontrolNoop(s: Bytes)
    requires forall i | 0 <= i < |s| :: !IsControl(s[i])
    ensures Uncontrol(s) == s
  {
  }

  /** Path, query and fragment of the part of the string after the authority: the fragment
      follows the first '#', the query the first '?' before it; the path is set when it is
      non-empty or the whole remainder is empty. */
  function SplitTail(scheme: Option<Bytes>, host: Option<Bytes>, port: Option<nat>, t: Bytes): (r: ParsedUrl)
    ensures r.scheme == scheme && r.host == host && r.port == port
  {
    var f := IndexOf(t, '#');
    var e := if f.Some? then f.value else |t|;
    var fragment := if f.Some? then Some(Uncontrol(t[e + 1..])) else None;
    var q := IndexOf(t[..e], '?');
    var e2 := if q.Some? then q.value else e;
    var query := if q.Some? then Some(Uncontrol(t[e2 + 1..e])) else None;
    var path := if 0 < e2 || t == [] then Some(Uncontrol(t[..e2])) else None;
    ParsedUrl(scheme, host, port, path, query, fragment)
  }

  /** `isspace` in the C locale, which `strtol` skips. */
  predicate IsSpaceByte(c: Byte) { IsPcreSpace(c) }

  /** `strtol(port, &end, 10)` on the at most five bytes after the last ':', accepted when
      some digit was read and the value is in 0..65535. */
  function PortValue(t: Bytes): (r: Option<nat>)
    ensures r.Some? ==> r.value <= 65535
  {
    var i := SpanWhile(t, 0, IsSpaceByte);
    var neg := i < |t| && t[i] == '-';
    var j := if i < |t| && (t[i] == '-' || t[i] == '+') then i + 1 else i;
    var k := SpanWhile(t, j, IsDigitByte);
    if k == j then None
    else
      assert AllDigits(t[j..k]) by {
        forall i | 0 <= i < k - j ensures IsAsciiDigit(t[j..k][i]) { assert IsDigitByte(t[j + i]); }
      }
      var v := DecimalValue(t[j..k]);
      if neg && v != 0 then None
      else if v > 65535 then None
      else Some(v)
  }

  predicate IsAuthorityByte(c: Byte) { c != '/' && c != '?' && c != '#' }

  /** Where the host starts in the authority `auth`: after the last '@', if any. */
  function HostStart(auth: Bytes): (hs: nat)
    ensures hs <= |auth|
    ensures '@' !in auth ==> hs == 0
  {
    match LastIndexOf(auth, '@') case None => 0 case Some(k) => k + 1
  }

  /** The port scan over `hp`, the authority after any '@': where the host ends and the
      port, or `None` when `parse_url` fails on the port. */
  function ScanPort(hp: Bytes): (r: Option<(nat, Option<nat>)>)
    ensures r.Some? ==> r.value.0 <= |hp|
  {
    // An IPv6 literal in brackets is not scanned for a port.
    var bracketed := 0 < |hp| && hp[0] == '[' && hp[|hp| - 1] == ']';
    var colon := if bracketed then None else LastIndexOf(hp, ':');
    match colon
    case None => Some((|hp|, None))
    case Some(k) => PortAfterColon(hp, k)
  }

  /** The host ends at the colon `k`; the port is read from what follows it. */
  function PortAfterColon(hp: Bytes, k: nat): (r: Option<(nat, Option<nat>)>)
    requires k < |hp|
    ensures r.Some? ==> r.value.0 == k
  {
    match PortText(hp[k + 1..])
    case None => None
    case Some(port) => Some((k, port))
  }

  /** The bytes after the port colon: `Some(None)` when there are none, `Some(Some(v))` for a
      readable port of at most five bytes, `None` when `parse_url` fails on them. */
  function PortText(t: Bytes): (r: Option<Option<nat>>)
    ensures r.Some? && r.value.Some? ==> r.value.value <= 65535
  {
    if |t| > 5 then None
    else if |t| == 0 then Some(None)
    else match PortValue(t)
      case None => None
      case Some(v) => Some(Some(v))
  }

  /** The host part of `parse_url`, given what follows "scheme://". */
  function ParseAuthority(scheme: Bytes, rest: Bytes): (r: Option<ParsedUrl>)
    ensures r.Some? ==> r.value.scheme == Some(Uncontrol(scheme)) && r.value.host.Some? && |r.value.host.value| >= 1
  {
    var e := SpanWhile(rest, 0, IsAuthorityByte);
    var auth := rest[..e];
    var hp := auth[HostStart(auth)..];
    match ScanPort(hp)
    case None => None
    case Some((p, port)) =>
      if p < 1 then None
      else
        var host := Uncontrol(hp[..p]);
        if e == |rest| then Some(ParsedUrl(Some(Uncontrol(scheme)), Some(host), port, None, None, None))
        else Some(SplitTail(Some(Uncontrol(scheme)), Some(host), port, rest[e..]))
  }

  /** `strcasecmp($scheme, 'file') == 0` */
  predicate IsFileScheme(scheme: Bytes) { Lower(scheme) == "file" }

  /** `parse_url` on the empty string or on a string with a scheme prefix. A string of
      another shape is split as a bare path. */
  function ParseUrl(s: Bytes): (r: Option<ParsedUrl>)
  {
    if !HasSchemePrefix(s) then Some(SplitTail(None, None, None, s))
    else
      var n := SpanWhile(s, 0, IsSchemeByte);
      var scheme := s[..n];
      var rest := s[n + 3..];
      if IsFileScheme(scheme) && |rest| > 0 && rest[0] == '/' then
        // file:///c:/dir keeps the drive letter as the start of the path
        var start := if |rest| > 2 && rest[2] == ':' then 1 else 0;
        Some(SplitTail(Some(Uncontrol(scheme)), None, None, rest[start..]))
      else ParseAuthority(scheme, rest)
  }

  // ---------------------------------------------------------------- rebuilding

  /** The port `normalizeUrl` keeps: 80 for http, 443 for https and 21 for ftp are dropped. */
  function KeptPort(scheme: Bytes, port: Option<nat>): (r: Option<nat>)
    ensures r.None? <==> port.None? || IsDefaultPort(scheme, port.value)
    ensures r.Some? ==> r == port
  {
    if port.Some? && IsDefaultPort(scheme, port.value) then None else port
  }

  predicate IsDefaultPort(scheme: Bytes, port: nat) {
    (scheme == "http" && port == 80) || (scheme == "https" && port == 443) || (scheme == "ftp" && port == 21)
  }

  /** `preg_replace('/\/+/', '/', $path)`: every run of '/' becomes a single '/'. */
  function CollapseSlashes(s: Bytes): (r: Bytes)
    ensures |r| <= |s|
    ensures s != [] ==> r != [] && r[0] == s[0]
    ensures s != [] ==> r[|r| - 1] == s[|s| - 1]
  {
    if |s| <= 1 then s
    else if s[0] == '/' && s[1] == '/' then CollapseSlashes(s[1..])
    else [s[0]] + CollapseSlashes(s[1..])
  }

  /** No two adjacent '/' bytes. */
  predicate NoDoubleSlash(s: Bytes) {
    forall i | 0 <= i < |s| - 1 :: !(s[i] == '/' && s[i + 1] == '/')
  }

  /** `s` with every '/' removed: what collapsing slashes leaves untouched. */
  function WithoutSlashes(s: Bytes): (r: Bytes)
    ensures '/' !in r
  {
    if s == [] then [] else (if s[0] == '/' then [] else [s[0]]) + WithoutSlashes(s[1..])
  }

  lemma {:induction false} CollapseSlashesSpec(s: Bytes)
    ensures NoDoubleSlash(CollapseSlashes(s))
    ensures WithoutSlashes(CollapseSlashes(s)) == WithoutSlashes(s)
    decreases |s|
  {
    if |s| > 1 {
      CollapseSlashesSpec(s[1..]);
      if s[0] == '/' && s[1] == '/' {
        CollapseDropStep(s);
      } else {
        CollapseKeepStep(s);
      }
    } else if |s| == 1 {
      assert s[1..] == [];
    }
  }

  /** The step of `CollapseSlashesSpec` where the first of two '/' is dropped. */
  lemma CollapseDropStep(s: Bytes)
    requires |s| > 1 && s[0] == '/' && s[1] == '/'
    requires NoDoubleSlash(CollapseSlashes(s[1..]))
    requires WithoutSlashes(CollapseSlashes(s[1..])) == WithoutSlashes(s[1..])
    ensures NoDoubleSlash(CollapseSlashes(s))
    ensures WithoutSlashes(CollapseSlashes(s)) == WithoutSlashes(s)
  {
    var t := s[1..];
    assert CollapseSlashes(s) == CollapseSlashes(t);
    assert WithoutSlashes(s) == [] + WithoutSlashes(t);
    assert [] + WithoutSlashes(t) == WithoutSlashes(t);
  }

  /** The step of `CollapseSlashesSpec` where the first byte is kept. */
  lemma CollapseKeepStep(s: Bytes)
    requires |s| > 1 && !(s[0] == '/' && s[1] == '/')
    requires NoDoubleSlash(CollapseSlashes(s[1..]))
    requires WithoutSlashes(CollapseSlashes(s[1..])) == WithoutSlashes(s[1..])
    ensures NoDoubleSlash(CollapseSlashes(s))
    ensures WithoutSlashes(CollapseSlashes(s)) == WithoutSlashes(s)
  {
    var t := CollapseSlashes(s[1..]);
    assert CollapseSlashes(s) == [s[0]] + t;
    ConsNoDoubleSlash(s[0], t);
    WithoutSlashesCons(s[0], t);
    assert WithoutSlashes(s) == (if s[0] == '/' then [] else [s[0]]) + WithoutSlashes(s[1..]);
  }

  lemma ConsNoDoubleSlash(x: Byte, t: Bytes)
    requires NoDoubleSlash(t)
    requires t != [] ==> !(x == '/' && t[0] == '/')
    ensures NoDoubleSlash([x] + t)
  {
    var r := [x] + t;
    forall i | 0 <= i < |r| - 1
      ensures !(r[i] == '/' && r[i + 1] == '/')
    {
      if i > 0 {
        assert r[i] == t[i - 1] && r[i + 1] == t[i];
      }
    }
  }

  lemma WithoutSlashesCons(x: Byte, t: Bytes)
    ensures WithoutSlashes([x] + t) == (if x == '/' then [] else [x]) + WithoutSlashes(t)
  {
    assert ([x] + t)[1..] == t;
  }

  lemma {:induction false} CollapseSlashesNoop(s: Bytes)
    requires NoDoubleSlash(s)
    ensures CollapseSlashes(s) == s
    decreases |s|
  {
    if |s| > 1 {
      CollapseSlashesNoop(s[1..]);
    }
  }

  /** Collapsing, then dropping one final '/' unless the path is the single "/". */
  function NormalizePath(path: Bytes): (r: Bytes)
    ensures NoDoubleSlash(r)
    ensures |r| > 0 && r[|r| - 1] == '/' ==> r == "/"
  {
    var c := CollapseSlashes(path);
    CollapseSlashesSpec(path);
    if |c| > 1 && c[|c| - 1] == '/' then
      assert c[|c| - 2] != '/';
      c[..|c| - 1]
    else c
  }

  /** `if ($port) $normalized .= ':' . $port;` (port 0 is falsy). */
  function PortPart(port: Option<nat>): Bytes {
    if port.Some? && port.value != 0 then [':'] + DecimalText(port.value) else []
  }

  /** A query or fragment, re-attached with its delimiter only when PHP-truthy. */
  function Attached(delimiter: Byte, part: Option<Bytes>): Bytes {
    var v := part.GetOr([]);
    if Truthy(v) then [delimiter] + v else []
  }

  /** The string `normalizeUrl` builds from the parsed components. */
  function Rebuild(p: ParsedUrl): Bytes
  {
    var scheme := Lower(p.scheme.GetOr([]));
    scheme + "://" + Lower(p.host.GetOr([]))
    + PortPart(KeptPort(scheme, p.port))
    + NormalizePath(p.path.GetOr([]))
    + Attached('?', p.query)
    + Attached('#', p.fragment)
  }

  /** `normalizeUrl`: sanitize, parse, rebuild; the sanitized string when parsing fails. */
  function NormalizeUrl(url: Bytes): (r: Bytes)
    ensures ParseUrl(SanitizeUrl(url)).None? ==> r == SanitizeUrl(url)
  {
    var s := SanitizeUrl(url);
    match ParseUrl(s)
    case None => s
    case Some(p) => Rebuild(p)
  }

  /** The array `processUrl` returns. */
  datatype Processed = Processed(
    original: Bytes, sanitized: Bytes, normalized: Bytes, validation: Validation, needsSanitization: bool)

  /** `processUrl`: normalizing re-sanitizes the sanitized string, and validation runs on the
      normalized one. */
  function ProcessUrl(url: Bytes): (r: Processed)
    ensures r.needsSanitization <==> r.original != r.sanitized
  {
    var sanitized := SanitizeUrl(url);
    var normalized := NormalizeUrl(sanitized);
    Processed(url, sanitized, normalized, ValidateUrl(normalized), NeedsSanitization(url))
  }

  // ---------------------------------------------------------------- properties

  /** `strtol` reads a digit string as its decimal value. */
  lemma PortValueOfDigits(d: Bytes)
    requires |d| >= 1 && AllDigits(d) && DecimalValue(d) <= 65535
    ensures PortValue(d) == Some(DecimalValue(d))
  {
    assert IsAsciiDigit(d[0]) && !IsPcreSpace(d[0]);
    SpanWhileExact(d, 0, 0, IsSpaceByte);
    assert forall k | 0 <= k < |d| :: IsDigitByte(d[k]);
    SpanWhileExact(d, 0, |d|, IsDigitByte);
    assert d[0..|d|] == d;
  }

  /** A host `parse_url` returns unchanged: no authority delimiter, '@', ':' or control
      byte, and not the start of a bracketed literal. */
  predicate IsPlainHost(host: Bytes) {
    && |host| >= 1 && host[0] != '['
    && forall i | 0 <= i < |host| ::
         IsAuthorityByte(host[i]) && host[i] != '@' && host[i] != ':' && !IsControl(host[i])
  }

  /** A port group `parse_url` accepts: one to five digits with a value of at most 65535. */
  predicate IsParsablePort(port: Option<Bytes>) {
    port.Some? ==> 1 <= |port.value| <= 5 && AllDigits(port.value) && DecimalValue(port.value) <= 65535
  }

  function PortNumber(port: Option<Bytes>): Option<nat>
    requires IsParsablePort(port)
  {
    match port case None => None case Some(d) => Some(DecimalValue(d))
  }

  lemma AuthorityEndAt(host: Bytes, port: Option<Bytes>, tail: Bytes)
    requires IsPlainHost(host) && IsParsablePort(port)
    requires tail == [] || !IsAuthorityByte(tail[0])
    ensures var rest := host + PortSuffix(port) + tail;
      SpanWhile(rest, 0, IsAuthorityByte) == |host + PortSuffix(port)|
  {
    var a := host + PortSuffix(port);
    var rest := a + tail;
    forall k | 0 <= k < |a| ensures IsAuthorityByte(rest[k]) {
      assert rest[k] == a[k];
      if k >= |host| && port.Some? {
        assert a[k] == ([':'] + port.value)[k - |host|];
      }
    }
    if tail != [] {
      assert rest[|a|] == tail[0];
    }
    SpanWhileExact(rest, 0, |a|, IsAuthorityByte);
  }

  /** The bytes of a port suffix: ':' and then digits. */
  lemma PortSuffixBytes(port: Option<Bytes>)
    requires IsParsablePort(port)
    ensures forall k | 0 <= k < |PortSuffix(port)| :: (k == 0) == (PortSuffix(port)[k] == ':')
    ensures forall k | 0 <= k < |PortSuffix(port)| :: PortSuffix(port)[k] != '@' && IsAuthorityByte(PortSuffix(port)[k])
  {
    if port.Some? {
      var d := port.value;
      forall k | 0 < k < |PortSuffix(port)| ensures IsAsciiDigit(PortSuffix(port)[k]) {
        assert PortSuffix(port)[k] == d[k - 1];
      }
    }
  }

  lemma AuthorityColon(host: Bytes, port: Option<Bytes>)
    requires IsPlainHost(host) && IsParsablePort(port)
    ensures '@' !in host + PortSuffix(port)
    ensures port.None? ==> LastIndexOf(host + PortSuffix(port), ':').None?
    ensures port.Some? ==> LastIndexOf(host + PortSuffix(port), ':') == Some(|host|)
  {
    var ps := PortSuffix(port);
    var a := host + ps;
    PortSuffixBytes(port);
    LastIndexOfIsLast(a, ':');
    assert forall k | 0 <= k < |a| :: a[k] != '@' && ((a[k] == ':') == (k == |host| && port.Some?)) by {
      forall k | 0 <= k < |a| ensures a[k] != '@' && ((a[k] == ':') == (k == |host| && port.Some?)) {
        if k < |host| { assert a[k] == host[k]; } else { assert a[k] == ps[k - |host|]; }
      }
    }
  }

  /** What `parse_url` returns for the host part it is built to read. */
  function Expected(scheme: Bytes, host: Bytes, port: Option<Bytes>, tail: Bytes): ParsedUrl
    requires IsParsablePort(port)
  {
    if tail == [] then ParsedUrl(Some(scheme), Some(host), PortNumber(port), None, None, None)
    else SplitTail(Some(scheme), Some(host), PortNumber(port), tail)
  }

  lemma SchemeNotControl(scheme: Bytes)
    requires IsSchemeToken(scheme)
    ensures Uncontrol(scheme) == scheme
  {
    UncontrolNoop(scheme);
  }

  lemma ScanPortOf(host: Bytes, port: Option<Bytes>)
    requires IsPlainHost(host) && IsParsablePort(port)
    ensures ScanPort(host + PortSuffix(port)) == Some((|host|, PortNumber(port)))
  {
    var a := host + PortSuffix(port);
    assert a[0] == host[0];
    AuthorityColon(host, port);
    if port.Some? {
      ScanPortDigits(host, port.value, a);
    } else {
      ScanPortNone(a);
    }
  }

  lemma ScanPortDigits(host: Bytes, q: Bytes, hp: Bytes)
    requires 1 <= |q| <= 5 && AllDigits(q) && DecimalValue(q) <= 65535
    requires hp == host + [':'] + q && 0 < |hp| && hp[0] != '['
    requires LastIndexOf(hp, ':') == Some(|host|)
    ensures ScanPort(hp) == Some((|host|, Some(DecimalValue(q))))
  {
    assert hp[|host| + 1..] == q;
    PortValueOfDigits(q);
    ScanPortAt(hp, |host|, DecimalValue(q));
  }

  lemma ScanPortAt(hp: Bytes, k: nat, v: nat)
    requires 0 < |hp| && hp[0] != '[' && LastIndexOf(hp, ':') == Some(k)
    requires PortText(hp[k + 1..]) == Some(Some(v))
    ensures ScanPort(hp) == Some((k, Some(v)))
  {
  }

  lemma ScanPortNone(hp: Bytes)
    requires 0 < |hp| && hp[0] != '[' && LastIndexOf(hp, ':').None?
    ensures ScanPort(hp) == Some((|hp|, None))
  {
  }

  lemma ParseAuthorityOf(scheme: Bytes, host: Bytes, port: Option<Bytes>, tail: Bytes)
    requires IsSchemeToken(scheme) && IsPlainHost(host) && IsParsablePort(port)
    requires tail == [] || !IsAuthorityByte(tail[0])
    ensures ParseAuthority(scheme, host + PortSuffix(port) + tail) == Some(Expected(scheme, host, port, tail))
  {
    var a := host + PortSuffix(port);
    var rest := a + tail;
    AuthorityEndAt(host, port, tail);
    assert rest[..|a|] == a;
    AuthorityColon(host, port);
    assert HostStart(a) == 0;
    ScanPortOf(host, port);
    SchemeNotControl(scheme);
    assert a[..|host|] == host;
    UncontrolNoop(host);
    assert rest[|a|..] == tail;
    ParseAuthorityFrom(scheme, rest, |a|, a, host, PortNumber(port), tail);
  }

  lemma ParseAuthorityFrom(scheme: Bytes, rest: Bytes, e: nat, hp: Bytes, host: Bytes, port: Option<nat>, tail: Bytes)
    requires e <= |rest| && SpanWhile(rest, 0, IsAuthorityByte) == e && rest[..e] == hp && HostStart(hp) == 0
    requires ScanPort(hp) == Some((|host|, port)) && 1 <= |host|
    requires hp[..|host|] == host && Uncontrol(host) == host && Uncontrol(scheme) == scheme
    requires rest[e..] == tail
    ensures ParseAuthority(scheme, rest) == Some(
      if tail == [] then ParsedUrl(Some(scheme), Some(host), port, None, None, None)
      else SplitTail(Some(scheme), Some(host), port, tail))
  {
    assert hp[HostStart(hp)..] == hp;
  }

  /** `parse_url` splits "scheme://host[:port]" followed by a path, query or fragment back
      into those components. */
  lemma ParseUrlOf(scheme: Bytes, host: Bytes, port: Option<Bytes>, tail: Bytes)
    requires IsSchemeToken(scheme) && IsPlainHost(host) && IsParsablePort(port)
    requires tail == [] || !IsAuthorityByte(tail[0])
    ensures ParseUrl(scheme + "://" + host + PortSuffix(port) + tail) == Some(Expected(scheme, host, port, tail))
  {
    var rest := host + PortSuffix(port) + tail;
    var s: Bytes := scheme + "://" + rest;
    assert s == scheme + "://" + host + PortSuffix(port) + tail;
    SchemeAndRest(scheme, rest);
    assert rest[0] == host[0];
    ParseAuthorityOf(scheme, host, port, tail);
    ParseUrlAuthority(s, |scheme|, rest);
  }

  lemma SchemeAndRest(scheme: Bytes, rest: Bytes)
    requires IsSchemeToken(scheme)
    ensures var s := scheme + "://" + rest; var n := |scheme|;
      && HasSchemePrefix(s) && SpanWhile(s, 0, IsSchemeByte) == n && n + 3 <= |s|
      && s[..n] == scheme && s[n + 3..] == rest
  {
    var s: Bytes := scheme + "://" + rest;
    HasSchemePrefixOf(scheme, rest);
    SchemeHead(s, scheme, rest);
    SchemeSpan(s, scheme);
    assert s[|scheme| + 3..] == rest;
  }

  /** After a scheme prefix that is not "file:///", `parse_url` reads an authority. */
  lemma ParseUrlAuthority(s: Bytes, n: nat, rest: Bytes)
    requires HasSchemePrefix(s) && SpanWhile(s, 0, IsSchemeByte) == n && n + 3 <= |s| && s[n + 3..] == rest
    requires rest == [] || rest[0] != '/'
    ensures ParseUrl(s) == ParseAuthority(s[..n], rest)
  {
  }

  // ---------------------------------------------------------------- normalizing

  /** A path `parse_url` returns whole: no query or fragment delimiter and no control byte. */
  predicate IsPlainPath(path: Bytes) {
    forall i | 0 <= i < |path| :: path[i] != '?' && path[i] != '#' && !IsControl(path[i])
  }

  lemma SplitTailPath(scheme: Option<Bytes>, host: Option<Bytes>, port: Option<nat>, t: Bytes)
    requires t != [] && IsPlainPath(t)
    ensures SplitTail(scheme, host, port, t) == ParsedUrl(scheme, host, port, Some(t), None, None)
  {
    assert '#' !in t && t[..|t|] == t && '?' !in t;
    UncontrolNoop(t);
  }

  /** `normalizeUrl("")`: `parse_url` yields only an empty path, so the result is "://". */
  lemma NormalizeEmpty()
    ensures NormalizeUrl("") == "://"
    ensures NormalizeUrl("0") == "://"
  {
    assert SanitizeUrl("") == [] && SanitizeUrl("0") == [];
    assert !HasSchemePrefix([]);
    assert ParseUrl([]) == Some(ParsedUrl(None, None, None, Some([]), None, None));
  }

  /** `parse_url` inverts the strict pattern's outline: the string assembled from captures
      with a plain host, a readable port and a plain path parses back into those captures. */
  lemma ParseAssembled(d: Captures)
    requires WellFormed(d) && IsPlainHost(d.host) && IsParsablePort(d.port)
    requires d.path.Some? ==> IsPlainPath(d.path.value)
    ensures ParseUrl(Assemble(d)) == Some(ParsedUrl(Some(d.scheme), Some(d.host), PortNumber(d.port), d.path, None, None))
  {
    var tail := d.path.GetOr([]);
    assert tail == [] || tail[0] == '/';
    ParseUrlOf(d.scheme, d.host, d.port, tail);
    assert Assemble(d) == d.scheme + "://" + d.host + PortSuffix(d.port) + tail;
    if tail != [] {
      SplitTailPath(Some(d.scheme), Some(d.host), PortNumber(d.port), tail);
    }
  }

  lemma RebuildWithoutQuery(p: ParsedUrl)
    requires p.scheme.Some? && p.host.Some? && p.query.None? && p.fragment.None?
    ensures var scheme := Lower(p.scheme.value);
      Rebuild(p) == scheme + "://" + Lower(p.host.value) + PortPart(KeptPort(scheme, p.port)) + NormalizePath(p.path.GetOr([]))
  {
    assert Attached('?', p.query) == [] && Attached('#', p.fragment) == [];
  }

  /** Normalizing a URL whose sanitized form is "scheme://host[:port][path]" lower-cases the
      scheme and host, drops a default port and collapses the slashes of the path. */
  lemma NormalizeAssembled(url: Bytes, d: Captures)
    requires SanitizeUrl(url) == Assemble(d)
    requires WellFormed(d) && IsPlainHost(d.host) && IsParsablePort(d.port)
    requires d.path.Some? ==> IsPlainPath(d.path.value)
    ensures var scheme := Lower(d.scheme);
      NormalizeUrl(url) ==
        scheme + "://" + Lower(d.host) + PortPart(KeptPort(scheme, PortNumber(d.port)))
        + NormalizePath(d.path.GetOr([]))
  {
    ParseAssembled(d);
    RebuildWithoutQuery(ParsedUrl(Some(d.scheme), Some(d.host), PortNumber(d.port), d.path, None, None));
  }

  /** The port text of the normalized URL is empty exactly when there was no port, port 0,
      or the default port of the (lower-cased) scheme; otherwise it is ':' and the decimal port. */
  lemma PortPartIff(scheme: Bytes, port: Option<nat>)
    ensures PortPart(KeptPort(scheme, port)) == [] <==>
      port.None? || port.value == 0 || IsDefaultPort(scheme, port.value)
    ensures PortPart(KeptPort(scheme, port)) != [] ==> PortPart(KeptPort(scheme, port)) == [':'] + DecimalText(port.value)
  {
  }

  /** The three default ports are dropped, and the same numbers under another scheme are kept. */
  lemma DefaultPorts()
    ensures PortPart(KeptPort("http", Some(80))) == []
    ensures PortPart(KeptPort("https", Some(443))) == []
    ensures PortPart(KeptPort("ftp", Some(21))) == []
    ensures PortPart(KeptPort("https", Some(80))) == ":80"
  {
    assert DecimalText(80) == "80" by { assert DecimalText(8) == "8"; }
  }

  /** Normalizing a path twice changes nothing more. */
  lemma NormalizePathIdempotent(path: Bytes)
    ensures NormalizePath(NormalizePath(path)) == NormalizePath(path)
  {
    var r := NormalizePath(path);
    CollapseSlashesNoop(r);
  }

  // ---------------------------------------------------------------- scheme prefix kept

  /** Whichever branch `parse_url` takes on a string with a scheme prefix, it reports the
      prefix's scheme token as the scheme. */
  lemma ParseUrlScheme(s: Bytes)
    requires HasSchemePrefix(s)
    ensures var n := SpanWhile(s, 0, IsSchemeByte);
      IsSchemeToken(s[..n]) && (ParseUrl(s).Some? ==> ParseUrl(s).value.scheme == Some(s[..n]))
  {
    SchemePrefixFound(s);
    SchemeNotControl(s[..SpanWhile(s, 0, IsSchemeByte)]);
  }

  /** A rebuilt URL starts with the lower-cased scheme and "://". */
  lemma RebuildSchemePrefix(p: ParsedUrl)
    requires p.scheme.Some? && IsSchemeToken(p.scheme.value)
    ensures HasSchemePrefix(Rebuild(p))
  {
    var scheme := Lower(p.scheme.value);
    LowerKeepsSchemeToken(p.scheme.value);
    var a, b, c, d, e := Lower(p.host.GetOr([])), PortPart(KeptPort(scheme, p.port)),
      NormalizePath(p.path.GetOr([])), Attached('?', p.query), Attached('#', p.fragment);
    Regroup(scheme + "://", a, b, c, d, e, Rebuild(p));
    HasSchemePrefixOf(scheme, a + b + c + d + e);
  }

  lemma Regroup(head: Bytes, a: Bytes, b: Bytes, c: Bytes, d: Bytes, e: Bytes, r: Bytes)
    requires r == head + a + b + c + d + e
    ensures r == head + (a + b + c + d + e)
  {
  }

  /** Normalizing never loses the scheme prefix sanitizing put on a non-empty input. */
  lemma NormalizeHasSchemePrefix(url: Bytes)
    requires !PhpEmpty(url)
    ensures HasSchemePrefix(NormalizeUrl(url))
  {
    var s := SanitizeUrl(url);
    SanitizeHasSchemePrefix(url);
    ParseUrlScheme(s);
    if ParseUrl(s).Some? {
      RebuildSchemePrefix(ParseUrl(s).value);
    }
  }

  /** A string with a scheme prefix has at least four bytes, so it is not PHP-empty. */
  lemma SchemePrefixNotEmpty(s: Bytes)
    requires HasSchemePrefix(s)
    ensures !PhpEmpty(s)
  {
    SchemePrefixFound(s);
  }

  // ---------------------------------------------------------------- processUrl

  /** What the fields of the report say about each other: the sanitized form is empty exactly
      for a PHP-empty input, and otherwise both it and the normalized form have a scheme
      prefix; a PHP-empty input normalizes to "://"; and when the sanitized form holds no '%',
      the second sanitization inside `normalizeUrl` changes nothing, so the normalized form is
      the input's own normalization and the sanitized form needs no further sanitizing. */
  lemma ProcessUrlReport(url: Bytes)
    ensures var r := ProcessUrl(url);
      && (r.sanitized == [] <==> PhpEmpty(url))
      && (!PhpEmpty(url) ==> HasSchemePrefix(r.sanitized) && HasSchemePrefix(r.normalized))
      && (PhpEmpty(url) ==> r.normalized == "://")
      && ('%' !in r.sanitized ==> r.normalized == NormalizeUrl(url) && !NeedsSanitization(r.sanitized))
  {
    var s := SanitizeUrl(url);
    SanitizeEmptyIff(url);
    if PhpEmpty(url) {
      NormalizeEmpty();
    } else {
      SanitizeHasSchemePrefix(url);
      SchemePrefixNotEmpty(s);
      NormalizeHasSchemePrefix(s);
    }
    if '%' !in s {
      SanitizeFixpoint(url);
      SanitizedNeedsNoSanitization(url);
    }
  }

  /** For an input whose sanitized form is "scheme://host[:port][path]" without '%', the
      report's normalized form lower-cases scheme and host, drops a default port and
      collapses the path's slashes. */
  lemma ProcessAssembled(url: Bytes, d: Captures)
    requires SanitizeUrl(url) == Assemble(d) && '%' !in Assemble(d)
    requires WellFormed(d) && IsPlainHost(d.host) && IsParsablePort(d.port)
    requires d.path.Some? ==> IsPlainPath(d.path.value)
    ensures var scheme := Lower(d.scheme);
      ProcessUrl(url).normalized ==
        scheme + "://" + Lower(d.host) + PortPart(KeptPort(scheme, PortNumber(d.port)))
        + NormalizePath(d.path.GetOr([]))
  {
    ProcessUrlReport(url);
    NormalizeAssembled(url, d);
  }

  // ---------------------------------------------------------------- query and fragment

  /** No byte `parse_url` would replace with '_'. */
  predicate NoControl(s: Bytes) { forall i | 0 <= i < |s| :: !IsControl(s[i]) }

  /** A query or fragment as it appears in the string: its delimiter and its text. */
  function Delimited(delimiter: Byte, part: Option<Bytes>): (r: Bytes)
    ensures part.Some? ==> |r| == |part.value| + 1 && r[0] == delimiter && r[1..] == part.value
    ensures part.None? ==> r == []
  {
    match part case None => [] case Some(v) => [delimiter] + v
  }

  /** The part after the authority splits back into the path, the query after the first '?'
      and the fragment after the first '#'. */
  lemma SplitTailOf(scheme: Option<Bytes>, host: Option<Bytes>, port: Option<nat>,
                    path: Bytes, query: Option<Bytes>, fragment: Option<Bytes>)
    requires IsPlainPath(path)
    requires query.Some? ==> '#' !in query.value && NoControl(query.value)
    requires fragment.Some? ==> NoControl(fragment.value)
    ensures var t := path + Delimited('?', query) + Delimited('#', fragment);
      SplitTail(scheme, host, port, t)
        == ParsedUrl(scheme, host, port, if path != [] || t == [] then Some(path) else None, query, fragment)
  {
    var dq := Delimited('?', query);
    var df := Delimited('#', fragment);
    var head := path + dq;
    var t := head + df;
    NoFragmentDelimiter(path, dq, head);
    FragmentAt(head, fragment, t);
    QueryAt(path, query, head);
    PrefixSlices(path, head, t);
    UncontrolNoop(path);
    SplitTailFrom(scheme, host, port, t, head, path, query, fragment);
  }

  lemma NoFragmentDelimiter(path: Bytes, dq: Bytes, head: Bytes)
    requires '#' !in path && '#' !in dq && head == path + dq
    ensures '#' !in head
  {
    forall i | 0 <= i < |head| ensures head[i] != '#' {
      if i >= |path| { assert head[i] == dq[i - |path|]; }
    }
  }

  lemma PrefixSlices(path: Bytes, head: Bytes, t: Bytes)
    requires |path| <= |head| <= |t| && head[..|path|] == path && t[..|head|] == head
    ensures t[..|path|] == path
    ensures |path| < |head| ==> t[|path| + 1..|head|] == head[|path| + 1..]
  {
    assert t[..|path|] == head[..|path|];
  }

  /** `SplitTail` once the first '#' and the first '?' before it are located. */
  lemma SplitTailFrom(scheme: Option<Bytes>, host: Option<Bytes>, port: Option<nat>, t: Bytes, head: Bytes,
                      path: Bytes, query: Option<Bytes>, fragment: Option<Bytes>)
    requires |path| <= |head| <= |t|
    requires var f := IndexOf(t, '#');
      && (f.Some? <==> fragment.Some?)
      && (f.Some? ==> f.value == |head| && Uncontrol(t[|head| + 1..]) == fragment.value)
      && t[..if f.Some? then f.value else |t|] == head
    requires var q := IndexOf(head, '?');
      && (q.Some? <==> query.Some?)
      && (q.Some? ==> q.value == |path| && Uncontrol(head[|path| + 1..]) == query.value)
      && head[..if q.Some? then q.value else |head|] == path
    requires t[..|path|] == path && Uncontrol(path) == path
    ensures SplitTail(scheme, host, port, t)
      == ParsedUrl(scheme, host, port, if path != [] || t == [] then Some(path) else None, query, fragment)
  {
  }

  lemma FragmentAt(head: Bytes, fragment: Option<Bytes>, t: Bytes)
    requires '#' !in head && (fragment.Some? ==> NoControl(fragment.value))
    requires t == head + Delimited('#', fragment)
    ensures var f := IndexOf(t, '#');
      && (f.Some? <==> fragment.Some?)
      && (f.Some? ==> f.value == |head| && Uncontrol(t[|head| + 1..]) == fragment.value)
      && t[..if f.Some? then f.value else |t|] == head
  {
    if fragment.Some? {
      assert t[|head|] == '#' && t[..|head|] == head;
      IndexOfFirst(t, '#', |head|);
      assert t[|head| + 1..] == fragment.value;
      UncontrolNoop(fragment.value);
    } else {
      assert t == head;
    }
  }

  lemma QueryAt(path: Bytes, query: Option<Bytes>, head: Bytes)
    requires IsPlainPath(path) && (query.Some? ==> NoControl(query.value))
    requires head == path + Delimited('?', query)
    ensures var q := IndexOf(head, '?');
      && (q.Some? <==> query.Some?)
      && (q.Some? ==> q.value == |path| && Uncontrol(head[|path| + 1..]) == query.value)
      && head[..if q.Some? then q.value else |head|] == path
  {
    assert '?' !in path;
    if query.Some? {
      assert head[|path|] == '?' && head[..|path|] == path;
      IndexOfFirst(head, '?', |path|);
      assert head[|path| + 1..] == query.value;
      UncontrolNoop(query.value);
    } else {
      assert head == path;
    }
  }

  /** Normalizing "scheme://host[:port]" followed by a path, a query and a fragment: the
      scheme and host are lower-cased, a default port is dropped, the path's slashes are
      collapsed, and the query and fragment come back unchanged behind their delimiters
      unless they are PHP-empty. */
  lemma NormalizeQueryFragment(url: Bytes, scheme: Bytes, host: Bytes, port: Option<Bytes>,
                               path: Bytes, query: Option<Bytes>, fragment: Option<Bytes>)
    requires IsSchemeToken(scheme) && IsPlainHost(host) && IsParsablePort(port)
    requires IsPlainPath(path) && (path == [] || path[0] == '/')
    requires query.Some? ==> '#' !in query.value && NoControl(query.value)
    requires fragment.Some? ==> NoControl(fragment.value)
    requires SanitizeUrl(url) == scheme + "://" + host + PortSuffix(port)
                                 + (path + Delimited('?', query) + Delimited('#', fragment))
    ensures var sc := Lower(scheme);
      NormalizeUrl(url) ==
        sc + "://" + Lower(host) + PortPart(KeptPort(sc, PortNumber(port))) + NormalizePath(path)
        + Attached('?', query) + Attached('#', fragment)
  {
    var t := path + Delimited('?', query) + Delimited('#', fragment);
    ParseUrlOf(scheme, host, port, t);
    var p := Expected(scheme, host, port, t);
    if t != [] {
      SplitTailOf(Some(scheme), Some(host), PortNumber(port), path, query, fragment);
    }
    RebuildOf(p, scheme, host, PortNumber(port), path, query, fragment);
  }

  lemma RebuildOf(p: ParsedUrl, scheme: Bytes, host: Bytes, port: Option<nat>,
                  path: Bytes, query: Option<Bytes>, fragment: Option<Bytes>)
    requires p.scheme == Some(scheme) && p.host == Some(host) && p.port == port
    requires p.path.GetOr([]) == path && p.query == query && p.fragment == fragment
    ensures var sc := Lower(scheme);
      Rebuild(p) == sc + "://" + Lower(host) + PortPart(KeptPort(sc, port)) + NormalizePath(path)
        + Attached('?', query) + Attached('#', fragment)
  {
  }

  // ---------------------------------------------------------------- normal form

  /** The captures of a normalized "scheme://host[:port][path]": lower-cased scheme and
      host, the port printed in decimal unless it is dropped, and the collapsed path. */
  function NormalForm(d: Captures): (e: Captures)
    requires IsParsablePort(d.port)
    ensures e.scheme == Lower(d.scheme) && e.host == Lower(d.host)
    ensures PortSuffix(e.port) == PortPart(KeptPort(Lower(d.scheme), PortNumber(d.port)))
    ensures e.path.GetOr([]) == NormalizePath(d.path.GetOr([]))
  {
    var v := KeptPort(Lower(d.scheme), PortNumber(d.port));
    var np := NormalizePath(d.path.GetOr([]));
    Captures(Lower(d.scheme), Lower(d.host),
             if v.Some? && v.value != 0 then Some(DecimalText(v.value)) else None,
             if np == [] then None else Some(np))
  }

  /** The normal form assembles to what `normalizeUrl` builds from the captures. */
  lemma NormalFormAssembles(d: Captures)
    requires IsParsablePort(d.port)
    ensures var sc := Lower(d.scheme);
      Assemble(NormalForm(d)) ==
        sc + "://" + Lower(d.host) + PortPart(KeptPort(sc, PortNumber(d.port))) + NormalizePath(d.path.GetOr([]))
  {
  }

  /** Every byte collapsing leaves was in the input. */
  lemma {:induction false} CollapseSlashesBytes(s: Bytes)
    ensures forall i | 0 <= i < |CollapseSlashes(s)| :: CollapseSlashes(s)[i] in s
    decreases |s|
  {
    if |s| > 1 {
      CollapseSlashesBytes(s[1..]);
      var t := CollapseSlashes(s[1..]);
      if !(s[0] == '/' && s[1] == '/') {
        assert CollapseSlashes(s) == [s[0]] + t;
      }
      forall b | b in t ensures b in s {
        assert b in s[1..];
      }
    }
  }

  lemma NormalizePathBytes(path: Bytes)
    ensures forall i | 0 <= i < |NormalizePath(path)| :: NormalizePath(path)[i] in path
  {
    CollapseSlashesBytes(path);
    var c := CollapseSlashes(path);
    forall i | 0 <= i < |NormalizePath(path)| ensures NormalizePath(path)[i] in path {
      assert NormalizePath(path)[i] == c[i];
    }
  }

  /** A sanitized, '%'-free URL is made of captures sanitizing leaves as they are. */
  lemma SanitizedCapturesFixed(url: Bytes, d: Captures)
    requires SanitizeUrl(url) == Assemble(d) && '%' !in Assemble(d) && WellFormed(d)
    ensures SanitizedParts(d) == d
  {
    AssembleEnds(d);
    SanitizeFixpoint(url);
    SanitizeLastByte(url);
    FixedCaptures(d);
  }

  /** Captures whose assembly sanitizing leaves unchanged are left unchanged themselves. */
  lemma FixedCaptures(d: Captures)
    requires WellFormed(d) && SanitizeUrl(Assemble(d)) == Assemble(d)
    requires |Assemble(d)| > 0 && !IsTrimByte(Assemble(d)[|Assemble(d)| - 1])
    ensures SanitizedParts(d) == d
  {
    AssembleEnds(d);
    SanitizeOfMatched(d);
    SanitizedPartsWellFormed(d);
    AssembleInjective(SanitizedParts(d), d);
  }

  /** The bytes of a path sanitizing leaves unchanged are all kept by the encoder. */
  lemma FixedPathKept(path: Bytes)
    requires SanitizePath(path) == path
    ensures forall i | 0 <= i < |path| :: IsKept(path[i])
  {
    SanitizePathIsEncode(path);
    EncodeFixedIff(path);
  }

  /** The collapsed path of a path of kept bytes keeps its shape, and sanitizing leaves it. */
  lemma NormalFormPath(p: Bytes)
    requires IsPathToken(p) && IsPlainPath(p)
    requires forall i | 0 <= i < |p| :: IsKept(p[i])
    ensures var np := NormalizePath(p);
      && IsPathToken(np) && IsPlainPath(np) && SanitizePath(np) == np
      && !IsTrimByte(np[|np| - 1])
  {
    var np := NormalizePath(p);
    NormalizePathBytes(p);
    assert forall i | 0 <= i < |np| :: IsKept(np[i]) && np[i] != '\n' && !IsControl(np[i]) by {
      forall i | 0 <= i < |np| ensures IsKept(np[i]) && np[i] != '\n' && !IsControl(np[i]) {
        var k :| 0 <= k < |p| && p[k] == np[i];
      }
    }
    EncodeFixedIff(np);
    SanitizePathIsEncode(np);
    EncodeAvoidsUnsafe(np);
  }

  /** The port of the normal form is one `parse_url` reads back as the kept port. */
  lemma NormalFormPort(d: Captures)
    requires IsParsablePort(d.port)
    ensures var e := NormalForm(d);
      && IsParsablePort(e.port) && (e.port.Some? ==> IsPortToken(e.port.value))
      && PortPart(KeptPort(Lower(e.scheme), PortNumber(e.port))) == PortSuffix(e.port)
  {
    var e := NormalForm(d);
    var v := KeptPort(Lower(d.scheme), PortNumber(d.port));
    LowerIdempotent(d.scheme);
    if e.port.Some? {
      DecimalTextLength(v.value, 5);
    }
  }

  /** The normal form is well-formed and plain. */
  lemma NormalFormShape(d: Captures)
    requires WellFormed(d) && IsPlainHost(d.host) && IsParsablePort(d.port)
    requires d.path.Some? ==> IsPlainPath(d.path.value)
    requires SanitizedParts(d) == d
    ensures var e := NormalForm(d);
      && WellFormed(e) && IsPlainHost(e.host) && IsParsablePort(e.port)
      && (e.path.Some? ==> IsPlainPath(e.path.value))
  {
    LowerIdempotent(d.scheme);
    LowerIdempotent(d.host);
    NormalFormPort(d);
    NormalFormPathShape(d);
  }

  /** Sanitizing leaves the captures of the normal form unchanged, and a present path
      does not end in a trim byte. */
  lemma NormalFormSanitized(d: Captures)
    requires WellFormed(d) && IsParsablePort(d.port)
    requires d.path.Some? ==> IsPlainPath(d.path.value)
    requires SanitizedParts(d) == d
    ensures var e := NormalForm(d);
      && SanitizedParts(e) == e
      && (e.path.Some? ==> e.path.value != [] && !IsTrimByte(e.path.value[|e.path.value| - 1]))
  {
    LowerIdempotent(d.scheme);
    LowerIdempotent(d.host);
    NormalFormPathShape(d);
  }

  /** Normalizing the parts of the normal form again changes none of them. */
  lemma NormalFormStableParts(d: Captures)
    requires WellFormed(d) && IsParsablePort(d.port)
    requires d.path.Some? ==> IsPlainPath(d.path.value)
    requires SanitizedParts(d) == d
    ensures var e := NormalForm(d);
      && e.scheme == Lower(e.scheme) && e.host == Lower(e.host) && IsParsablePort(e.port)
      && PortPart(KeptPort(Lower(e.scheme), PortNumber(e.port))) == PortSuffix(e.port)
      && (e.path.Some? ==> NormalizePath(e.path.value) == e.path.value)
  {
    LowerIdempotent(d.scheme);
    LowerIdempotent(d.host);
    NormalFormPort(d);
    NormalFormPathShape(d);
  }

  /** The path of the normal form, for a path sanitizing leaves unchanged. */
  lemma NormalFormPathShape(d: Captures)
    requires IsParsablePort(d.port)
    requires d.path.Some? ==> IsPathToken(d.path.value) && IsPlainPath(d.path.value)
    requires d.path.Some? ==> SanitizePath(d.path.value) == d.path.value
    ensures var e := NormalForm(d);
      && (d.path.None? ==> e.path.None?)
      && (e.path.Some? ==> d.path.Some? && e.path.value == NormalizePath(d.path.value))
      && (e.path.Some? ==> IsPathToken(e.path.value) && IsPlainPath(e.path.value))
      && (e.path.Some? ==> SanitizePath(e.path.value) == e.path.value)
      && (e.path.Some? ==> !IsTrimByte(e.path.value[|e.path.value| - 1]))
      && (e.path.Some? ==> NormalizePath(e.path.value) == e.path.value)
  {
    if d.path.Some? {
      var p := d.path.value;
      FixedPathKept(p);
      NormalFormPath(p);
      NormalizePathIdempotent(p);
    }
  }

  lemma NormalFormEnds(e: Captures)
    requires WellFormed(e) && IsPlainHost(e.host)
    requires e.path.Some? ==> !IsTrimByte(e.path.value[|e.path.value| - 1])
    ensures IsAsciiLetter(Assemble(e)[0]) && !IsTrimByte(Assemble(e)[|Assemble(e)| - 1])
  {
    AssembleEnds(e);
  }

  /** `normalizeUrl` reaches a fixpoint on a sanitized URL without '%': the URL it returns
      is its own sanitization, and normalizing it again returns it unchanged. */
  lemma NormalizeFixpoint(url: Bytes, d: Captures)
    requires SanitizeUrl(url) == Assemble(d) && '%' !in Assemble(d)
    requires WellFormed(d) && IsPlainHost(d.host) && IsParsablePort(d.port)
    requires d.path.Some? ==> IsPlainPath(d.path.value)
    ensures NormalizeUrl(url) == Assemble(NormalForm(d))
    ensures SanitizeUrl(NormalizeUrl(url)) == NormalizeUrl(url)
    ensures NormalizeUrl(NormalizeUrl(url)) == NormalizeUrl(url)
  {
    NormalizeToNormalForm(url, d);
    SanitizedCapturesFixed(url, d);
    NormalFormOfSanitizedFixed(d);
  }

  /** The assembly of the normal form of sanitized, plain captures is left unchanged by
      sanitizing and by normalizing. */
  lemma NormalFormOfSanitizedFixed(d: Captures)
    requires WellFormed(d) && IsPlainHost(d.host) && IsParsablePort(d.port)
    requires d.path.Some? ==> IsPlainPath(d.path.value)
    requires SanitizedParts(d) == d
    ensures SanitizeUrl(Assemble(NormalForm(d))) == Assemble(NormalForm(d))
    ensures NormalizeUrl(Assemble(NormalForm(d))) == Assemble(NormalForm(d))
  {
    NormalFormShape(d);
    NormalFormSanitized(d);
    NormalFormEnds(NormalForm(d));
    NormalFormStableParts(d);
    NormalFormFixed(NormalForm(d));
  }

  lemma NormalizeToNormalForm(url: Bytes, d: Captures)
    requires SanitizeUrl(url) == Assemble(d)
    requires WellFormed(d) && IsPlainHost(d.host) && IsParsablePort(d.port)
    requires d.path.Some? ==> IsPlainPath(d.path.value)
    ensures NormalizeUrl(url) == Assemble(NormalForm(d))
  {
    NormalizeAssembled(url, d);
    NormalFormAssembles(d);
  }

  /** Sanitizing and normalizing leave the assembly of a normal form unchanged. */
  lemma NormalFormFixed(e: Captures)
    requires WellFormed(e) && IsPlainHost(e.host) && IsParsablePort(e.port)
    requires e.path.Some? ==> IsPlainPath(e.path.value)
    requires SanitizedParts(e) == e
    requires IsAsciiLetter(Assemble(e)[0]) && !IsTrimByte(Assemble(e)[|Assemble(e)| - 1])
    requires e.scheme == Lower(e.scheme) && e.host == Lower(e.host)
    requires PortPart(KeptPort(Lower(e.scheme), PortNumber(e.port))) == PortSuffix(e.port)
    requires e.path.Some? ==> NormalizePath(e.path.value) == e.path.value
    ensures SanitizeUrl(Assemble(e)) == Assemble(e)
    ensures NormalizeUrl(Assemble(e)) == Assemble(e)
  {
    SanitizeOfMatched(e);
    NormalizeAssembled(Assemble(e), e);
    NormalFormStable(e);
  }

  /** Normalizing the captures of a normal form changes nothing. */
  lemma NormalFormStable(e: Captures)
    requires IsParsablePort(e.port)
    requires e.scheme == Lower(e.scheme) && e.host == Lower(e.host)
    requires PortPart(KeptPort(Lower(e.scheme), PortNumber(e.port))) == PortSuffix(e.port)
    requires e.path.Some? ==> NormalizePath(e.path.value) == e.path.value
    ensures var sc := Lower(e.scheme);
      sc + "://" + Lower(e.host) + PortPart(KeptPort(sc, PortNumber(e.port))) + NormalizePath(e.path.GetOr([]))
        == Assemble(e)
  {
  }
}

=== FILE: url_normalizer_examples.dfy ===
/** A '%' in the path is escaped again on every pass: `normalizeUrl` is not idempotent there. */
module UrlNormalizerExamples {
  import opened Wrappers
  import opened Bytes
  import opened PercentEncoding
  import opened UrlPattern
  import opened UrlSanitizer
  import opened UrlNormalizer

  const Scheme: Bytes := "https"
  const Host: Bytes := "a.co"
  /** "https://a.co" */
  const Origin: Bytes := Scheme + "://" + Host

  /** The paths "/%", "/%25" and "/%2525". */
  const Path0: Bytes := "/%"
  const Path1: Bytes := "/%25"
  const Path2: Bytes := "/%2525"

  /** "https://a.co/%" */
  const Url0: Bytes := Origin + Path0
  /** "https://a.co/%25" */
  const Url1: Bytes := Origin + Path1
  /** "https://a.co/%2525" */
  const Url2: Bytes := Origin + Path2

  /** "https://a.co" followed by the path `p`. */
  function Parts(p: Bytes): Captures {
    Captures(Scheme, Host, None, Some(p))
  }

  lemma OriginTokens()
    ensures IsSchemeToken(Scheme) && IsHostToken(Host) && IsPlainHost(Host)
    ensures Lower(Scheme) == Scheme && Lower(Host) == Host
    ensures IsAsciiLetter(Scheme[0])
  {
    LowerNoop(Scheme);
    LowerNoop(Host);
  }

  lemma PartsWellFormed(p: Bytes)
    requires IsPathToken(p)
    ensures WellFormed(Parts(p)) && Assemble(Parts(p)) == Origin + p
  {
    OriginTokens();
  }

  lemma PartsEnds(p: Bytes)
    requires IsPathToken(p) && !IsTrimByte(p[|p| - 1])
    ensures IsAsciiLetter(Assemble(Parts(p))[0])
    ensures !IsTrimByte(Assemble(Parts(p))[|Assemble(Parts(p))| - 1])
  {
    OriginTokens();
    PartsWellFormed(p);
  }

  lemma PartsSanitized(p: Bytes)
    ensures SanitizedParts(Parts(p)) == Parts(SanitizePath(p))
  {
    OriginTokens();
  }

  /** Sanitizing "https://a.co" followed by the path `p` escapes the path, giving the
      path `q`, and leaves the rest alone. */
  lemma SanitizePlain(p: Bytes, q: Bytes)
    requires IsPathToken(p) && !IsTrimByte(p[|p| - 1]) && Encode(p) == q
    ensures SanitizeUrl(Origin + p) == Origin + q
  {
    PartsWellFormed(p);
    PartsEnds(p);
    SanitizeOfMatched(Parts(p));
    PartsSanitized(p);
    SanitizePathIsEncode(p);
    PartsAssemble(q);
  }

  lemma PartsAssemble(q: Bytes)
    ensures Assemble(Parts(q)) == Origin + q
  {
  }

  /** Normalizing "https://a.co" followed by the path `p` gives "https://a.co" followed by
      the escaped path `q`, when `q` has no "//" and does not end in '/'. */
  lemma NormalizePlain(p: Bytes, q: Bytes)
    requires IsPathToken(p) && !IsTrimByte(p[|p| - 1]) && Encode(p) == q
    requires IsPathToken(q) && IsPlainPath(q) && NoDoubleSlash(q) && q[|q| - 1] != '/'
    ensures NormalizeUrl(Origin + p) == Origin + q
  {
    SanitizePlain(p, q);
    PartsWellFormed(q);
    OriginTokens();
    NormalizeAssembled(Origin + p, Parts(q));
    NormalizePathNoop(q);
    PartsNormalized(q);
  }

  lemma NormalizePathNoop(q: Bytes)
    requires NoDoubleSlash(q) && |q| > 0 && q[|q| - 1] != '/'
    ensures NormalizePath(q) == q
  {
    CollapseSlashesNoop(q);
  }

  lemma PartsNormalized(q: Bytes)
    requires NormalizePath(q) == q
    ensures var d := Parts(q); var sc := Lower(d.scheme);
      sc + "://" + Lower(d.host) + PortPart(KeptPort(sc, PortNumber(d.port)))
        + NormalizePath(d.path.GetOr([])) == Origin + q
  {
    OriginTokens();
    assert KeptPort(Scheme, None) == None;
  }

  lemma EncodeSlashPercent()
    ensures Encode(Path0) == Path1
  {
    assert Encode("/%") == EncodeByte('/') + Encode("%");
    assert Encode("%") == EncodeByte('%') + Encode([]);
  }

  lemma EncodeSlashPercent25()
    ensures Encode(Path1) == Path2
  {
    EncodePercent25();
    assert Encode("/%25") == EncodeByte('/') + Encode("%25");
  }

  lemma EncodePercent25()
    ensures Encode("%25") == "%2525"
  {
    EncodeDigits();
    assert Encode("%25") == EncodeByte('%') + Encode("25");
  }

  lemma EncodeDigits()
    ensures Encode("25") == "25"
  {
    assert Encode("25") == EncodeByte('2') + Encode("5");
    assert Encode("5") == EncodeByte('5') + Encode([]);
  }

  lemma EscapedPaths()
    ensures IsPathToken(Path0) && !IsTrimByte(Path0[|Path0| - 1])
    ensures IsPathToken(Path1) && IsPlainPath(Path1) && NoDoubleSlash(Path1)
    ensures !IsTrimByte(Path1[|Path1| - 1]) && Path1[|Path1| - 1] != '/'
    ensures IsPathToken(Path2) && IsPlainPath(Path2) && NoDoubleSlash(Path2)
    ensures Path2[|Path2| - 1] != '/'
  {
  }

  /** "https://a.co/%" normalizes to "https://a.co/%25", which normalizes to
      "https://a.co/%2525": the second pass changes the result of the first. */
  lemma PercentPathNotFixed()
    ensures NormalizeUrl(Url0) == Url1
    ensures NormalizeUrl(Url1) == Url2
    ensures NormalizeUrl(NormalizeUrl(Url0)) != NormalizeUrl(Url0)
  {
    EncodeSlashPercent();
    EncodeSlashPercent25();
    EscapedPaths();
    NormalizePlain(Path0, Path1);
    NormalizePlain(Path1, Path2);
    assert |Url2| > |Url1|;
  }
}

=== FILE: url_pattern.dfy ===
/**
 * The two regular expressions of the URL validator service that recognise a URL's
 * outline, written out as deterministic scanners:
 *
 *   the scheme prefix   /^[a-zA-Z][a-zA-Z0-9+.-]*:\/\//
 *   the strict pattern  /^([a-zA-Z][a-zA-Z0-9+.-]*):\/\/([^:\/\s]+)(:\d+)?(\/.*)?$/
 *
 * Each quantifier in them is followed by a byte it cannot consume (':' after the
 * scheme, ':' '/' or whitespace after the host, a non-digit after the port), so
 * backtracking never finds a shorter split than the greedy one and a single
 * left-to-right scan decides the match. `$` without the D modifier also matches
 * before a final "\n", and `.` does not match "\n".
 */
module UrlPattern {
  import opened Wrappers
  import opened Bytes

  /** The four groups of the strict pattern; `port` holds the digits of `(:\d+)` without the ':'. */
  datatype Captures = Captures(scheme: Bytes, host: Bytes, port: Option<Bytes>, path: Option<Bytes>)

  predicate IsSchemeByte(c: Byte) { IsAsciiAlnum(c) || c == '+' || c == '.' || c == '-' }

  predicate IsDigitByte(c: Byte) { IsAsciiDigit(c) }

  /** `[a-zA-Z][a-zA-Z0-9+.-]*` */
  predicate IsSchemeToken(s: Bytes) {
    |s| >= 1 && IsAsciiLetter(s[0]) && forall i | 0 <= i < |s| :: IsSchemeByte(s[i])
  }

  /** `[^:\/\s]` */
  predicate IsHostByte(c: Byte) { c != ':' && c != '/' && !IsPcreSpace(c) }

  /** `[^:\/\s]+` */
  predicate IsHostToken(s: Bytes) {
    |s| >= 1 && forall i | 0 <= i < |s| :: IsHostByte(s[i])
  }

  /** `\d+` */
  predicate IsPortToken(s: Bytes) { |s| >= 1 && AllDigits(s) }

  /** `\/.*` */
  predicate IsPathToken(s: Bytes) { |s| >= 1 && s[0] == '/' && '\n' !in s }

  /** Captures the strict pattern can produce. */
  predicate WellFormed(c: Captures) {
    && IsSchemeToken(c.scheme)
    && IsHostToken(c.host)
    && (c.port.Some? ==> IsPortToken(c.port.value))
    && (c.path.Some? ==> IsPathToken(c.path.value))
  }

  function PortSuffix(port: Option<Bytes>): Bytes {
    match port
    case None => []
    case Some(p) => [':'] + p
  }

  /** The string whose match produced `c`: scheme "://" host [":" port] [path]. */
  function Assemble(c: Captures): Bytes {
    c.scheme + "://" + c.host + PortSuffix(c.port) + c.path.GetOr([])
  }

  /** The last byte of an assembled string: that of the path, else the port, else the host. */
  function LastCaptured(c: Captures): Byte
    requires WellFormed(c)
  {
    match c.path
    case Some(p) => p[|p| - 1]
    case None =>
      match c.port
      case Some(q) => q[|q| - 1]
      case None => c.host[|c.host| - 1]
  }

  lemma AssembleEnds(c: Captures)
    requires WellFormed(c)
    ensures |Assemble(c)| > 0 && Assemble(c)[0] == c.scheme[0]
    ensures Assemble(c)[|Assemble(c)| - 1] == LastCaptured(c)
  {
    var head: Bytes := c.scheme + "://" + c.host;
    assert Assemble(c) == head + PortSuffix(c.port) + c.path.GetOr([]);
    assert head[0] == c.scheme[0];
    match c.path
    case Some(p) =>
    case None =>
      match c.port
      case Some(q) =>
        assert PortSuffix(c.port) == [':'] + q;
      case None =>
        assert Assemble(c) == head;
  }

  // ---------------------------------------------------------------- scheme prefix

  /** `preg_match('/^[a-zA-Z][a-zA-Z0-9+.-]*:\/\//', $s)` */
  predicate HasSchemePrefix(s: Bytes) {
    var n := SpanWhile(s, 0, IsSchemeByte);
    n >= 1 && IsAsciiLetter(s[0]) && DelimiterAt(s, n)
  }

  /** The prefix test accepts exactly the strings that begin with a scheme token and "://". */
  lemma HasSchemePrefixIff(s: Bytes)
    ensures HasSchemePrefix(s) <==>
      exists n | 0 < n <= |s| :: IsSchemeToken(s[..n]) && StartsWith(s[n..], "://")
  {
    if HasSchemePrefix(s) {
      SchemePrefixFound(s);
    }
    if exists m | 0 < m <= |s| :: IsSchemeToken(s[..m]) && StartsWith(s[m..], "://") {
      var m :| 0 < m <= |s| && IsSchemeToken(s[..m]) && StartsWith(s[m..], "://");
      SchemePrefixAt(s, m);
    }
  }

  lemma SchemePrefixFound(s: Bytes)
    requires HasSchemePrefix(s)
    ensures var n := SpanWhile(s, 0, IsSchemeByte);
      0 < n <= |s| && IsSchemeToken(s[..n]) && StartsWith(s[n..], "://")
  {
    var n := SpanWhile(s, 0, IsSchemeByte);
    assert s[n..][..3] == "://";
  }

  lemma SchemePrefixAt(s: Bytes, m: nat)
    requires 0 < m <= |s| && IsSchemeToken(s[..m]) && StartsWith(s[m..], "://")
    ensures HasSchemePrefix(s)
  {
    assert s[m..][..3] == "://";
    assert s[m] == s[m..][0] && s[m + 1] == s[m..][1] && s[m + 2] == s[m..][2];
    SpanWhileExact(s, 0, m, IsSchemeByte);
  }

  lemma HasSchemePrefixOf(scheme: Bytes, rest: Bytes)
    requires IsSchemeToken(scheme)
    ensures HasSchemePrefix(scheme + "://" + rest)
  {
    var s: Bytes := scheme + "://" + rest;
    var n := |scheme|;
    assert s[..n] == scheme;
    assert s[n..][..3] == "://";
    HasSchemePrefixIff(s);
  }

  /** The scheme scan stops exactly at the ':' after a scheme token. */
  lemma SchemeSpan(s: Bytes, scheme: Bytes)
    requires IsSchemeToken(scheme) && |scheme| < |s|
    requires s[..|scheme|] == scheme && s[|scheme|] == ':'
    ensures SpanWhile(s, 0, IsSchemeByte) == |scheme|
  {
    assert forall k | 0 <= k < |scheme| :: s[k] == scheme[k];
    SpanWhileExact(s, 0, |scheme|, IsSchemeByte);
  }

  lemma SpanPrefix(s: Bytes, a: Bytes, n: nat)
    requires n < |a| <= |s| && s[..|a|] == a
    requires SpanWhile(a, 0, IsSchemeByte) == n
    ensures SpanWhile(s, 0, IsSchemeByte) == n
  {
    assert forall k | 0 <= k <= n :: s[k] == a[k];
    SpanWhileExact(s, 0, n, IsSchemeByte);
  }

  /** The scheme group of a strict match is the scheme the string starts with. */
  lemma MatchedScheme(s: Bytes, scheme: Bytes, rest: Bytes, c: Captures)
    requires IsSchemeToken(scheme) && s == scheme + "://" + rest
    requires WellFormed(c) && (Assemble(c) == s || Assemble(c) + "\n" == s)
    ensures c.scheme == scheme
  {
    var a := Assemble(c);
    var n := |c.scheme|;
    var m := |scheme|;
    assert s[..|a|] == a;
    SchemeHead(a, c.scheme, c.host + PortSuffix(c.port) + c.path.GetOr([]));
    SchemeHead(s, scheme, rest);
    SchemeSpan(a, c.scheme);
    SchemeSpan(s, scheme);
    SpanPrefix(s, a, n);
    assert scheme == s[..m] == a[..n] == c.scheme;
  }

  lemma SchemeHead(s: Bytes, scheme: Bytes, rest: Bytes)
    requires s == scheme + "://" + rest
    ensures |scheme| < |s| && s[..|scheme|] == scheme && s[|scheme|] == ':'
  {
    assert s == scheme + ("://" + rest);
  }

  /** An assembled URL starts with its scheme and "://". */
  lemma AssembleHasSchemePrefix(c: Captures)
    requires WellFormed(c)
    ensures HasSchemePrefix(Assemble(c))
  {
    var rest := c.host + PortSuffix(c.port) + c.path.GetOr([]);
    assert Assemble(c) == c.scheme + "://" + rest;
    HasSchemePrefixOf(c.scheme, rest);
  }

  // ---------------------------------------------------------------- strict pattern

  /** `(\/.*)?$` from position `i`: `Some(None)` when nothing is left, `Some(Some(path))` for a
      path, `None` when the rest cannot be matched. */
  function MatchPath(s: Bytes, i: nat): (r: Option<Option<Bytes>>)
    requires i <= |s|
    ensures r.Some? ==> r.value.GetOr([]) == s[i..]
    ensures r.Some? && r.value.Some? ==> IsPathToken(r.value.value)
  {
    if i == |s| then Some(None)
    else if s[i] == '/' && '\n' !in s[i..] then Some(Some(s[i..]))
    else None
  }

  /** `(:\d+)?(\/.*)?$` from position `h`, the end of the host. */
  function MatchAfterHost(s: Bytes, scheme: Bytes, host: Bytes, h: nat): (r: Option<Captures>)
    requires h <= |s|
    ensures r.Some? ==> r.value.scheme == scheme && r.value.host == host
    ensures r.Some? && r.value.port.Some? ==> IsPortToken(r.value.port.value)
    ensures r.Some? && r.value.path.Some? ==> IsPathToken(r.value.path.value)
    ensures r.Some? ==> PortSuffix(r.value.port) + r.value.path.GetOr([]) == s[h..]
  {
    if h < |s| && s[h] == ':' then
      var p := SpanWhile(s, h + 1, IsDigitByte);
      if p == h + 1 then None
      else
        match MatchPath(s, p)
        case None => None
        case Some(path) =>
          assert s[h..] == [':'] + s[h + 1..p] + s[p..];
          Some(Captures(scheme, host, Some(s[h + 1..p]), path))
    else
      match MatchPath(s, h)
      case None => None
      case Some(path) => Some(Captures(scheme, host, None, path))
  }

  /** The bytes at `n` are "://". */
  predicate DelimiterAt(s: Bytes, n: nat) {
    n + 3 <= |s| && s[n] == ':' && s[n + 1] == '/' && s[n + 2] == '/'
  }

  /** The strict pattern anchored at both ends of `s` (no final-newline allowance). */
  function MatchWhole(s: Bytes): (r: Option<Captures>)
    ensures r.Some? ==> WellFormed(r.value) && Assemble(r.value) == s
  {
    var n := SpanWhile(s, 0, IsSchemeByte);
    if n == 0 || !IsAsciiLetter(s[0]) || !DelimiterAt(s, n) then None
    else
      var h := SpanWhile(s, n + 3, IsHostByte);
      if h == n + 3 then None
      else
        var r := MatchAfterHost(s, s[..n], s[n + 3..h], h);
        if r.None? then None
        else
          SchemeHostSplit(s, n, h, r.value);
          r
  }

  lemma SchemeHostSplit(s: Bytes, n: nat, h: nat, c: Captures)
    requires 0 < n && n + 3 < h <= |s| && IsAsciiLetter(s[0]) && DelimiterAt(s, n)
    requires forall k | 0 <= k < n :: IsSchemeByte(s[k])
    requires forall k | n + 3 <= k < h :: IsHostByte(s[k])
    requires c.scheme == s[..n] && c.host == s[n + 3..h]
    requires c.port.Some? ==> IsPortToken(c.port.value)
    requires c.path.Some? ==> IsPathToken(c.path.value)
    requires PortSuffix(c.port) + c.path.GetOr([]) == s[h..]
    ensures WellFormed(c) && Assemble(c) == s
  {
    assert s[n..n + 3] == "://";
    assert s == s[..n] + "://" + s[n + 3..h] + s[h..];
  }

  lemma MatchAfterHostComplete(s: Bytes, c: Captures, h: nat)
    requires WellFormed(c) && h <= |s|
    requires s[h..] == PortSuffix(c.port) + c.path.GetOr([])
    ensures MatchAfterHost(s, c.scheme, c.host, h) == Some(c)
  {
    var path := c.path.GetOr([]);
    match c.port
    case Some(p) =>
      var q := h + 1 + |p|;
      assert s[h..] == [':'] + p + path;
      assert s[h] == s[h..][0] == ':';
      assert s[h + 1..q] == s[h..][1..1 + |p|] == p;
      assert s[q..] == s[h..][1 + |p|..] == path;
      assert q < |s| ==> s[q] == path[0];
      SpanWhileExact(s, h + 1, q, IsDigitByte);
    case None =>
      assert s[h..] == path;
      assert h < |s| ==> s[h] == s[h..][0] == '/';
  }

  /** Every well-formed capture tuple is recovered from the string it assembles. */
  lemma MatchWholeComplete(c: Captures)
    requires WellFormed(c)
    ensures MatchWhole(Assemble(c)) == Some(c)
  {
    var s := Assemble(c);
    var n := |c.scheme|;
    var h := n + 3 + |c.host|;
    AssembledPieces(c);
    MatchAfterHostComplete(s, c, h);
    MatchWholeOf(s, n, h, c);
  }

  lemma MatchWholeOf(s: Bytes, n: nat, h: nat, c: Captures)
    requires 0 < n && n + 3 < h <= |s| && IsAsciiLetter(s[0]) && DelimiterAt(s, n)
    requires SpanWhile(s, 0, IsSchemeByte) == n && SpanWhile(s, n + 3, IsHostByte) == h
    requires s[..n] == c.scheme && s[n + 3..h] == c.host
    requires MatchAfterHost(s, c.scheme, c.host, h) == Some(c)
    ensures MatchWhole(s) == Some(c)
  {
  }

  /** Where scheme, delimiter, host and the rest sit in an assembled string. */
  lemma AssembledPieces(c: Captures)
    requires WellFormed(c)
    ensures var s := Assemble(c); var n := |c.scheme|; var h := n + 3 + |c.host|;
      && 0 < n && n + 3 < h <= |s| && s[..n] == c.scheme && IsAsciiLetter(s[0]) && DelimiterAt(s, n)
      && s[n + 3..h] == c.host
      && s[h..] == PortSuffix(c.port) + c.path.GetOr([])
      && SpanWhile(s, 0, IsSchemeByte) == n && SpanWhile(s, n + 3, IsHostByte) == h
  {
    var s := Assemble(c);
    var n := |c.scheme|;
    var h := n + 3 + |c.host|;
    var tail := PortSuffix(c.port) + c.path.GetOr([]);
    assert s == c.scheme + "://" + c.host + tail;
    assert s[..n] == c.scheme;
    assert DelimiterAt(s, n);
    assert s[n + 3..h] == c.host;
    assert s[h..] == tail;
    SpanWhileExact(s, 0, n, IsSchemeByte);
    assert h < |s| ==> s[h] == tail[0];
    SpanWhileExact(s, n + 3, h, IsHostByte);
  }

  /** Distinct well-formed captures assemble to distinct strings. */
  lemma AssembleInjective(c: Captures, d: Captures)
    requires WellFormed(c) && WellFormed(d) && Assemble(c) == Assemble(d)
    ensures c == d
  {
    MatchWholeComplete(c);
    MatchWholeComplete(d);
  }

  /** `preg_match` of the strict pattern: `$` also matches before a final "\n". */
  function StrictMatch(s: Bytes): (r: Option<Captures>)
    ensures r.Some? ==> WellFormed(r.value) && (Assemble(r.value) == s || Assemble(r.value) + "\n" == s)
  {
    if |s| > 0 && s[|s| - 1] == '\n' then
      DropNewline(s);
      MatchWhole(s[..|s| - 1])
    else MatchWhole(s)
  }

  lemma DropNewline(s: Bytes)
    requires |s| > 0 && s[|s| - 1] == '\n'
    ensures s[..|s| - 1] + "\n" == s
  {
  }

  /** An assembled URL never ends in "\n": its last byte belongs to a path, a port or a host. */
  lemma AssembleLastByte(c: Captures)
    requires WellFormed(c)
    ensures Assemble(c)[|Assemble(c)| - 1] != '\n'
  {
    var s := Assemble(c);
    var last := s[|s| - 1];
    match c.path
    case Some(p) =>
      assert last == p[|p| - 1];
    case None =>
      match c.port
      case Some(d) =>
        assert last == d[|d| - 1];
      case None =>
        assert last == c.host[|c.host| - 1];
  }

  /** The strict pattern matches `s` with groups `c` exactly when `c` is well formed and `s` is
      the string `c` assembles, possibly followed by one "\n". */
  lemma StrictMatchIff(s: Bytes, c: Captures)
    ensures StrictMatch(s) == Some(c) <==> WellFormed(c) && (s == Assemble(c) || s == Assemble(c) + "\n")
  {
    if WellFormed(c) && (s == Assemble(c) || s == Assemble(c) + "\n") {
      MatchWholeComplete(c);
      AssembleLastByte(c);
      if s == Assemble(c) + "\n" {
        assert s[..|s| - 1] == Assemble(c);
      }
    }
    if StrictMatch(s) == Some(c) && Assemble(c) + "\n" == s {
      assert s[..|s| - 1] == Assemble(c);
    }
  }
}

=== FILE: url_sanitizer.dfy ===
/**
 * `sanitizeUrl`, `sanitizePath` and `needsSanitization` of the URL validator service:
 * trim, prepend "https://" when no scheme prefix is present, and, when the strict
 * pattern matches, lowercase scheme and host and percent-encode the path; otherwise
 * percent-encode the whole string.
 */
module UrlSanitizer {
  import opened Wrappers
  import opened Bytes
  import opened PercentEncoding
  import opened UrlPattern

  /** `array_map` of the encoder over path segments. */
  function EncodeEach(segments: seq<Bytes>): (r: seq<Bytes>)
    ensures |r| == |segments|
    ensures forall i | 0 <= i < |r| :: r[i] == Encode(segments[i])
  {
    if segments == [] then [] else [Encode(segments[0])] + EncodeEach(segments[1..])
  }

  /** `sanitizePath`: explode on '/', encode each segment, implode with '/'. */
  function SanitizePath(path: Bytes): Bytes
  {
    Join(EncodeEach(Split(path, '/')), "/")
  }

  lemma {:induction false} JoinEncodeEach(parts: seq<Bytes>)
    ensures Join(EncodeEach(parts), "/") == Encode(Join(parts, "/"))
    decreases |parts|
  {
    if |parts| >= 2 {
      var tail := Join(parts[1..], "/");
      var enc := EncodeEach(parts);
      assert enc[1..] == EncodeEach(parts[1..]);
      JoinEncodeEach(parts[1..]);
      assert Join(enc, "/") == Encode(parts[0]) + "/" + Encode(tail);
      EncodeSlashJoin(parts[0], tail);
    }
  }

  lemma EncodeSlashJoin(a: Bytes, b: Bytes)
    ensures Encode(a + "/" + b) == Encode(a) + "/" + Encode(b)
  {
    EncodeKeptBetween(a, '/', b);
  }

  lemma EncodeKeptBetween(a: Bytes, c: Byte, b: Bytes)
    requires IsKept(c)
    ensures Encode(a + [c] + b) == Encode(a) + [c] + Encode(b)
  {
    EncodeAppend(a, [c] + b);
    EncodeCons(c, b);
    assert a + [c] + b == a + ([c] + b);
  }

  /** Splitting on '/' first changes nothing, because the encoder keeps '/'. */
  lemma SanitizePathIsEncode(path: Bytes)
    ensures SanitizePath(path) == Encode(path)
  {
    JoinEncodeEach(Split(path, '/'));
  }

  /** The string the strict pattern is tried on: the trimmed input, with "https://" in front
      when it lacks a scheme prefix. */
  function Prefixed(url: Bytes): (u: Bytes)
    ensures HasSchemePrefix(u)
    ensures HasSchemePrefix(Trim(url)) ==> u == Trim(url)
    ensures !HasSchemePrefix(Trim(url)) ==> u == "https://" + Trim(url)
  {
    var t := Trim(url);
    if HasSchemePrefix(t) then t else WithHttps(t)
  }

  /** The default scheme put in front of a string without one. */
  function WithHttps(t: Bytes): (u: Bytes)
    ensures u == "https://" + t
    ensures HasSchemePrefix(u)
  {
    var u := "https" + "://" + t;
    HasSchemePrefixOf("https", t);
    assert u == "https://" + t;
    u
  }

  /** The matched branch: scheme and host lowercased, port copied, path encoded. */
  function SanitizedParts(c: Captures): Captures
  {
    Captures(Lower(c.scheme), Lower(c.host), c.port,
             match c.path case None => None case Some(p) => Some(SanitizePath(p)))
  }

  /** `sanitizeUrl`. */
  function SanitizeUrl(url: Bytes): (r: Bytes)
    ensures PhpEmpty(url) ==> r == []
  {
    if PhpEmpty(url) then []
    else
      var u := Prefixed(url);
      match StrictMatch(u)
      case None => Encode(u)
      case Some(c) => Assemble(SanitizedParts(c))
  }

  /** When the prefixed input matches the strict pattern, the output is its captures with
      scheme and host lower-cased and the path encoded. */
  lemma SanitizeViaMatch(url: Bytes, c: Captures)
    requires !PhpEmpty(url) && StrictMatch(Prefixed(url)) == Some(c)
    ensures SanitizeUrl(url) == Assemble(SanitizedParts(c))
  {
  }

  /** A trimmed input without a scheme prefix is matched with "https://" in front. */
  lemma SanitizeWithoutScheme(url: Bytes, c: Captures)
    requires !PhpEmpty(url) && Trim(url) == url && !HasSchemePrefix(url)
    requires StrictMatch("https://" + url) == Some(c)
    ensures SanitizeUrl(url) == Assemble(SanitizedParts(c))
  {
    SanitizeViaMatch(url, c);
  }

  /** `needsSanitization`. */
  predicate NeedsSanitization(url: Bytes) {
    url != SanitizeUrl(url)
  }

  // ---------------------------------------------------------------- properties

  lemma LowerKeepsSchemeToken(s: Bytes)
    requires IsSchemeToken(s)
    ensures IsSchemeToken(Lower(s))
  {
  }

  lemma LowerKeepsHostToken(s: Bytes)
    requires IsHostToken(s)
    ensures IsHostToken(Lower(s))
  {
  }

  lemma {:induction false} EncodeStartsWithSlash(p: Bytes)
    requires |p| >= 1 && p[0] == '/'
    ensures |Encode(p)| >= 1 && Encode(p)[0] == '/'
  {
    assert Encode(p) == EncodeByte('/') + Encode(p[1..]);
  }

  /** The bytes of an encoder output, which no PCRE whitespace or trim byte can be. */
  lemma EncodedByte(s: Bytes, i: nat)
    requires i < |Encode(s)|
    ensures !IsUnsafe(Encode(s)[i]) && !IsPcreSpace(Encode(s)[i]) && !IsTrimByte(Encode(s)[i])
  {
    EncodeAvoidsUnsafe(s);
  }

  /** The matched branch produces well-formed captures again, with an unsafe-free path. */
  lemma SanitizedPartsWellFormed(c: Captures)
    requires WellFormed(c)
    ensures WellFormed(SanitizedParts(c))
    ensures SanitizedParts(c).path.Some? ==>
      forall i | 0 <= i < |SanitizedParts(c).path.value| :: !IsUnsafe(SanitizedParts(c).path.value[i])
  {
    LowerKeepsSchemeToken(c.scheme);
    LowerKeepsHostToken(c.host);
    if c.path.Some? {
      var p := c.path.value;
      SanitizePathIsEncode(p);
      EncodeStartsWithSlash(p);
      EncodeAvoidsUnsafe(p);
      assert '\n' !in Encode(p) by {
        forall i | 0 <= i < |Encode(p)| ensures Encode(p)[i] != '\n' {
          EncodedByte(p, i);
        }
      }
    }
  }

  /** An empty result comes exactly from a PHP-empty input. */
  lemma SanitizeEmptyIff(url: Bytes)
    ensures SanitizeUrl(url) == [] <==> PhpEmpty(url)
  {
    if !PhpEmpty(url) {
      var u := Prefixed(url);
      match StrictMatch(u)
      case None =>
        assert |Encode(u)| >= |u| > 0;
      case Some(c) =>
        assert |Assemble(SanitizedParts(c))| >= 3;
    }
  }

  /** Every encoder output of a string with a scheme prefix keeps that prefix. */
  lemma EncodeKeepsSchemePrefix(u: Bytes)
    requires HasSchemePrefix(u)
    ensures HasSchemePrefix(Encode(u))
  {
    var n := SpanWhile(u, 0, IsSchemeByte);
    var head := u[..n + 3];
    assert u == head + u[n + 3..];
    assert forall i | 0 <= i < |head| :: IsKept(head[i]) by {
      forall i | 0 <= i < |head| ensures IsKept(head[i]) {
        if i < n { assert IsSchemeByte(u[i]); }
      }
    }
    EncodeKeptPrefix(head, u[n + 3..]);
    var e := Encode(u);
    assert e[..n + 3] == head;
    SpanWhileExact(e, 0, n, IsSchemeByte);
  }

  /** A non-empty result always starts with a scheme and "://". */
  lemma SanitizeHasSchemePrefix(url: Bytes)
    requires !PhpEmpty(url)
    ensures HasSchemePrefix(SanitizeUrl(url))
  {
    var u := Prefixed(url);
    match StrictMatch(u)
    case None =>
      EncodeKeepsSchemePrefix(u);
    case Some(c) =>
      SanitizedPartsWellFormed(c);
      AssembleHasSchemePrefix(SanitizedParts(c));
  }

  /** When the trimmed input has no scheme prefix, the result starts with "https://". */
  lemma SanitizeDefaultsToHttps(url: Bytes)
    requires !PhpEmpty(url) && !HasSchemePrefix(Trim(url))
    ensures StartsWith(SanitizeUrl(url), "https://")
  {
    var t := Trim(url);
    var u := Prefixed(url);
    assert u == "https://" + t;
    match StrictMatch(u)
    case None =>
      EncodeKeepsHttps(t);
    case Some(c) =>
      HttpsScheme(t, c);
      HttpsSchemeKept(c);
  }

  lemma EncodeKeepsHttps(t: Bytes)
    ensures StartsWith(Encode("https://" + t), "https://")
  {
    assert forall i | 0 <= i < |"https://"| :: IsKept("https://"[i]);
    EncodeKeptPrefix("https://", t);
  }

  lemma HttpsScheme(t: Bytes, c: Captures)
    requires WellFormed(c) && (Assemble(c) == "https://" + t || Assemble(c) + "\n" == "https://" + t)
    ensures c.scheme == "https"
  {
    assert "https://" + t == "https" + "://" + t;
    MatchedScheme("https://" + t, "https", t, c);
  }

  lemma HttpsSchemeKept(c: Captures)
    requires c.scheme == "https"
    ensures StartsWith(Assemble(SanitizedParts(c)), "https://")
  {
    var d := SanitizedParts(c);
    LowerNoop("https");
    assert d.scheme == "https";
    AssembleStartsWithScheme(d);
  }

  lemma AssembleStartsWithScheme(d: Captures)
    ensures StartsWith(Assemble(d), d.scheme + "://")
  {
    var rest: Bytes := d.host + PortSuffix(d.port) + d.path.GetOr([]);
    assert Assemble(d) == d.scheme + "://" + rest;
  }

  // ---------------------------------------------------------------- re-sanitizing

  /** The string the pattern is tried on ends in a byte `trim` would not strip. */
  lemma PrefixedEnds(url: Bytes)
    ensures |Prefixed(url)| > 0
    ensures IsAsciiLetter(Prefixed(url)[0])
    ensures !IsTrimByte(Prefixed(url)[|Prefixed(url)| - 1])
  {
    TrimEnds(url);
    PrefixedEndsOf(Trim(url), Prefixed(url));
  }

  lemma PrefixedEndsOf(t: Bytes, u: Bytes)
    requires t != [] ==> !IsTrimByte(t[|t| - 1])
    requires HasSchemePrefix(t) ==> u == t
    requires !HasSchemePrefix(t) ==> u == "https://" + t
    ensures |u| > 0 && IsAsciiLetter(u[0]) && !IsTrimByte(u[|u| - 1])
  {
    if HasSchemePrefix(t) {
      SchemePrefixEnds(t);
    } else {
      HttpsEnds(t);
    }
  }

  lemma SchemePrefixEnds(t: Bytes)
    requires HasSchemePrefix(t) && (t != [] ==> !IsTrimByte(t[|t| - 1]))
    ensures |t| > 0 && IsAsciiLetter(t[0]) && !IsTrimByte(t[|t| - 1])
  {
  }

  lemma HttpsEnds(t: Bytes)
    requires t != [] ==> !IsTrimByte(t[|t| - 1])
    ensures var u := "https://" + t; |u| > 0 && IsAsciiLetter(u[0]) && !IsTrimByte(u[|u| - 1])
  {
    var u := "https://" + t;
    if t == [] {
      assert u[|u| - 1] == '/';
    } else {
      assert u[|u| - 1] == t[|t| - 1];
    }
  }

  /** A string with a scheme prefix that `trim` leaves alone is its own `Prefixed`. */
  lemma PrefixedNoop(u: Bytes)
    requires HasSchemePrefix(u) && !IsTrimByte(u[|u| - 1])
    ensures Prefixed(u) == u && !PhpEmpty(u)
  {
    TrimNoop(u);
  }

  /** Lowercasing keeps a byte out of the trim set. */
  lemma LowerByteNotTrim(c: Byte)
    requires !IsTrimByte(c)
    ensures !IsTrimByte(LowerByte(c)) && (IsAsciiLetter(c) ==> IsAsciiLetter(LowerByte(c)))
  {
  }

  /** The last byte of a sanitized match is not a trim byte when the matched string's isn't. */
  lemma SanitizedLastByte(c: Captures)
    requires WellFormed(c) && !IsTrimByte(Assemble(c)[|Assemble(c)| - 1])
    ensures var r := Assemble(SanitizedParts(c)); |r| > 0 && !IsTrimByte(r[|r| - 1]) && IsAsciiLetter(r[0])
  {
    var d := SanitizedParts(c);
    SanitizedPartsWellFormed(c);
    AssembleEnds(c);
    AssembleEnds(d);
    LowerByteNotTrim(c.scheme[0]);
    LastCapturedSanitized(c, d);
  }

  lemma LastCapturedSanitized(c: Captures, d: Captures)
    requires WellFormed(c) && WellFormed(d) && d == SanitizedParts(c) && !IsTrimByte(LastCaptured(c))
    ensures !IsTrimByte(LastCaptured(d))
  {
    match c.path
    case Some(p) =>
      SanitizePathIsEncode(p);
      EncodedByte(p, |Encode(p)| - 1);
    case None =>
      if c.port.None? {
        LowerByteNotTrim(c.host[|c.host| - 1]);
      }
  }

  /** The matched branch applied twice is the matched branch applied once, unless the first
      application produced a '%' in the path. */
  lemma SanitizedPartsIdempotent(c: Captures)
    requires c.path.Some? ==> '%' !in SanitizePath(c.path.value)
    ensures SanitizedParts(SanitizedParts(c)) == SanitizedParts(c)
  {
    LowerIdempotent(c.scheme);
    LowerIdempotent(c.host);
    if c.path.Some? {
      var p := c.path.value;
      SanitizePathIsEncode(p);
      SanitizePathIsEncode(Encode(p));
      EncodeFixedIff(Encode(p));
    }
  }

  /** Sanitizing a well-formed assembled URL takes the matched branch. */
  lemma SanitizeOfMatched(d: Captures)
    requires WellFormed(d) && IsAsciiLetter(Assemble(d)[0]) && !IsTrimByte(Assemble(d)[|Assemble(d)| - 1])
    ensures SanitizeUrl(Assemble(d)) == Assemble(SanitizedParts(d))
  {
    var r := Assemble(d);
    AssembleHasSchemePrefix(d);
    PrefixedNoop(r);
    StrictMatchIff(r, d);
  }

  /** `sanitizeUrl` changes nothing on an output of its own that holds no '%'. */
  lemma SanitizeFixpoint(url: Bytes)
    requires '%' !in SanitizeUrl(url)
    ensures SanitizeUrl(SanitizeUrl(url)) == SanitizeUrl(url)
  {
    if !PhpEmpty(url) {
      var u := Prefixed(url);
      PrefixedEnds(url);
      match StrictMatch(u)
      case None =>
        EncodeWithoutPercentIsIdentity(u);
        PrefixedNoop(u);
      case Some(c) =>
        NoFinalNewline(u, c);
        MatchedFixpoint(c);
    }
  }

  lemma NoFinalNewline(u: Bytes, c: Captures)
    requires |u| > 0 && !IsTrimByte(u[|u| - 1])
    requires Assemble(c) == u || Assemble(c) + "\n" == u
    ensures Assemble(c) == u
  {
  }

  lemma MatchedFixpoint(c: Captures)
    requires WellFormed(c) && !IsTrimByte(Assemble(c)[|Assemble(c)| - 1])
    requires '%' !in Assemble(SanitizedParts(c))
    ensures SanitizeUrl(Assemble(SanitizedParts(c))) == Assemble(SanitizedParts(c))
  {
    var d := SanitizedParts(c);
    var r := Assemble(d);
    SanitizedPartsWellFormed(c);
    SanitizedLastByte(c);
    if c.path.Some? {
      assert r == (d.scheme + "://" + d.host + PortSuffix(d.port)) + d.path.value;
    }
    SanitizedPartsIdempotent(c);
    SanitizeOfMatched(d);
  }

  /** A sanitized URL never ends in a byte `trim` strips. */
  lemma SanitizeLastByte(url: Bytes)
    requires !PhpEmpty(url)
    ensures |SanitizeUrl(url)| > 0 && !IsTrimByte(SanitizeUrl(url)[|SanitizeUrl(url)| - 1])
  {
    match StrictMatch(Prefixed(url))
    case None => SanitizeLastByteEncoded(url);
    case Some(c) => SanitizeLastByteMatched(url, c);
  }

  lemma SanitizeLastByteEncoded(url: Bytes)
    requires !PhpEmpty(url) && StrictMatch(Prefixed(url)).None?
    ensures |SanitizeUrl(url)| > 0 && !IsTrimByte(SanitizeUrl(url)[|SanitizeUrl(url)| - 1])
  {
    var u := Prefixed(url);
    PrefixedEnds(url);
    assert SanitizeUrl(url) == Encode(u);
    EncodedLastByte(u);
  }

  lemma SanitizeLastByteMatched(url: Bytes, c: Captures)
    requires !PhpEmpty(url) && StrictMatch(Prefixed(url)) == Some(c)
    ensures |SanitizeUrl(url)| > 0 && !IsTrimByte(SanitizeUrl(url)[|SanitizeUrl(url)| - 1])
  {
    var u := Prefixed(url);
    PrefixedEnds(url);
    SanitizeViaMatch(url, c);
    NoFinalNewline(u, c);
    SanitizedLastByte(c);
  }

  lemma EncodedLastByte(u: Bytes)
    requires |u| > 0
    ensures |Encode(u)| > 0 && !IsTrimByte(Encode(u)[|Encode(u)| - 1])
  {
    EncodedByte(u, |Encode(u)| - 1);
  }

  /** Whatever the strict pattern captures as the path of a sanitized URL holds no byte of
      UNSAFE_CHARACTERS: either the path was encoded, or the whole string was. */
  lemma SanitizedPathSafe(url: Bytes, c: Captures)
    requires !PhpEmpty(url) && WellFormed(c) && Assemble(c) == SanitizeUrl(url)
    requires c.path.Some?
    ensures forall i | 0 <= i < |c.path.value| :: !IsUnsafe(c.path.value[i])
  {
    var u := Prefixed(url);
    var m := StrictMatch(u);
    if m.None? {
      SanitizeViaEncode(url);
    } else {
      SanitizeViaMatch(url, m.value);
    }
    PathSafeOf(c, u, m, SanitizeUrl(url));
  }

  lemma PathSafeOf(c: Captures, u: Bytes, m: Option<Captures>, r: Bytes)
    requires WellFormed(c) && Assemble(c) == r && c.path.Some?
    requires m.None? ==> r == Encode(u)
    requires m.Some? ==> WellFormed(m.value) && r == Assemble(SanitizedParts(m.value))
    ensures forall i | 0 <= i < |c.path.value| :: !IsUnsafe(c.path.value[i])
  {
    var head: Bytes := c.scheme + "://" + c.host + PortSuffix(c.port);
    assert r == head + c.path.value;
    if m.None? {
      EncodedTailSafe(u, head, c.path.value);
    } else {
      SanitizedPartsWellFormed(m.value);
      AssembleInjective(c, SanitizedParts(m.value));
    }
  }

  /** When the prefixed input does not match the strict pattern, the output is its encoding. */
  lemma SanitizeViaEncode(url: Bytes)
    requires !PhpEmpty(url) && StrictMatch(Prefixed(url)).None?
    ensures SanitizeUrl(url) == Encode(Prefixed(url))
  {
  }

  lemma EncodedTailSafe(u: Bytes, head: Bytes, p: Bytes)
    requires head + p == Encode(u)
    ensures forall i | 0 <= i < |p| :: !IsUnsafe(p[i])
  {
    forall i | 0 <= i < |p| ensures !IsUnsafe(p[i]) {
      assert p[i] == Encode(u)[|head| + i];
      EncodedByte(u, |head| + i);
    }
  }

  /** Encoding is not idempotent: an output that holds an escape is escaped again. */
  lemma EncodeTwiceGrows(p: Bytes, i: nat)
    requires i < |p| && !IsKept(p[i])
    ensures |Encode(Encode(p))| > |Encode(p)|
  {
    var e := Encode(p);
    EncodeFixedIff(p);
    if '%' !in e {
      EncodeWithoutPercentIsIdentity(p);
      assert false;
    }
    var j :| 0 <= j < |e| && e[j] == '%';
    EncodeGrows(e, j);
  }

  /** Sanitizing twice escapes the '%' of every escape made the first time: a URL whose path
      holds a byte that must be escaped (a space, say, which becomes "%20") comes out longer
      from the second pass ("%2520"). */
  lemma SanitizeTwiceDoubleEncodes(c: Captures, i: nat)
    requires WellFormed(c) && !IsTrimByte(Assemble(c)[|Assemble(c)| - 1])
    requires c.path.Some? && i < |c.path.value| && !IsKept(c.path.value[i])
    ensures |SanitizeUrl(SanitizeUrl(Assemble(c)))| > |SanitizeUrl(Assemble(c))|
  {
    var d := SanitizedParts(c);
    var p := c.path.value;
    SanitizeOfMatched(c);
    SanitizedPartsWellFormed(c);
    SanitizedLastByte(c);
    SanitizeOfMatched(d);
    SanitizePathIsEncode(p);
    SanitizePathIsEncode(Encode(p));
    EncodeTwiceGrows(p, i);
  }

  /** Hence such a result no longer needs sanitizing. */
  lemma SanitizedNeedsNoSanitization(url: Bytes)
    requires '%' !in SanitizeUrl(url)
    ensures !NeedsSanitization(SanitizeUrl(url))
  {
    SanitizeFixpoint(url);
  }
}

=== FILE: url_store.dfy ===
/**
 * `UrlController` as transitions over an abstract state: the `urls` table as a sequence of
 * records in id order, and the redirect cache as a map from key to the record stored
 * under it. Each action is one atomic step.
 */
module UrlStore {
  import opened Wrappers
  import opened Bytes
  import opened UrlPattern
  import opened UrlSanitizer
  import opened UrlNormalizer
  import opened ShortCode
  import opened RequestAuthorization

  /** A row of the `urls` table (`expires_at` and the timestamps are not modelled). */
  datatype UrlRecord = UrlRecord(id: nat, originalUrl: Bytes, shortCode: string, deviceId: Bytes, clicks: nat)

  datatype State = State(records: seq<UrlRecord>, cache: map<string, UrlRecord>, nextId: nat)

  /** The table is empty, the cache too, and auto-increment ids start at 1. */
  const Initial: State := State([], map[], 1)

  /** The key `show` caches a record under. */
  function CacheKey(code: string): (key: string)
    ensures |key| == |code| + 4 && key[4..] == code
  {
    "url_" + code
  }

  lemma CacheKeyInjective(a: string, b: string)
    ensures CacheKey(a) == CacheKey(b) <==> a == b
  {
    assert a == CacheKey(a)[4..] && b == CacheKey(b)[4..];
  }

  // ---------------------------------------------------------------- lookups

  /** `Url::find($id)`: the position of the record with that id. */
  function FindId(rs: seq<UrlRecord>, id: nat): (r: Option<nat>)
    ensures r.None? <==> forall i | 0 <= i < |rs| :: rs[i].id != id
    ensures r.Some? ==> r.value < |rs| && rs[r.value].id == id
  {
    if rs == [] then None
    else if rs[0].id == id then Some(0)
    else match FindId(rs[1..], id)
      case None => None
      case Some(k) => Some(k + 1)
  }

  /** `Url::where('short_code', $code)->first()`: the position of the first record with that code. */
  function FindCode(rs: seq<UrlRecord>, code: string): (r: Option<nat>)
    ensures r.None? <==> forall i | 0 <= i < |rs| :: rs[i].shortCode != code
    ensures r.Some? ==> r.value < |rs| && rs[r.value].shortCode == code
  {
    if rs == [] then None
    else if rs[0].shortCode == code then Some(0)
    else match FindCode(rs[1..], code)
      case None => None
      case Some(k) => Some(k + 1)
  }

  /** The short codes in use, which `generateShortCode` checks candidates against. */
  function Codes(st: State): (codes: set<string>)
    ensures forall i | 0 <= i < |st.records| :: st.records[i].shortCode in codes
    ensures forall c | c in codes :: FindCode(st.records, c).Some?
  {
    set i | 0 <= i < |st.records| :: st.records[i].shortCode
  }

  // ---------------------------------------------------------------- invariant

  /** A cached record is a (possibly stale) copy of a stored one: same id, code and owner. */
  predicate Backed(rs: seq<UrlRecord>, c: UrlRecord) {
    match FindId(rs, c.id)
    case None => false
    case Some(i) => rs[i].shortCode == c.shortCode && rs[i].deviceId == c.deviceId
  }

  predicate Inv(st: State) {
    && (forall i, j | 0 <= i < j < |st.records| :: st.records[i].id < st.records[j].id)
    && (forall i | 0 <= i < |st.records| :: st.records[i].id < st.nextId)
    && (forall i, j | 0 <= i < j < |st.records| :: st.records[i].shortCode != st.records[j].shortCode)
    && (forall key | key in st.cache :: key == CacheKey(st.cache[key].shortCode) && Backed(st.records, st.cache[key]))
  }

  lemma InitialInv()
    ensures Inv(Initial)
  {
  }

  /** Ids are unique under the invariant, so `FindId` finds the one record with that id. */
  lemma FindIdUnique(st: State, i: nat)
    requires Inv(st) && i < |st.records|
    ensures FindId(st.records, st.records[i].id) == Some(i)
  {
  }

  lemma FindCodeUnique(st: State, i: nat)
    requires Inv(st) && i < |st.records|
    ensures FindCode(st.records, st.records[i].shortCode) == Some(i)
  {
  }

  // ---------------------------------------------------------------- index

  /** `$request->filled('search')`: present and not blank after `trim`. */
  predicate Filled(search: Option<Bytes>) {
    search.Some? && Trim(search.value) != []
  }

  /** The rows `index` selects for the device: its own, and with a search term only those
      whose URL contains it. */
  predicate Selected(r: UrlRecord, device: Bytes, search: Option<Bytes>) {
    r.deviceId == device && (Filled(search) ==> Contains(r.originalUrl, search.value))
  }

  function Filter(rs: seq<UrlRecord>, device: Bytes, search: Option<Bytes>): (out: seq<UrlRecord>)
    ensures |out| <= |rs|
  {
    if rs == [] then []
    else (if Selected(rs[0], device, search) then [rs[0]] else []) + Filter(rs[1..], device, search)
  }

  /** `index`: the caller's records, optionally narrowed by the search term. */
  function Index(st: State, device: Bytes, search: Option<Bytes>): (out: seq<UrlRecord>)
    ensures |out| <= |st.records|
  {
    Filter(st.records, device, search)
  }

  lemma {:induction false} FilterIff(rs: seq<UrlRecord>, device: Bytes, search: Option<Bytes>, r: UrlRecord)
    ensures r in Filter(rs, device, search) <==> r in rs && Selected(r, device, search)
  {
    if rs != [] {
      FilterIff(rs[1..], device, search, r);
      assert rs == [rs[0]] + rs[1..];
    }
  }

  /** A record is listed exactly when it is stored, belongs to the device and matches the search. */
  lemma IndexIff(st: State, device: Bytes, search: Option<Bytes>, r: UrlRecord)
    ensures r in Index(st, device, search) <==> r in st.records && Selected(r, device, search)
  {
    FilterIff(st.records, device, search, r);
  }

  // ---------------------------------------------------------------- store

  /** The JSON `store` answers with (besides the short URL built from the code). */
  datatype Created = Created(record: UrlRecord, sanitized: bool, normalized: bool)

  /** `store` with the code `generateShortCode` returned. The URL is sanitized and then
      normalized (which sanitizes once more); the `validateUrl` call only feeds a log line. */
  function Store(st: State, raw: Bytes, device: Bytes, code: string): (r: (State, Created))
    ensures r.0.cache == st.cache && r.0.nextId == st.nextId + 1
    ensures r.0.records == st.records + [r.1.record]
  {
    var sanitized := SanitizeUrl(raw);
    var normalized := NormalizeUrl(sanitized);
    var rec := UrlRecord(st.nextId, normalized, code, device, 0);
    (State(st.records + [rec], st.cache, st.nextId + 1), Created(rec, sanitized != raw, normalized != sanitized))
  }

  /** The stored record: a fresh id, the caller's device, no clicks, and the URL as repaired
      by both passes; the flags say which pass changed something. The stored URL is the one
      `processUrl` reports as normalized; it always has a scheme prefix when the input is not
      PHP-empty, and when sanitizing leaves no '%' the double sanitization in `store` is
      harmless: the URL is the input's own normalization. */
  lemma StoreRecord(st: State, raw: Bytes, device: Bytes, code: string)
    ensures var (st', c) := Store(st, raw, device, code);
      && c.record == UrlRecord(st.nextId, NormalizeUrl(SanitizeUrl(raw)), code, device, 0)
      && (c.sanitized <==> NeedsSanitization(raw))
      && (c.normalized <==> NormalizeUrl(SanitizeUrl(raw)) != SanitizeUrl(raw))
      && c.record.originalUrl == ProcessUrl(raw).normalized
      && c.sanitized == ProcessUrl(raw).needsSanitization
      && (!PhpEmpty(raw) ==> HasSchemePrefix(c.record.originalUrl))
      && ('%' !in SanitizeUrl(raw) ==> c.record.originalUrl == NormalizeUrl(raw))
  {
    ProcessUrlReport(raw);
  }

  /** A record appended with an id no other record has is found at the end. */
  lemma {:induction false} FindIdAppend(rs: seq<UrlRecord>, rec: UrlRecord)
    requires forall j | 0 <= j < |rs| :: rs[j].id != rec.id
    ensures FindId(rs + [rec], rec.id) == Some(|rs|)
  {
    if rs != [] {
      assert (rs + [rec])[1..] == rs[1..] + [rec];
      FindIdAppend(rs[1..], rec);
    }
  }

  lemma StorePreservesInv(st: State, raw: Bytes, device: Bytes, code: string)
    requires Inv(st) && code !in Codes(st)
    ensures Inv(Store(st, raw, device, code).0)
  {
    var (st', created) := Store(st, raw, device, code);
    AppendPreservesInv(st, created.record);
  }

  /** Appending a row with the next id and an unused code keeps the invariant. */
  lemma AppendPreservesInv(st: State, rec: UrlRecord)
    requires Inv(st) && rec.id == st.nextId && rec.shortCode !in Codes(st)
    ensures Inv(State(st.records + [rec], st.cache, st.nextId + 1))
  {
    AppendIds(st, rec);
    AppendCodes(st, rec);
    AppendCache(st, rec);
  }

  lemma AppendIds(st: State, rec: UrlRecord)
    requires Inv(st) && rec.id == st.nextId
    ensures var rs' := st.records + [rec];
      && (forall i, j | 0 <= i < j < |rs'| :: rs'[i].id < rs'[j].id)
      && (forall i | 0 <= i < |rs'| :: rs'[i].id < st.nextId + 1)
  {
    var rs := st.records;
    var rs' := rs + [rec];
    forall i, j | 0 <= i < j < |rs'| ensures rs'[i].id < rs'[j].id {
      assert rs'[i] == rs[i];
      if j < |rs| { assert rs'[j] == rs[j]; }
    }
    forall i | 0 <= i < |rs'| ensures rs'[i].id < st.nextId + 1 {
      if i < |rs| { assert rs'[i] == rs[i]; }
    }
  }

  lemma AppendCodes(st: State, rec: UrlRecord)
    requires Inv(st) && rec.shortCode !in Codes(st)
    ensures var rs' := st.records + [rec];
      forall i, j | 0 <= i < j < |rs'| :: rs'[i].shortCode != rs'[j].shortCode
  {
    var rs := st.records;
    var rs' := rs + [rec];
    forall i, j | 0 <= i < j < |rs'| ensures rs'[i].shortCode != rs'[j].shortCode {
      assert rs'[i] == rs[i];
      if j < |rs| { assert rs'[j] == rs[j]; }
      else { assert rs[i].shortCode in Codes(st); }
    }
  }

  lemma AppendCache(st: State, rec: UrlRecord)
    requires Inv(st)
    ensures forall key | key in st.cache :: Backed(st.records + [rec], st.cache[key])
  {
    var rs := st.records;
    var rs' := rs + [rec];
    assert rs'[..|rs|] == rs;
    forall key | key in st.cache ensures Backed(rs', st.cache[key]) {
      var c := st.cache[key];
      var i := FindId(rs, c.id).value;
      FindIdPrefix(rs, rs', c.id, i);
    }
  }

  /** Appending keeps the position `FindId` reports for an id already present. */
  lemma FindIdPrefix(rs: seq<UrlRecord>, rs': seq<UrlRecord>, id: nat, i: nat)
    requires |rs| <= |rs'| && rs'[..|rs|] == rs
    requires FindId(rs, id) == Some(i)
    ensures FindId(rs', id) == Some(i)
  {
    if rs'[0].id != id {
      assert rs'[1..][..|rs| - 1] == rs[1..];
      FindIdPrefix(rs[1..], rs'[1..], id, i - 1);
    }
  }

  /** `store` draws a code and then creates the record; `None` when the bounded retry loop
      found no free code. */
  method StoreUrl(st: State, raw: Bytes, device: Bytes, fuel: nat) returns (r: Option<(State, Created)>)
    requires Inv(st)
    ensures r.Some? ==> Inv(r.value.0) && IsShortCode(r.value.1.record.shortCode)
    ensures r.Some? ==> r.value.1.record.shortCode !in Codes(st)
    ensures r.Some? ==> r.value.1.record.originalUrl == NormalizeUrl(SanitizeUrl(raw))
    ensures r.Some? ==> r.value.0.records == st.records + [r.value.1.record]
  {
    var code, attempts := GenerateShortCode(Codes(st), fuel);
    if code.None? {
      return None;
    }
    StorePreservesInv(st, raw, device, code.value);
    r := Some(Store(st, raw, device, code.value));
  }

  // ---------------------------------------------------------------- show

  datatype Shown = Redirect(target: Bytes) | NotFound

  /** `$url->increment('clicks')`: one more click on the row with that id, in the table. */
  function Increment(rs: seq<UrlRecord>, id: nat): (r: seq<UrlRecord>)
    ensures |r| == |rs|
    ensures forall i | 0 <= i < |rs| :: r[i] == (if rs[i].id == id then rs[i].(clicks := rs[i].clicks + 1) else rs[i])
  {
    if rs == [] then []
    else [if rs[0].id == id then rs[0].(clicks := rs[0].clicks + 1) else rs[0]] + Increment(rs[1..], id)
  }

  /** The record `Cache::remember` yields: the cached copy, or else the stored row. */
  function Lookup(st: State, code: string): (found: Option<UrlRecord>)
    ensures CacheKey(code) in st.cache ==> found == Some(st.cache[CacheKey(code)])
  {
    if CacheKey(code) in st.cache then Some(st.cache[CacheKey(code)])
    else match FindCode(st.records, code)
      case None => None
      case Some(i) => Some(st.records[i])
  }

  /** Under the invariant the lookup finds the record with the code, or a copy of it. */
  lemma LookupFound(st: State, code: string, i: nat)
    requires Inv(st) && i < |st.records| && st.records[i].shortCode == code
    ensures Lookup(st, code).Some? && Lookup(st, code).value.id == st.records[i].id
    ensures CacheKey(code) !in st.cache ==> Lookup(st, code) == Some(st.records[i])
  {
    FindCodeUnique(st, i);
    var key := CacheKey(code);
    if key in st.cache {
      var c := st.cache[key];
      var k := FindId(st.records, c.id).value;
      CacheKeyInjective(code, c.shortCode);
      FindCodeUnique(st, k);
    }
  }

  /** Incrementing by a stored id touches that record only. */
  lemma IncrementOne(st: State, i: nat)
    requires Inv(st) && i < |st.records|
    ensures var rs' := Increment(st.records, st.records[i].id);
      && rs'[i] == st.records[i].(clicks := st.records[i].clicks + 1)
      && forall j | 0 <= j < |st.records| && j != i :: rs'[j] == st.records[j]
  {
    forall j | 0 <= j < |st.records| && j != i ensures st.records[j].id != st.records[i].id {
      if j < i { assert st.records[j].id < st.records[i].id; }
      else { assert st.records[i].id < st.records[j].id; }
    }
  }

  /** `show`: `Cache::remember` under "url_" + code, loading by code on a miss; 404 when there
      is no such record; otherwise count a click and redirect to the (possibly cached)
      record's URL. */
  function Show(st: State, code: string): (r: (State, Shown))
  {
    var key := CacheKey(code);
    match Lookup(st, code)
    case None => (st, NotFound)
    case Some(rec) =>
      var cache := if key in st.cache then st.cache else st.cache[key := rec];
      (State(Increment(st.records, rec.id), cache, st.nextId), Redirect(rec.originalUrl))
  }

  /** An unknown code is answered 404 and changes nothing. */
  lemma ShowNotFound(st: State, code: string)
    requires Inv(st)
    ensures Show(st, code).1 == NotFound <==> FindCode(st.records, code).None?
    ensures Show(st, code).1 == NotFound ==> Show(st, code).0 == st
  {
    var key := CacheKey(code);
    if key in st.cache {
      var c := st.cache[key];
      CacheKeyInjective(code, c.shortCode);
      var i := FindId(st.records, c.id).value;
      assert st.records[i].shortCode == code;
    }
  }

  /** A known code: exactly that record gains one click, the record is cached under its
      key, and the redirect goes to the cached copy's URL when there was one, else to the
      stored URL. */
  lemma ShowFound(st: State, code: string, i: nat)
    requires Inv(st) && i < |st.records| && st.records[i].shortCode == code
    ensures var (st', shown) := Show(st, code);
      && |st'.records| == |st.records|
      && st'.records[i] == st.records[i].(clicks := st.records[i].clicks + 1)
      && (forall j | 0 <= j < |st.records| && j != i :: st'.records[j] == st.records[j])
      && CacheKey(code) in st'.cache
      && (CacheKey(code) in st.cache ==> st'.cache == st.cache && shown == Redirect(st.cache[CacheKey(code)].originalUrl))
      && (CacheKey(code) !in st.cache ==> st'.cache == st.cache[CacheKey(code) := st.records[i]]
                                           && shown == Redirect(st.records[i].originalUrl))
      && st'.nextId == st.nextId
  {
    LookupFound(st, code, i);
    IncrementOne(st, i);
  }

  lemma ShowPreservesInv(st: State, code: string)
    requires Inv(st)
    ensures Inv(Show(st, code).0)
  {
    match FindCode(st.records, code)
    case None =>
      ShowNotFound(st, code);
    case Some(i) =>
      ShowFound(st, code, i);
      ShowFoundInv(st, i, Show(st, code).0);
  }

  /** The state after a found `show`: one more click on record i, and that record cached. */
  lemma ShowFoundInv(st: State, i: nat, st': State)
    requires Inv(st) && i < |st.records|
    requires |st'.records| == |st.records| && st'.nextId == st.nextId
    requires st'.records[i] == st.records[i].(clicks := st.records[i].clicks + 1)
    requires forall j | 0 <= j < |st.records| && j != i :: st'.records[j] == st.records[j]
    requires CacheKey(st.records[i].shortCode) in st.cache ==> st'.cache == st.cache
    requires CacheKey(st.records[i].shortCode) !in st.cache ==>
      st'.cache == st.cache[CacheKey(st.records[i].shortCode) := st.records[i]]
    ensures Inv(st')
  {
    var mid := st.(cache := st'.cache);
    ShowCacheInv(st, i, st'.cache);
    RelabelPreservesInv(mid, st'.records);
    assert st' == mid.(records := st'.records);
  }

  lemma ShowCacheInv(st: State, i: nat, cache': map<string, UrlRecord>)
    requires Inv(st) && i < |st.records|
    requires CacheKey(st.records[i].shortCode) in st.cache ==> cache' == st.cache
    requires CacheKey(st.records[i].shortCode) !in st.cache ==>
      cache' == st.cache[CacheKey(st.records[i].shortCode) := st.records[i]]
    ensures Inv(st.(cache := cache'))
  {
    if CacheKey(st.records[i].shortCode) !in st.cache {
      CachePutPreservesInv(st, i);
    }
  }

  /** Caching a stored record under its own key keeps the invariant. */
  lemma CachePutPreservesInv(st: State, i: nat)
    requires Inv(st) && i < |st.records|
    ensures Inv(st.(cache := st.cache[CacheKey(st.records[i].shortCode) := st.records[i]]))
  {
    FindIdUnique(st, i);
  }

  /** Replacing rows by rows with the same id, code and owner keeps the invariant. */
  lemma RelabelPreservesInv(st: State, rs': seq<UrlRecord>)
    requires Inv(st) && |rs'| == |st.records|
    requires forall j | 0 <= j < |rs'| ::
      rs'[j].id == st.records[j].id && rs'[j].shortCode == st.records[j].shortCode && rs'[j].deviceId == st.records[j].deviceId
    ensures Inv(st.(records := rs'))
  {
    forall key | key in st.cache ensures Backed(rs', st.cache[key]) {
      BackedRelabel(st.records, rs', st.cache[key]);
    }
  }

  lemma BackedRelabel(rs: seq<UrlRecord>, rs': seq<UrlRecord>, c: UrlRecord)
    requires |rs'| == |rs| && Backed(rs, c)
    requires forall j | 0 <= j < |rs| :: rs'[j].id == rs[j].id && rs'[j].shortCode == rs[j].shortCode && rs'[j].deviceId == rs[j].deviceId
    ensures Backed(rs', c)
  {
    SameIdsFind(rs, rs', c.id);
  }

  lemma {:induction false} SameIdsFind(rs: seq<UrlRecord>, rs': seq<UrlRecord>, id: nat)
    requires |rs'| == |rs|
    requires forall j | 0 <= j < |rs| :: rs'[j].id == rs[j].id
    ensures FindId(rs', id) == FindId(rs, id)
  {
    if rs != [] {
      SameIdsFind(rs[1..], rs'[1..], id);
    }
  }

  // ---------------------------------------------------------------- update

  datatype UpdateResponse = UpdateRefused(status: nat, error: string) | UpdateInvalid | Updated(record: UrlRecord)

  /** The owner `authorize` compares the header with: the device of the record with that id. */
  function Owner(st: State, id: nat): (owner: Option<Bytes>)
    ensures owner.Some? <==> FindId(st.records, id).Some?
  {
    match FindId(st.records, id) case None => None case Some(i) => Some(st.records[i].deviceId)
  }

  /** `PUT /api/urls/{id}`: authorization, then the body rules (`rulesPass`, the outcome of
      the declarative validation, 422 otherwise), then `update`: only `original_url`
      changes, to the re-sanitized and normalized input; the cache is not touched. */
  function HandleUpdate(st: State, id: nat, header: Option<Bytes>, raw: Bytes, rulesPass: bool): (r: (State, UpdateResponse))
    ensures r.1.Updated? ==> FindId(st.records, id).Some?
  {
    match Decide(UpdateAction, header, Owner(st, id))
    case Denied(status, error) => (st, UpdateRefused(status, error))
    case Allowed =>
      if !rulesPass then (st, UpdateInvalid)
      else
        var i := FindId(st.records, id).value;
        var rec := st.records[i].(originalUrl := NormalizeUrl(SanitizeUrl(raw)));
        (st.(records := st.records[i := rec]), Updated(rec))
  }

  /** An update reaches the controller exactly when the header names the record's owner, and
      then changes that record's URL and nothing else, cache included. */
  lemma UpdateEffect(st: State, id: nat, header: Option<Bytes>, raw: Bytes)
    ensures var (st', resp) := HandleUpdate(st, id, header, raw, true);
      && (resp.Updated? <==> Authorize(header, Owner(st, id)))
      && (!resp.Updated? ==> st' == st && resp == UpdateRefused(FailedAuthorization(UpdateAction, header, Owner(st, id)).status,
                                                              FailedAuthorization(UpdateAction, header, Owner(st, id)).error))
      && (resp.Updated? ==>
            var i := FindId(st.records, id).value;
            && st'.cache == st.cache && st'.nextId == st.nextId && |st'.records| == |st.records|
            && st'.records[i] == st.records[i].(originalUrl := NormalizeUrl(SanitizeUrl(raw)))
            && resp.record == st'.records[i]
            && (forall j | 0 <= j < |st.records| && j != i :: st'.records[j] == st.records[j]))
  {
  }

  lemma UpdatePreservesInv(st: State, id: nat, header: Option<Bytes>, raw: Bytes, rulesPass: bool)
    requires Inv(st)
    ensures Inv(HandleUpdate(st, id, header, raw, rulesPass).0)
  {
    var (st', resp) := HandleUpdate(st, id, header, raw, rulesPass);
    if resp.Updated? {
      RelabelPreservesInv(st, st'.records);
    }
  }

  /** The redirect cache is not invalidated by an update: a code cached before it still
      redirects to the cached URL afterwards. */
  lemma StaleRedirectAfterUpdate(st: State, id: nat, header: Option<Bytes>, raw: Bytes, code: string)
    requires Inv(st) && CacheKey(code) in st.cache
    ensures Show(HandleUpdate(st, id, header, raw, true).0, code).1 == Redirect(st.cache[CacheKey(code)].originalUrl)
  {
  }

  // ---------------------------------------------------------------- destroy

  datatype DestroyResponse = DestroyRefused(status: nat, error: string) | NoContent

  /** The table without the row at position i. */
  function RemoveAt(rs: seq<UrlRecord>, i: nat): (r: seq<UrlRecord>)
    requires i < |rs|
    ensures |r| == |rs| - 1
    ensures forall j | 0 <= j < i :: r[j] == rs[j]
    ensures forall j | i <= j < |r| :: r[j] == rs[j + 1]
  {
    rs[..i] + rs[i + 1..]
  }

  /** `DELETE /api/urls/{id}`: authorization, then forget "url_" + code and delete the row. */
  function HandleDestroy(st: State, id: nat, header: Option<Bytes>): (r: (State, DestroyResponse))
  {
    match Decide(DeleteAction, header, Owner(st, id))
    case Denied(status, error) => (st, DestroyRefused(status, error))
    case Allowed =>
      var i := FindId(st.records, id).value;
      var code := st.records[i].shortCode;
      (State(RemoveAt(st.records, i), st.cache - {CacheKey(code)}, st.nextId), NoContent)
  }

  /** A deletion by the owner removes exactly that record and its cache entry. */
  lemma DestroyEffect(st: State, id: nat, header: Option<Bytes>)
    ensures var (st', resp) := HandleDestroy(st, id, header);
      && (resp == NoContent <==> Authorize(header, Owner(st, id)))
      && (resp != NoContent ==> st' == st)
      && (resp == NoContent ==>
            var i := FindId(st.records, id).value;
            && st'.records == RemoveAt(st.records, i)
            && st'.cache == st.cache - {CacheKey(st.records[i].shortCode)}
            && st'.nextId == st.nextId)
  {
  }

  lemma DestroyPreservesInv(st: State, id: nat, header: Option<Bytes>)
    requires Inv(st)
    ensures Inv(HandleDestroy(st, id, header).0)
  {
    if HandleDestroy(st, id, header).1 == NoContent {
      RemovePreservesInv(st, FindId(st.records, id).value);
    }
  }

  /** Deleting row i together with the cache entry of its code keeps the invariant. */
  lemma RemovePreservesInv(st: State, i: nat)
    requires Inv(st) && i < |st.records|
    ensures Inv(State(RemoveAt(st.records, i), st.cache - {CacheKey(st.records[i].shortCode)}, st.nextId))
  {
    RemoveOrder(st, i);
    RemoveCache(st, i);
  }

  lemma RemoveOrder(st: State, i: nat)
    requires Inv(st) && i < |st.records|
    ensures var rs' := RemoveAt(st.records, i);
      && (forall a, b | 0 <= a < b < |rs'| :: rs'[a].id < rs'[b].id && rs'[a].shortCode != rs'[b].shortCode)
      && (forall a | 0 <= a < |rs'| :: rs'[a].id < st.nextId)
  {
    var rs := st.records;
    var rs' := RemoveAt(rs, i);
    forall a, b | 0 <= a < b < |rs'| ensures rs'[a].id < rs'[b].id && rs'[a].shortCode != rs'[b].shortCode {
      var a0 := if a < i then a else a + 1;
      var b0 := if b < i then b else b + 1;
      assert rs'[a] == rs[a0] && rs'[b] == rs[b0] && a0 < b0;
    }
    forall a | 0 <= a < |rs'| ensures rs'[a].id < st.nextId {
      assert rs'[a] == rs[if a < i then a else a + 1];
    }
  }

  lemma RemoveCache(st: State, i: nat)
    requires Inv(st) && i < |st.records|
    ensures var cache' := st.cache - {CacheKey(st.records[i].shortCode)};
      forall key | key in cache' :: key == CacheKey(cache'[key].shortCode) && Backed(RemoveAt(st.records, i), cache'[key])
  {
    var cache' := st.cache - {CacheKey(st.records[i].shortCode)};
    forall key | key in cache' ensures Backed(RemoveAt(st.records, i), cache'[key]) {
      var c := st.cache[key];
      var k := FindId(st.records, c.id).value;
      CacheKeyInjective(c.shortCode, st.records[i].shortCode);
      assert k != i;
      RemoveKeepsFind(st, i, k);
    }
  }

  /** Removing row i moves a later row one position down and keeps it findable by id. */
  lemma RemoveKeepsFind(st: State, i: nat, k: nat)
    requires Inv(st) && i < |st.records| && k < |st.records| && k != i
    ensures var rs' := RemoveAt(st.records, i);
      FindId(rs', st.records[k].id) == Some(if k < i then k else k - 1)
  {
    var rs' := RemoveAt(st.records, i);
    var p := if k < i then k else k - 1;
    assert rs'[p] == st.records[k];
  }

  /** After the owner deletes a record, its short code is answered 404. */
  lemma ShowAfterDestroy(st: State, id: nat, header: Option<Bytes>, i: nat)
    requires Inv(st) && i < |st.records| && st.records[i].id == id
    requires HandleDestroy(st, id, header).1 == NoContent
    ensures Show(HandleDestroy(st, id, header).0, st.records[i].shortCode).1 == NotFound
  {
    var st' := HandleDestroy(st, id, header).0;
    var code := st.records[i].shortCode;
    FindIdUnique(st, i);
    DestroyPreservesInv(st, id, header);
    forall j | 0 <= j < |st'.records| ensures st'.records[j].shortCode != code {
      var j0 := if j < i then j else j + 1;
      assert st'.records[j] == st.records[j0];
      if j0 < i { assert st.records[j0].shortCode != st.records[i].shortCode; }
      else { assert st.records[i].shortCode != st.records[j0].shortCode; }
    }
    ShowNotFound(st', code);
  }

  /** A freshly stored code redirects to the stored URL. */
  lemma ShowAfterStore(st: State, raw: Bytes, device: Bytes, code: string)
    requires Inv(st) && code !in Codes(st)
    ensures Show(Store(st, raw, device, code).0, code).1 == Redirect(NormalizeUrl(SanitizeUrl(raw)))
  {
    var (st', created) := Store(st, raw, device, code);
    StoreRecord(st, raw, device, code);
    FreshCodeNotCached(st, code);
    FindCodeAppend(st.records, created.record);
    assert Lookup(st', code) == Some(created.record);
  }

  /** Every cached record's code is in use. */
  lemma CachedCodeStored(st: State, key: string)
    requires Inv(st) && key in st.cache
    ensures st.cache[key].shortCode in Codes(st)
  {
    var i := FindId(st.records, st.cache[key].id).value;
    assert st.records[i].shortCode == st.cache[key].shortCode;
  }

  /** A code no record has is not cached either. */
  lemma FreshCodeNotCached(st: State, code: string)
    requires Inv(st) && code !in Codes(st)
    ensures CacheKey(code) !in st.cache
  {
    forall key | key in st.cache ensures key != CacheKey(code) {
      CachedCodeStored(st, key);
      CacheKeyInjective(code, st.cache[key].shortCode);
    }
  }

  /** A record appended with a code no other record has is found at the end. */
  lemma {:induction false} FindCodeAppend(rs: seq<UrlRecord>, rec: UrlRecord)
    requires forall j | 0 <= j < |rs| :: rs[j].shortCode != rec.shortCode
    ensures FindCode(rs + [rec], rec.shortCode) == Some(|rs|)
  {
    if rs != [] {
      assert (rs + [rec])[1..] == rs[1..] + [rec];
      FindCodeAppend(rs[1..], rec);
    }
  }
}

=== FILE: url_validator.dfy ===
/**
 * `validateUrl` of the URL validator service: an empty check, sanitization, the strict
 * `scheme://host[:port][/path]` match on the sanitized string, then six checks that all
 * run and each add at most one error, in a fixed order.
 */
module UrlValidator {
  import opened Wrappers
  import opened Bytes
  import opened PercentEncoding
  import opened UrlPattern
  import opened UrlSanitizer
  import opened UrlChecks

  /** The errors `validateUrl` can report, in the order it reports them. */
  datatype UrlError =
    | Required
    | InvalidFormat
    | InvalidScheme(scheme: Bytes)
    | UncommonScheme(scheme: Bytes)
    | InvalidHost(host: Bytes)
    | InvalidPort(port: Bytes)
    | InvalidPath(path: Bytes)
    | TooLong

  /** The position of an error kind in the order of the checks. */
  function Rank(e: UrlError): nat {
    match e
    case Required => 0
    case InvalidFormat => 1
    case InvalidScheme(_) => 2
    case UncommonScheme(_) => 3
    case InvalidHost(_) => 4
    case InvalidPort(_) => 5
    case InvalidPath(_) => 6
    case TooLong => 7
  }

  /** The text the service puts in its `errors` array. */
  function Message(e: UrlError): string {
    match e
    case Required => "URL is required"
    case InvalidFormat => "Invalid URL format. URL must follow the pattern: scheme://host[:port][/path]"
    case InvalidScheme(s) =>
      "Invalid scheme: " + s + ". Scheme must start with a letter and contain only letters, digits, +, -, or ."
    case UncommonScheme(s) => "Uncommon scheme: " + s + ". Common schemes are: http, https"
    case InvalidHost(h) => "Invalid host: " + h + ". Host must be a valid domain name or IP address"
    case InvalidPort(p) => "Invalid port: " + p + ". Port must be a number between 1 and 65535"
    case InvalidPath(p) => "Invalid path: " + p + ". Path contains invalid characters"
    case TooLong => "URL is too long. Maximum length is 2048 characters"
  }

  function Messages(errors: seq<UrlError>): (r: seq<string>)
    ensures |r| == |errors| && forall i | 0 <= i < |r| :: r[i] == Message(errors[i])
  {
    if errors == [] then [] else [Message(errors[0])] + Messages(errors[1..])
  }

  /** The `['valid' => ..., 'errors' => ..., 'parts' => ...]` array. `parts` holds the
      scheme, the host, the port digits without ':' and the path. */
  datatype Validation = Validation(valid: bool, errors: seq<UrlError>, parts: Option<Captures>)

  const MaxLength := 2048

  /** `in_array(strtolower($scheme), ['http', 'https'])` */
  predicate IsCommonScheme(scheme: Bytes) {
    Lower(scheme) == "http" || Lower(scheme) == "https"
  }

  /** The errors are listed in strictly increasing order of their check. */
  predicate InCheckOrder(errors: seq<UrlError>) {
    forall i, j | 0 <= i < j < |errors| :: Rank(errors[i]) < Rank(errors[j])
  }

  function PortErrors(port: Option<Bytes>): (r: seq<UrlError>)
    requires port.Some? ==> AllDigits(port.value)
    ensures |r| <= 1 && forall e | e in r :: e.InvalidPort?
    ensures r == [] <==> (port.Some? ==> ValidatePort(port.value))
  {
    match port
    case None => []
    case Some(p) => if ValidatePort(p) then [] else [InvalidPort(p)]
  }

  function PathErrors(path: Option<Bytes>): (r: seq<UrlError>)
    ensures |r| <= 1 && forall e | e in r :: e.InvalidPath?
    ensures r == [] <==> (path.Some? ==> ValidatePath(path.value))
  {
    match path
    case None => []
    case Some(p) => if ValidatePath(p) then [] else [InvalidPath(p)]
  }

  /** One check: no error when it passes, otherwise `e`. */
  function Check(passes: bool, e: UrlError): (r: seq<UrlError>)
    ensures r == [] <==> passes
    ensures |r| <= 1 && forall x | x in r :: x == e
  {
    if passes then [] else [e]
  }

  /** Two ordered runs whose ranks do not overlap concatenate to an ordered run. */
  lemma InCheckOrderAppend(a: seq<UrlError>, b: seq<UrlError>, k: nat)
    requires InCheckOrder(a) && InCheckOrder(b)
    requires forall e | e in a :: Rank(e) < k
    requires forall e | e in b :: k <= Rank(e)
    ensures InCheckOrder(a + b)
  {
    forall i, j | 0 <= i < j < |a + b| ensures Rank((a + b)[i]) < Rank((a + b)[j]) {
      if j < |a| {
        assert (a + b)[i] == a[i] && (a + b)[j] == a[j];
      } else if i < |a| {
        assert (a + b)[i] in a && (a + b)[j] in b;
      } else {
        assert (a + b)[i] == b[i - |a|] && (a + b)[j] == b[j - |a|];
      }
    }
  }

  /** The six checks after a successful match of the sanitized string `s` with groups `c`. */
  function Checks(s: Bytes, c: Captures): (r: seq<UrlError>)
    requires WellFormed(c)
    ensures r == [] <==>
      && ValidateScheme(c.scheme) && IsCommonScheme(c.scheme) && ValidateHost(c.host)
      && (c.port.Some? ==> ValidatePort(c.port.value))
      && (c.path.Some? ==> ValidatePath(c.path.value))
      && |s| <= MaxLength
  {
    Check(ValidateScheme(c.scheme), InvalidScheme(c.scheme))
    + Check(IsCommonScheme(c.scheme), UncommonScheme(c.scheme))
    + Check(ValidateHost(c.host), InvalidHost(c.host))
    + PortErrors(c.port)
    + PathErrors(c.path)
    + Check(|s| <= MaxLength, TooLong)
  }

  /** The checks report in the order scheme, common scheme, host, port, path, length. */
  lemma ChecksInOrder(s: Bytes, c: Captures)
    requires WellFormed(c)
    ensures InCheckOrder(Checks(s, c))
    ensures forall e | e in Checks(s, c) :: 2 <= Rank(e)
  {
    var a := Check(ValidateScheme(c.scheme), InvalidScheme(c.scheme));
    var b := Check(IsCommonScheme(c.scheme), UncommonScheme(c.scheme));
    var h := Check(ValidateHost(c.host), InvalidHost(c.host));
    var p := PortErrors(c.port);
    var q := PathErrors(c.path);
    var l := Check(|s| <= MaxLength, TooLong);
    InCheckOrderAppend(a, b, 3);
    InCheckOrderAppend(a + b, h, 4);
    InCheckOrderAppend(a + b + h, p, 5);
    InCheckOrderAppend(a + b + h + p, q, 6);
    InCheckOrderAppend(a + b + h + p + q, l, 7);
  }

  /** Every check runs: each failing check adds its own error, and nothing else is reported. */
  lemma ChecksReport(s: Bytes, c: Captures)
    requires WellFormed(c)
    ensures InvalidScheme(c.scheme) in Checks(s, c) <==> !ValidateScheme(c.scheme)
    ensures UncommonScheme(c.scheme) in Checks(s, c) <==> !IsCommonScheme(c.scheme)
    ensures InvalidHost(c.host) in Checks(s, c) <==> !ValidateHost(c.host)
    ensures c.port.Some? ==> (InvalidPort(c.port.value) in Checks(s, c) <==> !ValidatePort(c.port.value))
    ensures c.path.Some? ==> (InvalidPath(c.path.value) in Checks(s, c) <==> !ValidatePath(c.path.value))
    ensures TooLong in Checks(s, c) <==> |s| > MaxLength
    ensures forall e | e in Checks(s, c) ::
      || e == InvalidScheme(c.scheme) || e == UncommonScheme(c.scheme) || e == InvalidHost(c.host)
      || (c.port.Some? && e == InvalidPort(c.port.value))
      || (c.path.Some? && e == InvalidPath(c.path.value))
      || e == TooLong
  {
    ChecksMember(s, c, InvalidScheme(c.scheme));
    ChecksMember(s, c, UncommonScheme(c.scheme));
    ChecksMember(s, c, InvalidHost(c.host));
    if c.port.Some? {
      ChecksMember(s, c, InvalidPort(c.port.value));
    }
    if c.path.Some? {
      ChecksMember(s, c, InvalidPath(c.path.value));
    }
    ChecksMember(s, c, TooLong);
    forall e | e in Checks(s, c)
      ensures || e == InvalidScheme(c.scheme) || e == UncommonScheme(c.scheme) || e == InvalidHost(c.host)
              || (c.port.Some? && e == InvalidPort(c.port.value))
              || (c.path.Some? && e == InvalidPath(c.path.value))
              || e == TooLong
    {
      ChecksMember(s, c, e);
    }
  }

  /** `e` is the error of one of the six checks, and that check fails on `s` and `c`. */
  predicate FailedCheck(s: Bytes, c: Captures, e: UrlError)
    requires WellFormed(c)
  {
    || (e == InvalidScheme(c.scheme) && !ValidateScheme(c.scheme))
    || (e == UncommonScheme(c.scheme) && !IsCommonScheme(c.scheme))
    || (e == InvalidHost(c.host) && !ValidateHost(c.host))
    || (c.port.Some? && e == InvalidPort(c.port.value) && !ValidatePort(c.port.value))
    || (c.path.Some? && e == InvalidPath(c.path.value) && !ValidatePath(c.path.value))
    || (e == TooLong && |s| > MaxLength)
  }

  /** An error is among the checks' errors exactly when it is the error of a check that fails. */
  lemma ChecksMember(s: Bytes, c: Captures, e: UrlError)
    requires WellFormed(c)
    ensures e in Checks(s, c) <==> FailedCheck(s, c, e)
  {
    var a := Check(ValidateScheme(c.scheme), InvalidScheme(c.scheme));
    var b := Check(IsCommonScheme(c.scheme), UncommonScheme(c.scheme));
    var h := Check(ValidateHost(c.host), InvalidHost(c.host));
    var p := PortErrors(c.port);
    var q := PathErrors(c.path);
    var l := Check(|s| <= MaxLength, TooLong);
    InSix(a, b, h, p, q, l, Checks(s, c), e);
  }

  /** Membership in six runs concatenated. */
  lemma InSix(a: seq<UrlError>, b: seq<UrlError>, h: seq<UrlError>, p: seq<UrlError>,
              q: seq<UrlError>, l: seq<UrlError>, r: seq<UrlError>, e: UrlError)
    requires r == a + b + h + p + q + l
    ensures e in r <==> e in a || e in b || e in h || e in p || e in q || e in l
  {
  }

  /** `validateUrl`. */
  function ValidateUrl(url: Bytes): (r: Validation)
    ensures r.valid <==> r.errors == []
    ensures r.parts.Some? <==> r.valid
    ensures r.parts.Some? ==> WellFormed(r.parts.value) && Assemble(r.parts.value) == SanitizeUrl(url)
    ensures InCheckOrder(r.errors)
  {
    if PhpEmpty(url) then Validation(false, [Required], None)
    else
      var s := SanitizeUrl(url);
      match StrictMatch(s)
      case None => Validation(false, [InvalidFormat], None)
      case Some(c) =>
        var errors := Checks(s, c);
        SanitizedMatch(url, c);
        ChecksInOrder(s, c);
        Validation(errors == [], errors, if errors == [] then Some(c) else None)
  }

  /** The strict pattern never matches a sanitized URL with the "\n" allowance. */
  lemma SanitizedMatch(url: Bytes, c: Captures)
    requires !PhpEmpty(url) && StrictMatch(SanitizeUrl(url)) == Some(c)
    ensures Assemble(c) == SanitizeUrl(url)
  {
    SanitizeLastByte(url);
  }

  // ---------------------------------------------------------------- properties

  /** An empty input (PHP `empty`: "" or "0") is rejected as missing, before sanitizing. */
  lemma ValidateEmpty(url: Bytes)
    requires PhpEmpty(url)
    ensures ValidateUrl(url) == Validation(false, [Required], None)
    ensures Messages(ValidateUrl(url).errors) == ["URL is required"]
  {
  }

  /** When the sanitized string fails the strict pattern, the format error is the only one. */
  lemma FormatFailureAlone(url: Bytes)
    requires !PhpEmpty(url) && StrictMatch(SanitizeUrl(url)).None?
    ensures ValidateUrl(url) == Validation(false, [InvalidFormat], None)
  {
  }

  /** The scheme check can never fail: the scheme group already has the scheme syntax. */
  lemma NeverInvalidScheme(url: Bytes)
    ensures forall e | e in ValidateUrl(url).errors :: !e.InvalidScheme?
  {
    if !PhpEmpty(url) {
      var s := SanitizeUrl(url);
      match StrictMatch(s)
      case None =>
      case Some(c) =>
        NoSchemeError(s, c);
    }
  }

  lemma NoSchemeError(s: Bytes, c: Captures)
    requires WellFormed(c)
    ensures forall e | e in Checks(s, c) :: !e.InvalidScheme?
  {
    forall e | e in Checks(s, c) ensures !e.InvalidScheme? {
      ChecksMember(s, c, e);
    }
  }

  /** The path check can never fail: sanitizing has escaped every unsafe byte of the path. */
  lemma NeverInvalidPath(url: Bytes)
    ensures forall e | e in ValidateUrl(url).errors :: !e.InvalidPath?
  {
    if !PhpEmpty(url) {
      var s := SanitizeUrl(url);
      match StrictMatch(s)
      case None =>
      case Some(c) =>
        SanitizedMatch(url, c);
        if c.path.Some? {
          SanitizedPathSafe(url, c);
        }
        NoPathError(s, c);
    }
  }

  lemma NoPathError(s: Bytes, c: Captures)
    requires WellFormed(c) && (c.path.Some? ==> ValidatePath(c.path.value))
    ensures forall e | e in Checks(s, c) :: !e.InvalidPath?
  {
    forall e | e in Checks(s, c) ensures !e.InvalidPath? {
      ChecksMember(s, c, e);
    }
  }

  /** A URL is valid exactly when it is non-empty, its sanitized form matches the strict
      pattern, the scheme is http or https in any case, the host is a dotted quad or a domain
      name, a port is in 1..65535, and the sanitized form has at most 2048 bytes. */
  lemma ValidateUrlValidIff(url: Bytes)
    ensures ValidateUrl(url).valid <==>
      && !PhpEmpty(url)
      && StrictMatch(SanitizeUrl(url)).Some?
      && var c := StrictMatch(SanitizeUrl(url)).value;
      && IsCommonScheme(c.scheme)
      && ValidateHost(c.host)
      && (c.port.Some? ==> ValidatePort(c.port.value))
      && |SanitizeUrl(url)| <= MaxLength
  {
    if !PhpEmpty(url) {
      var s := SanitizeUrl(url);
      match StrictMatch(s)
      case None =>
      case Some(c) =>
        SanitizedMatch(url, c);
        if c.path.Some? {
          SanitizedPathSafe(url, c);
        }
    }
  }

  /** Errors in check order name each check at most once. */
  lemma InCheckOrderDistinct(errors: seq<UrlError>)
    requires InCheckOrder(errors)
    ensures forall i, j | 0 <= i < j < |errors| :: errors[i] != errors[j]
  {
  }

  /** A matched scheme other than http/https (in any case) is reported, once, with the
      uncommon-scheme error. */
  lemma UncommonSchemeReported(url: Bytes)
    requires !PhpEmpty(url) && StrictMatch(SanitizeUrl(url)).Some?
    requires !IsCommonScheme(StrictMatch(SanitizeUrl(url)).value.scheme)
    ensures UncommonScheme(StrictMatch(SanitizeUrl(url)).value.scheme) in ValidateUrl(url).errors
    ensures forall i, j | 0 <= i < j < |ValidateUrl(url).errors| ::
              ValidateUrl(url).errors[i] != ValidateUrl(url).errors[j]
  {
    var s := SanitizeUrl(url);
    var c := StrictMatch(s).value;
    ChecksReport(s, c);
    assert ValidateUrl(url).errors == Checks(s, c);
    InCheckOrderDistinct(ValidateUrl(url).errors);
  }

  /** Once the sanitized string matches, no check short-circuits another: every failing
      check contributes its error to `validateUrl`'s list, and only failing checks do. */
  lemma ValidateUrlReportsEach(url: Bytes, e: UrlError)
    requires !PhpEmpty(url) && StrictMatch(SanitizeUrl(url)).Some?
    ensures var c := StrictMatch(SanitizeUrl(url)).value;
      e in ValidateUrl(url).errors <==> FailedCheck(SanitizeUrl(url), c, e)
  {
    var s := SanitizeUrl(url);
    var c := StrictMatch(s).value;
    assert ValidateUrl(url).errors == Checks(s, c);
    ChecksMember(s, c, e);
  }
}

=== FILE: url_validator_examples.dfy ===
/** Concrete runs of the sanitizer and the validator. */
module UrlValidatorExamples {
  import opened Wrappers
  import opened Bytes
  import opened UrlPattern
  import opened UrlSanitizer
  import opened UrlChecks
  import opened UrlValidator

  const Bare: Bytes := "example.com"
  const WithScheme: Bytes := "https://example.com"

  lemma BareIsTrimmed()
    ensures Trim(Bare) == Bare
  {
    TrimNoop(Bare);
  }

  lemma BareHasNoSchemePrefix()
    ensures !HasSchemePrefix(Bare)
  {
    assert forall k | 0 <= k < |Bare| :: IsSchemeByte(Bare[k]);
    SpanWhileExact(Bare, 0, |Bare|, IsSchemeByte);
  }

  function ExampleParts(): Captures {
    Captures("https", "example.com", None, None)
  }

  lemma ExamplePartsWellFormed()
    ensures WellFormed(ExampleParts()) && Assemble(ExampleParts()) == WithScheme
  {
  }

  lemma ExamplePartsSanitized()
    ensures SanitizedParts(ExampleParts()) == ExampleParts()
  {
    LowerNoop("https");
    LowerNoop("example.com");
  }

  lemma ExampleMatch()
    ensures StrictMatch(WithScheme) == Some(ExampleParts())
  {
    ExamplePartsWellFormed();
    StrictMatchIff(WithScheme, ExampleParts());
  }

  /** A scheme-less URL gets "https://" in front. */
  lemma SanitizeBare()
    ensures SanitizeUrl(Bare) == WithScheme
  {
    BareIsTrimmed();
    BareHasNoSchemePrefix();
    BareText();
    ExampleMatch();
    ExamplePartsSanitized();
    ExamplePartsWellFormed();
    SanitizeWithoutScheme(Bare, ExampleParts());
  }

  lemma BareText()
    ensures "https://" + Bare == WithScheme
  {
  }

  lemma ExampleHostValid()
    ensures ValidateHost("example.com")
  {
    TwoLabelAccepted("example", "com");
    ExampleHostText();
  }

  lemma ExampleHostText()
    ensures "example" + "." + "com" == "example.com"
  {
  }

  lemma HttpsIsCommon()
    ensures IsCommonScheme("https")
  {
    LowerNoop("https");
  }

  /** Scheme-less input passes validation, because validation sanitizes first. */
  lemma BareIsValid()
    ensures ValidateUrl(Bare).valid
    ensures ValidateUrl(Bare).parts == Some(ExampleParts())
  {
    SanitizeBare();
    ExampleMatch();
    ExampleHostValid();
    HttpsIsCommon();
    ValidateUrlValidIff(Bare);
  }

  /** "0" is PHP-empty: sanitizing gives "" and validation reports a missing URL. */
  lemma ZeroIsEmpty()
    ensures SanitizeUrl("0") == []
    ensures ValidateUrl("0") == Validation(false, [Required], None)
  {
    ValidateEmpty("0");
  }
}

=== FILE: wrappers.dfy ===
/** Optional values, used wherever the PHP code returns null or an absent capture group. */
module Wrappers {

  datatype Option<+T> = None | Some(value: T) {

    /** The encapsulated value, or `default` when absent. */
    function GetOr(default: T): T {
      match this
      case Some(v) => v
      case None => default
    }
  }
}
